=== FILE: README.md ===
# Squire sync engine and store, in Dafny

Squire keeps a local SQLite copy of a repository's GitHub pull requests and
lets an agent attach review comments to them. This project models the core
of that engine as pure Dafny functions over immutable data, and proves what
the engine promises.

- **`Sync`**: one pass of `sync_repository`. A pass chooses the fetch set:
  either the whole paginated listing, or, incrementally, the newest-first
  prefix that is no older than the watermark. It then upserts one row per
  fetched pull request with the documented defaults, and finally moves the
  watermark to the start time of the pass.
- **`Db`**: the four tables, modelled as maps and a sequence. The store
  carries an invariant with the keys, the foreign keys and the id counters.
  The operations are:
  - repository upsert, with its created flag;
  - the cascading delete;
  - touching the watermark;
  - the keyed pull-request upsert, which keeps the surrogate id;
  - the review and review-status tables;
  - the filtered, ordered listings.
- **`GitHub`**: the client constructor's checks and base-URL normalisation,
  the `_request` error rule, and `_paginate` over a page oracle. Pagination
  is given both as a recursive definition and as the loop.
- **`Normalize`**: the name validator, the state normaliser, reviewer
  extraction and the per-detail field defaults.
- **`Credentials`** and **`Session`**: the keychain as an abstract map, and
  token and base-URL precedence. `Session` also holds what both front ends
  share around a pass: opening the client, running the pass, and rolling
  back a failed add. The pass for one target is a function value, so the
  multi-target loops of both front ends are stated for any pass and then
  applied to the real one.
- **`Cli`**: the command-line front end's decisions:
  - the `repo add` rollback;
  - multi-target `sync`, which collects errors;
  - selecting local reviews to publish;
  - the published comment body.
- **`Api`**: the HTTP front end's decisions:
  - the CORS origin list;
  - decoding of stored reviewers;
  - field-set gating of the `POST /repos` overrides;
  - the status codes of a failed sync;
  - `POST /repos` with its rollback;
  - `POST /sync`.

`Wrappers`, `Text`, `Sorting` and `Failures` are support modules:
- `Option` and `Result`;
- Python's `strip`, `rstrip` and `split`;
- code-point string order;
- `str(int)`;
- `sorted(set(...))`;
- the exceptions the code raises, as values.

How the outside world is modelled:
- **GitHub** is an oracle. A listing is a sequence of replies, one per page. A detail document is a map from pull-request number to reply. A page past the end is an empty `200` reply, and an unknown number gives `404`.
- **Timestamps** are text, as stored. `_parse_iso_datetime` is a parameter `parse: string -> Option<int>`. `utcnow_iso()` is a `startedAt` or `now` argument.
- **Failures.** Every exception the core raises or catches is a `Failure` value. A failed pass returns only its error, because every caller rolls the transaction back to the last commit.

## Model

| member | source | states |
|---|---|---|
| `Normalize.ValidateRepoFullNameIff` | squire-engine/src/squire/sync.py:11-15 | a name is accepted exactly when it is two non-empty segments over `[A-Za-z0-9_.-]` joined by one `/` |
| `Normalize.TrailingNewlineAccepted` | squire-engine/src/squire/sync.py:11-15 | the pattern as written, with `$` under `re.match`, accepts `"a/b\n"`, which the intended check refuses |
| `Normalize.AsWrittenAgreesWithoutNewline` | squire-engine/src/squire/sync.py:11-15 | the as-written and the intended validators agree on every name that does not end in a newline |
| `Normalize.NormalizePrState` | squire-engine/src/squire/sync.py:28-34 | `merged` exactly for `closed` with a truthy `merged_at`; `closed` exactly for `closed` without one; `open` for every other state, present or not, even with `merged_at` set |
| `Normalize.ExtractReviewersIsReviewerSet` | squire-engine/src/squire/sync.py:37-49 | the reviewer list, strictly ascending by the function's own contract, holds exactly the non-empty logins and `team:` plus each non-empty slug |
| `Normalize.FieldsOfDefaults` | squire-engine/src/squire/sync.py:108-118 | for every detail document, each text column is the detail's value when that is non-empty, else its default: `""` for the title and branches, `unknown` for the author, and the pass start time for created and updated time. Changed files default to 0. The body is kept as sent, the state is the normalized one, and the synced time is the pass start |
| `Normalize.FieldsOfEmptyDetail` | squire-engine/src/squire/sync.py:108-118 | a detail with no optional fields gets title `""`, author `unknown`, state `open`, empty branches, 0 changed files, no reviewers, and the pass start time as created, updated and synced time |
| `Sync.FetchDetail` | squire-engine/src/squire/sync.py:100 | a number the server does not know fails with a 404 `GitHubError`. A known number yields exactly its detail document, unless that exchange failed at the transport or with a status of 400 or above, which is then the error |
| `Sync.UndatedEntryKept` | squire-engine/src/squire/sync.py:85-91 | an entry whose `updated_at` is missing or empty is never stale: the scan keeps it and reads on to the next entry |
| `Sync.ScanStopsOnlyAtDatedEntry` | squire-engine/src/squire/sync.py:85-91 | the entry that ends the fresh prefix always has an `updated_at` that parses to a time before the cutoff, so a missing, empty or unparseable timestamp never ends the scan |
| `Sync.FreshPrefixUnique` | squire-engine/src/squire/sync.py:85-91 | the kept items are the unique prefix whose items are all fresh and which stops at the first stale item, excluding it. An item is stale when its `updated_at` parses to a time before the cutoff. Unparseable items are fresh |
| `Sync.FreshPrefixAppend` | squire-engine/src/squire/sync.py:73-96 | scanning page by page gives the same prefix as scanning the concatenation: a stale item on an earlier page ends the scan |
| `Sync.ScanIsFreshPrefixOfPaginate` | squire-engine/src/squire/sync.py:70-96 | when the full listing succeeds, the incremental fetch set is exactly the fresh prefix of the newest-first listing |
| `Sync.TakeFresh` | squire-engine/src/squire/sync.py:85-91 | the inner loop keeps the fresh prefix of a page. It asks to stop exactly when it met a stale item |
| `Sync.IncrementalScan` | squire-engine/src/squire/sync.py:70-96 | the paging loop requests pages 1, 2, … with `sort=updated`, `direction=desc` and 100 per page. It continues past every page that does not end the scan and stops at the first one that does. The result is the recursive scan |
| `Sync.ScanPages` | squire-engine/src/squire/sync.py:70-96 | the loop records one query per page as it requests it: exactly the pages up to and including the first page that ends the scan, each with its page number |
| `Sync.FetchPulls` | squire-engine/src/squire/sync.py:67-96 | a full sync, or a missing or unparseable watermark, fetches the whole `state=all` listing. Otherwise the fetch set is the fresh prefix of the newest-first listing |
| `Sync.UpsertAll` | squire-engine/src/squire/sync.py:98-119 | succeeds exactly when every fetched detail is available. Afterwards there is one row per fetched number holding that detail's fields. Every other row, the repositories and the review tables are unchanged. The store invariant is kept |
| `Sync.SyncRepository` | squire-engine/src/squire/sync.py:52-123 | a pass succeeds exactly when the fetch set and every detail can be read. It returns the size of the fetch set |
| `Sync.SyncAdvancesWatermark` | squire-engine/src/squire/sync.py:59-123 | after a pass the repository is active, and its `last_synced_at` and `updated_at` are both the pass start time, whatever the remote timestamps. An existing row keeps its id, creation time and overrides. A new row's creation time is the start time, the model's single clock reading |
| `Sync.SyncWritesFetchedRows` | squire-engine/src/squire/sync.py:98-119 | the pull-request keys after a pass are the old keys plus the fetched ones. Each fetched row holds its detail's fields with `synced_at` equal to the start time. No other row changes |
| `Sync.SyncKeepsStoreValid` | squire-engine/src/squire/sync.py:52-123 | a pass keeps the store invariant and leaves every other repository row as it was |
| `Sync.UpsertAllNoop` | squire-engine/src/squire/sync.py:98-119 | upserting details that the rows already hold changes nothing |
| `Sync.TouchIdempotent` | squire-engine/src/squire/db.py:148-161 | touching the watermark twice with one timestamp is the same as touching it once |
| `Sync.FullSyncIdempotent` | squire-engine/src/squire/sync.py:52-123 | a second full pass against the same server with the same start time changes nothing and reports the same count |
| `Sync.IncrementalBoundaryExample` | squire-engine/src/squire/sync.py:85-91 | on a concrete page, an item newer than the cutoff and an unparseable one are kept. The first older item and everything after it are dropped |
| `Db.EmptyStore` | squire-engine/src/squire/db.py:24-77 | a freshly initialised schema is empty and satisfies every key and foreign-key constraint |
| `Db.UpsertRepository` | squire-engine/src/squire/db.py:89-112 | an existing name returns its id and "not created". That row is reactivated and its `updated_at` touched, keeping its creation time and watermark. A new name gets an active row with no watermark, an id no existing row holds, and "created". No other row changes |
| `Db.RemoveRepository` | squire-engine/src/squire/db.py:140-145 | reports whether the name existed. The cascade removes exactly that repository's pull requests and the reviews and status rows that hang off them. Everything else is kept |
| `Db.RemoveUndoesCreate` | squire-engine/src/squire/db.py:89-145 | creating a new repository and removing it again restores every table; only the id counter has moved on |
| `Db.TouchRepositorySyncedAt` | squire-engine/src/squire/db.py:148-161 | the row with that id gets one timestamp as both watermark and `updated_at`, the given one or else the clock. No other row or table changes |
| `Db.UpsertPullRequest` | squire-engine/src/squire/db.py:163-236 | fails on an unknown repository id. Otherwise exactly one row exists for `(repo_id, number)`, holding all mutable fields as given. On conflict it keeps its id, and a new row gets a fresh id. Other rows are unchanged |
| `Db.UpsertPullRequestIdempotent` | squire-engine/src/squire/db.py:163-236 | applying the same upsert twice is the same as applying it once |
| `Db.GetPullRequestByRepoAndNumber` | squire-engine/src/squire/db.py:239-254 | finds a row exactly when the named repository has that number, returning that row with its repository name. Its status reads `pending` when no status row exists |
| `Db.ListPullRequests` | squire-engine/src/squire/db.py:257-296 | returns each pull request of an active repository that passes the name and state filters exactly once (as a multiset), in descending `updated_at` order, each with its effective status |
| `Db.InsertAiReview` | squire-engine/src/squire/db.py:299-331 | appends one row with a fresh id above every existing one and no uniqueness check. It fails on an unknown pull-request id |
| `Db.ListAiReviews` | squire-engine/src/squire/db.py:334-347 | returns exactly the reviews of that pull request, each once, ordered by `(created_at, id)` ascending |
| `Db.SetReviewStatus` | squire-engine/src/squire/db.py:350-364 | leaves one status row for the pull request holding the given status, which is what later reads report. Other rows are unchanged, and it fails on an unknown pull-request id |
| `Db.GetReviewStatus` | squire-engine/src/squire/db.py:367-377 | finds a row exactly when the pull request has a status row, and its status is the effective one. Without a row the effective status is `pending` |
| `Db.GetReviewStatusAfterSet` | squire-engine/src/squire/db.py:350-377 | reading back after `set_review_status` gives the row just written. Every other pull request reads as before |
| `Db.ListRepositories` | squire-engine/src/squire/db.py:115-124 | every repository name exactly once, ascending |
| `Db.ListActiveRepositories` | squire-engine/src/squire/db.py:127-137 | exactly the active repository names, once each, ascending |
| `GitHub.Request` | squire-engine/src/squire/github.py:59-68 | a status of 400 or above is a `GitHubError` carrying that status, and a transport failure is an error. Anything else returns the body unchanged |
| `GitHub.NewClient` | squire-engine/src/squire/github.py:13-20 | a missing or empty token is refused first, then a missing or empty base URL. A client exists exactly when both are present, and it holds the token and the normalised URL |
| `GitHub.NormalizeBaseUrl` | squire-engine/src/squire/github.py:20 | the result ends in exactly one `/`. Before that comes a prefix of the input, from which only trailing `/` characters were removed |
| `GitHub.PageQuery` | squire-engine/src/squire/github.py:76-79 | the caller's parameters are kept except `per_page` and `page`, which are set to 100 and the page number |
| `GitHub.PaginateIsConcatenation` | squire-engine/src/squire/github.py:78-89 | the result is the bodies of the pages up to the first empty or short page, concatenated in order. A short page is included and an empty one adds nothing. A failing page's error is returned |
| `GitHub.ItemsComeFromRequestedPages` | squire-engine/src/squire/github.py:78-89 | every returned item came from a page at or before the stopping page |
| `GitHub.PaginateStep` | squire-engine/src/squire/github.py:78-89 | a failed page ends pagination with its error, an empty or short page ends it with its own items, and a full page is followed by the next one |
| `GitHub.PaginateLoop` | squire-engine/src/squire/github.py:70-89 | the loop requests pages 1, 2, … consecutively with the merged query, and no page after the stopping one. It returns exactly the recursive definition |
| `Sorting.SortedUniqueStrings` | squire-engine/src/squire/sync.py:49 | `sorted(set(xs))`: strictly ascending, with the same members as `xs` |
| `Sorting.StrictlySortedUnique` | squire-engine/src/squire/db.py:127-137 | a strictly ascending list is determined by its members, so `ORDER BY full_name` over a set of names has exactly one result |
| `Sorting.SortedUniqueInts` | squire-engine/src/squire/cli.py:569 | `sorted(set(xs))` for integers: strictly ascending, with the same members as `xs` |
| `Credentials.NormalizeOptionalText` | squire-engine/src/squire/cli.py:61-65 | `None` and whitespace-only text give `None`; anything else gives its stripped form |
| `Credentials.NormalizeOptionalTextIdempotent` | squire-engine/src/squire/cli.py:61-65 | normalising twice is normalising once, and the result is always normalised |
| `Credentials.NormalizeOptionalTextFixpoint` | squire-engine/src/squire/cli.py:61-65 | a value is left unchanged exactly when it is already normalised |
| `Credentials.GetToken` | squire-engine/src/squire/keychain.py:91-107 | no keychain or no entry reads as no token, and a failing command is an error. A token read back is stripped and non-empty |
| `Credentials.SetToken` | squire-engine/src/squire/keychain.py:110-129 | a blank token is a command error, and no keychain is an unavailability error. Otherwise it succeeds exactly when the command does. No other entry changes, and every other account reads as before |
| `Credentials.DeleteToken` | squire-engine/src/squire/keychain.py:132-144 | without a keychain it does nothing. It fails exactly when the command fails. Otherwise only that entry is removed, and every other account reads as before |
| `Credentials.SetThenGet` | squire-engine/src/squire/keychain.py:91-129 | a stored token reads back stripped |
| `Credentials.DeleteThenGet` | squire-engine/src/squire/keychain.py:91-144 | after a delete the entry reads as absent |
| `Credentials.RepoToken` | squire-engine/src/squire/cli.py:71-73 | the keychain token when there is one, else the legacy column. A keychain failure propagates |
| `Credentials.ResolveGithubConfig` | squire-engine/src/squire/cli.py:68-77 | the token is the keychain token, else a truthy legacy token, else the settings token. The base URL is the normalised repository override, else the settings URL, right-stripped of `/`. It is absent when neither exists |
| `Credentials.ResolveGithubConfigAsWritten` | squire-engine/src/squire/cli.py:68-77 | the code as written crashes with `AttributeError` exactly when the keychain read succeeds and there is neither an override nor a settings base URL |
| `Credentials.ResolveAsWrittenAgrees` | squire-engine/src/squire/api.py:177-191 | wherever the code as written does not crash, it agrees with the intended resolution |
| `Credentials.OpenClient` | squire-engine/src/squire/cli.py:80-88 | a client opens exactly when resolution succeeds with a truthy token and base URL. A missing token is the constructor's error, and the client's URL is the normalised resolved one |
| `Credentials.OpenClientAsWritten` | squire-engine/src/squire/api.py:195-206 | apart from the crash, the code as written opens the same client as the intended code |
| `Credentials.MissingBaseUrlCrashes` | squire-engine/src/squire/cli.py:76 | with a token but no base URL anywhere, the code as written crashes, where the intended code reports `GITHUB_BASE_URL is required` |
| `Credentials.ClearLegacyToken` | squire-engine/src/squire/cli.py:154 | only that repository's legacy token becomes empty; nothing else changes and the invariant is kept |
| `Credentials.SetBaseUrlOverride` | squire-engine/src/squire/cli.py:156-161 | only that repository's base-URL override is replaced; nothing else changes and the invariant is kept |
| `Session.ReplaceToken` | squire-engine/src/squire/cli.py:143-154 | a non-blank token is stored and a blank one deletes the entry. A keychain failure aborts before the legacy column is cleared. On success the entry reads back as the normalised token, and every other account reads as before |
| `Session.ReplaceTokenThenResolve` | squire-engine/src/squire/api.py:177-191 | after a token update the repository resolves to the new token, or to the settings token when it was blank. No stale keychain or legacy value survives |
| `Session.ClientSync` | squire-engine/src/squire/cli.py:164-167 | an unregistered name or a client that cannot open fails before any pass. Otherwise the result is the pass |
| `Session.ClientSyncKeepsStoreValid` | squire-engine/src/squire/cli.py:164-167 | a committed pass keeps the store invariant |
| `Session.RollBackAdd` | squire-engine/src/squire/cli.py:171-180 | a pre-existing repository is kept as committed. A created one is removed with its cascade, and its keychain entry too when a non-blank token was given. A blank token leaves the keychain alone |
| `Session.DropToken` | squire-engine/src/squire/cli.py:176-180 | after the swallowed-failure delete, a working keychain holds no entry for the name |
| `Cli.PrepareAdd` | squire-engine/src/squire/cli.py:141-162 | upsert and overrides. A keychain failure aborts before anything is committed. The new row is the only change to the repositories, the other tables are untouched, and a new row's id is unknown to the old store |
| `Cli.RepoAdd` | squire-engine/src/squire/cli.py:116-181 | an invalid name exits 1 with nothing changed, and so does a keychain failure while preparing. Otherwise the exit code is 0 exactly when the first incremental pass through the client succeeds. The world is then that pass's store, with the pass's count reported and the repository active with the start time as watermark. A failed pass leaves the rollback of the prepared world. An existing repository keeps its id |
| `Cli.RepoAddRollsBackNewRepository` | squire-engine/src/squire/cli.py:164-181 | when adding a new name fails, every table is as before, and a non-blank token given on the command line is gone from a working keychain |
| `Cli.SyncEach` | squire-engine/src/squire/cli.py:301-315 | every failed target is one of the targets, and there are never more failures than targets |
| `Cli.SyncEachKeepsStoreValid` | squire-engine/src/squire/cli.py:301-315 | running any list of targets keeps the store invariant |
| `Cli.RunTargets` | squire-engine/src/squire/cli.py:301-315 | the loop commits each successful pass, rolls back and records each failure, and carries on. Its result is the reference fold, and it keeps the store invariant |
| `Cli.SyncCommand` | squire-engine/src/squire/cli.py:290-318 | an unregistered `--repo` exits 1 with nothing run. Without `--repo` the targets are exactly the active repositories, ascending. One failure does not stop the others. The exit code is 1 exactly when some target failed |
| `Cli.WithIds` | squire-engine/src/squire/cli.py:567-568 | keeps exactly the reviews whose id was asked for, and never more reviews than were listed |
| `Cli.WithIdsKeepsOrder` | squire-engine/src/squire/cli.py:567-568 | the selection of a concatenation is the concatenation of the selections, and a single review is kept exactly when its id was asked for. So the selection is the listing with the other reviews removed, in listing order, which is the order comments are posted in |
| `Cli.Unmatched` | squire-engine/src/squire/cli.py:569 | exactly the requested ids that match no local review |
| `Cli.SelectLocalReviews` | squire-engine/src/squire/cli.py:560-576 | no local reviews is an error. `--all` selects everything, and `--id` selects exactly the matching reviews. The `--id` selection is the listing filtered by id, in listing order. Any unmatched id is an error listing the unmatched ids ascending, and giving neither option is an error |
| `Cli.CommentTargetIsPR` | squire-engine/src/squire/cli.py:579-581 | the target reads `PR` exactly when the review has no file path |
| `Cli.CommentTargetLineInjective` | squire-engine/src/squire/cli.py:581 | different non-zero line numbers give different targets |
| `Cli.FormatLocalReview` | squire-engine/src/squire/cli.py:582-586 | the body is exactly three parts in order: the severity tag and comment target followed by a blank line, the review's own text, and a blank line with the `(agent=…, local_review_id=…)` trailer |
| `Cli.FormatLocalReviewNamesId` | squire-engine/src/squire/cli.py:585 | the body ends with `, local_review_id=<id>)` |
| `Cli.PublishCommentBody` | squire-engine/src/squire/cli.py:495-502 | a whitespace-only body is refused. Otherwise the stripped body is sent, after the prefix and a blank line when the prefix is non-empty |
| `Cli.FormattedReviewIsPublished` | squire-engine/src/squire/cli.py:578-592 | a formatted local review is never refused and is sent verbatim after the prefix |
| `Cli.PublishCommentBodyStripInvariant` | squire-engine/src/squire/cli.py:495-502 | surrounding whitespace in the body makes no difference to what is sent |
| `Cli.ReviewListStatus` | squire-engine/src/squire/cli.py:637-639 | the listed status is the stored one, or `pending` when there is no status row |
| `Api.StrippedEntries` | squire-engine/src/squire/api.py:33 | at most one entry per part, each non-empty with no whitespace at either end |
| `Api.StrippedEntriesMembers` | squire-engine/src/squire/api.py:33 | an origin is kept exactly when it is the stripped form of some non-blank part |
| `Api.LoadAllowedOrigins` | squire-engine/src/squire/api.py:30-42 | never empty. An unset or empty variable, or one whose parts are all blank, gives the four development origins. Otherwise the result is the stripped non-blank parts |
| `Api.AllowedOriginsAreClean` | squire-engine/src/squire/api.py:30-42 | every allowed origin is non-empty, has no surrounding whitespace and contains no comma |
| `Api.AllowedOriginsRoundTrip` | squire-engine/src/squire/api.py:30-42 | configuring a non-empty list of clean origins, comma-separated, gives back exactly that list |
| `Api.DecodeReviewers` | squire-engine/src/squire/api.py:249-258 | a stored list decodes element by element to its text. Malformed JSON or any non-list value decodes to no reviewers |
| `Api.DecodeEncodeReviewers` | squire-engine/src/squire/api.py:249-258 | decoding what the sync engine stores gives back the stored list |
| `Api.ReportedReviewersAreExtracted` | squire-engine/src/squire/api.py:249-258 | the reviewers reported for a synced pull request are the ones extracted from its detail |
| `Api.ApplyOverrides` | squire-engine/src/squire/api.py:342-375 | the token is only touched when `github_token` was sent, and the base URL only when `github_base_url` was sent, even as `null`. A keychain failure is the only error. Nothing outside that repository's row changes, and every other keychain account reads as before |
| `Api.StageRepository` | squire-engine/src/squire/api.py:403-405 | upsert and overrides before the commit: the new row is the only added repository, the other tables are untouched, and a new row's id is unknown to the old store. A sent token reads back, normalised |
| `Api.KeychainStatus` | squire-engine/src/squire/api.py:356-365 | a failed token update answers 400 exactly when no keychain is available, and 500 for any other failure |
| `Api.SyncSingle` | squire-engine/src/squire/api.py:316-337 | unregistered is 404, and a client that cannot be constructed is 400. A pass failing with `GitHubError` is 502 and any other failure is 500. A success is exactly the pass through the opened client |
| `Api.SyncSingleAsWritten` | squire-engine/src/squire/api.py:316-337 | the single-repository pass over the client opening as written: an unregistered name is 404, and a success needs the as-written client to open |
| `Api.SyncSingleAsWrittenAgrees` | squire-engine/src/squire/api.py:316-337 | the pass as written and as intended give the same reply on every input except a registered repository whose as-written client opening crashes. There the code as written answers 500 and the intended code 400 |
| `Api.MissingBaseUrlStatus` | squire-engine/src/squire/api.py:190 | with a token but no base URL the code as written answers 500, where the constructor's check was meant to answer 400 |
| `Api.AddRepo` | squire-engine/src/squire/api.py:390-424 | an invalid trimmed name is 400 with nothing changed. A keychain failure while staging answers `Api.KeychainStatus` of that failure with nothing changed. Otherwise the reply is 200 exactly when the first pass over the committed world succeeds (`Api.AddFollowsPass`). Then the store is that pass's, the keychain is the committed one, so a sent token reads back (`Api.AddRepoKeepsSentToken`), and its count is reported; a failed pass answers with that pass's status after the rollback. On 200 the repository is active with the start time as watermark, and "created" says whether it was new. An existing repository keeps its id. Without `github_token` the keychain is untouched |
| `Api.AddNamed` | squire-engine/src/squire/api.py:394-424 | the same reply as `Api.AddRepo` once the name is trimmed: staging failures answer the keychain status, and the reply follows the first pass as `Api.AddFollowsPass` states |
| `Api.AddRepoKeepsSentToken` | squire-engine/src/squire/api.py:403-424 | after a 200 reply to a request that sent `github_token`, the keychain holds that token, normalised, for the repository |
| `Api.AddRepoTrimsName` | squire-engine/src/squire/api.py:392-393 | surrounding whitespace in the name makes no difference to the reply |
| `Api.SyncStaged` | squire-engine/src/squire/api.py:407-418 | the reply is 200 exactly when `Api.SyncSingle` succeeds on the committed world. Then the store is that pass's, its count is reported, and the repository is active with the start time as watermark. Otherwise the status is the pass's own and the world is the rollback of the committed one, which removes the row only when this request created it. Without `github_token` the keychain is untouched |
| `Api.AddRepoRollsBackNewRepository` | squire-engine/src/squire/api.py:408-418 | when adding a new name fails, every table is as before. A non-blank token sent in the request is gone from a working keychain |
| `Api.SyncTargets` | squire-engine/src/squire/api.py:464-468 | the synced targets are a prefix of the list, in order. The reply succeeds exactly when all of them were synced |
| `Api.SyncTargetsStopsAtFailure` | squire-engine/src/squire/api.py:464-468 | a failed request reports the status of the first target after the synced ones, run against the store the earlier passes committed |
| `Api.SinglePassAgrees` | squire-engine/src/squire/api.py:316-337 | the HTTP pass for a target succeeds exactly when the command-line pass does, with the same outcome |
| `Api.SyncTargetsAgreesWithCommand` | squire-engine/src/squire/api.py:464-468 | when every target succeeds, `POST /sync` leaves the same store as the `sync` command, with no failures |
| `Api.SyncEndpoint` | squire-engine/src/squire/api.py:449-468 | an unregistered `repo` is 404 with nothing run. Without `repo`, only active repositories are synced, in ascending order, and all of them when the reply succeeds. The reply is then exactly the request loop over the ascending list of active names, so it stops at the first failing repository and keeps the passes before it |

## Left out

- HTTP transport (httpx), JSON decoding of GitHub documents, request headers
  and timeouts: GitHub is an oracle of replies, and a detail document is the
  record of the fields the engine reads. A document whose `user`, `head` or
  reviewer entries are not objects would crash the source; the model's
  detail record cannot express that.
- The SQL engine: tables are maps and a sequence, and commit and rollback
  are "the state after the last commit". SQLite's `AUTOINCREMENT` is an id
  counter per table.
- The keychain subprocess (`security` on macOS): the keychain is a map that
  may be absent or failing. Entry not found and the other exit codes are
  folded into those two cases.
- `config.py`, `.env` loading and `main.py`: the settings are a parameter.
- The React client, FastAPI and typer wiring, CORS middleware installation,
  console output and exit messages.
- The wall clock: one reading, the start time, stands for every clock read
  of a command or pass. The source reads the clock again in
  `upsert_repository` (db.py:90), after `sync_started_at` inside a pass and
  before the pass in `repo add` and `POST /repos`. That reading becomes the
  `updated_at` of the row, which the pass overwrites with the start time,
  and the `created_at` of a new row, which in the model is the start time
  instead. `touch_repository_synced_at` reads no clock inside a pass,
  because it is given `sync_started_at`.
- `Sync.SyncAdvancesWatermark`: its clause that a new repository's
  creation time is the pass start time holds only under this one-clock
  abstraction; in the source it is a slightly later reading.
- Real ISO 8601 parsing: an oracle. A naive timestamp compared with an aware
  one would raise `TypeError` in the source; the oracle returns plain integers.
- The repository columns `github_base_url` and `github_token` and their db
  helpers (`get_repository_legacy_github_token`,
  `clear_repository_legacy_github_token`, `update_repository_github_config`,
  `repository_has_column`) are called by the front ends but are not part of
  this model's `db.py`. They are modelled as two optional fields of the
  repository row and as `ClearLegacyToken` and `SetBaseUrlOverride`, with the
  meaning their call sites give them.
- `migrate-legacy-tokens`, `repo list`, `repo remove`, `DELETE /repos`,
  `has_github_token` and the response shaping of `GET /repos`: display and
  maintenance commands outside the sync core.
- The read-through endpoints and commands for files, diffs, comments and
  GitHub reviews, and local-review creation over HTTP: each is one oracle
  call or one store operation already modelled.
- Concurrent syncs of one repository: unsupported and unguarded in the source.
- `Cli.SyncEach`: its own contract only bounds the failures; what the fold
  computes is stated through `Cli.RunTargets`, `Cli.SyncCommand` and
  `Api.SyncTargetsAgreesWithCommand`.
- `Normalize.NormalizePrState`: `str(pr.get("state", "open"))` of a
  non-string state is not modelled; the state is optional text.
- `Db.ListPullRequests`: the order among rows with equal `updated_at` is
  left open, as SQLite leaves it.
- `Cli.RepoAdd`: validates with the intended name check. The pattern as
  written also accepts a valid name followed by one newline, such as
  `"a/b\n"`, which the source would register and this model refuses with
  exit code 1. The two checks agree on every other name
  (`Normalize.AsWrittenAgreesWithoutNewline`).
- `Api.SyncSingle`: opens the client with the intended resolution. With a
  token but no base URL anywhere, the source crashes with `AttributeError`
  and answers 500, where this model answers 400. The as-written pass is
  `Api.SyncSingleAsWritten`, and `Api.SyncSingleAsWrittenAgrees` proves this
  is the only difference. The name check does not differ over HTTP, because
  `POST /repos` strips the name before validating it.
- `Api.AddRepo`: built on `Api.SyncSingle`, so the same missing-base-URL
  case answers 400 instead of 500. The rollback is the same either way.
- `Api.SyncStaged`: the same 400 in place of 500, for the same reason.
- `Api.SyncEndpoint`: the same 400 in place of 500 for a repository with a
  token but no base URL; the request still stops there.
- `Session.ClientSync`: a missing base URL is the failure
  `GITHUB_BASE_URL is required` rather than the source's `AttributeError`.
  Both front ends handle the two alike: the command line catches every
  exception around the pass, and only the message differs.

## Findings

| source | as written | input that shows it | evidently intended | confidence | as-written member | corrected member |
|---|---|---|---|---|---|---|
| squire-engine/src/squire/sync.py:11-15 | the pattern ends in `$`, which under `re.match` also matches just before a final newline | `"a/b\n"` is accepted and would be stored as a repository name | accept exactly `owner/repo` over `[A-Za-z0-9_.-]`, that is, `\Z` or `re.fullmatch` | high, not executed | `Normalize.TrailingNewlineAccepted` | `Normalize.ValidateRepoFullNameIff` |
| squire-engine/src/squire/api.py:190 | `(repo_base_url or settings.github_base_url).rstrip("/")` calls `rstrip` on `None` when neither is set; the same line is cli.py:76 | a token configured, no `GITHUB_BASE_URL` and no override: `POST /sync` answers 500 from an `AttributeError` | reach the client's own `GITHUB_BASE_URL is required` check, which `open_github_client_for_repo` turns into a 400 | medium, not executed | `Api.MissingBaseUrlStatus` | `Credentials.OpenClient` |

The rest of the model uses the corrected validator and the corrected
resolution; "## Left out" names the members where this shows.

=== FILE: api.dfy ===
/**
 * The decisions the HTTP front end makes around the engine: the CORS origin
 * list, decoding of stored reviewers, the explicit-field gating of
 * `POST /repos` overrides, how a failed sync becomes an HTTP status, and
 * the `POST /repos` flow with its rollback.
 */
module Api {
  import opened Wrappers
  import opened Text
  import opened Failures
  import opened Db
  import opened Normalize
  import opened Sync
  import opened Credentials
  import opened Session
  import opened Sorting
  import opened Cli

  /** The origins allowed when `SQUIRE_ALLOWED_ORIGINS` gives none. */
  const DefaultOrigins: seq<string> :=
    ["http://127.0.0.1:5173", "http://localhost:5173", "http://127.0.0.1:4173", "http://localhost:4173"]

  /** Non-empty, with no whitespace at either end: what `item.strip()` gives for a non-blank item. */
  predicate Trimmed(x: string) {
    x != "" && !IsSpace(x[0]) && !IsSpace(x[|x| - 1])
  }

  /** An entry that survives the origin parser unchanged. */
  predicate CleanOrigin(x: string) {
    Trimmed(x) && ',' !in x
  }

  /** `[item.strip() for item in parts if item.strip()]`. */
  function StrippedEntries(parts: seq<string>): (r: seq<string>)
    ensures |r| <= |parts|
    ensures forall k :: 0 <= k < |r| ==> Trimmed(r[k])
  {
    if |parts| == 0 then []
    else
      var rest := StrippedEntries(parts[1..]);
      var s := Strip(parts[0]);
      if s != "" then
        assert Trimmed(s);
        assert forall k :: 0 < k <= |rest| ==> ([s] + rest)[k] == rest[k - 1];
        [s] + rest
      else rest
  }

  /** Entries of comma-free parts are comma-free. */
  lemma {:induction false} StrippedEntriesCommaFree(parts: seq<string>)
    requires forall k :: 0 <= k < |parts| ==> ',' !in parts[k]
    ensures forall k :: 0 <= k < |StrippedEntries(parts)| ==> CleanOrigin(StrippedEntries(parts)[k])
  {
    if |parts| > 0 {
      StrippedEntriesCommaFree(parts[1..]);
      if ',' in Strip(parts[0]) {
        StripKeepsCharacters(parts[0], ',');
      }
    }
  }

  /** An origin is kept exactly when it is the strip of a non-blank entry. */
  lemma {:induction false} StrippedEntriesMembers(parts: seq<string>, x: string)
    ensures x in StrippedEntries(parts) <==> exists i :: 0 <= i < |parts| && !AllSpace(parts[i]) && x == Strip(parts[i])
  {
    if |parts| > 0 {
      var head, tail := parts[0], parts[1..];
      StripEmptyIff(head);
      StrippedEntriesMembers(tail, x);
      assert StrippedEntries(parts) == if Strip(head) != "" then [Strip(head)] + StrippedEntries(tail) else StrippedEntries(tail);
      if x in StrippedEntries(parts) {
        if x in StrippedEntries(tail) {
          var j :| 0 <= j < |tail| && !AllSpace(tail[j]) && x == Strip(tail[j]);
          assert parts[j + 1] == tail[j];
        } else {
          assert !AllSpace(parts[0]) && x == Strip(parts[0]);
        }
      }
      if exists i :: 0 <= i < |parts| && !AllSpace(parts[i]) && x == Strip(parts[i]) {
        var i :| 0 <= i < |parts| && !AllSpace(parts[i]) && x == Strip(parts[i]);
        if i > 0 {
          assert tail[i - 1] == parts[i];
        }
      }
    }
  }

  /**
   * `_load_allowed_origins`: the stripped, non-blank comma-separated
   * entries of the variable, or the four local development origins when the
   * variable is unset, empty or has no such entry.
   */
  function LoadAllowedOrigins(raw: Option<string>): (r: seq<string>)
    ensures |r| > 0
    ensures !Truthy(raw) ==> r == DefaultOrigins
    ensures Truthy(raw) && (forall k :: 0 <= k < |Split(raw.value, ',')| ==> AllSpace(Split(raw.value, ',')[k])) ==> r == DefaultOrigins
    ensures Truthy(raw) && |StrippedEntries(Split(raw.value, ','))| > 0 ==> r == StrippedEntries(Split(raw.value, ','))
  {
    var parsed := if Truthy(raw) then StrippedEntries(Split(raw.value, ',')) else [];
    if Truthy(raw) && |parsed| > 0 then
      var x := parsed[0];
      StrippedEntriesMembers(Split(raw.value, ','), x);
      StripEmptyIff(x);
      parsed
    else DefaultOrigins
  }

  /** Every configured origin is a clean, non-empty entry. */
  lemma AllowedOriginsAreClean(raw: Option<string>)
    ensures forall k :: 0 <= k < |LoadAllowedOrigins(raw)| ==> CleanOrigin(LoadAllowedOrigins(raw)[k])
  {
    if Truthy(raw) {
      StrippedEntriesCommaFree(Split(raw.value, ','));
    }
    assert CleanOrigin(DefaultOrigins[0]) && CleanOrigin(DefaultOrigins[1]);
    assert CleanOrigin(DefaultOrigins[2]) && CleanOrigin(DefaultOrigins[3]);
  }

  /** Clean entries are kept exactly as they are. */
  lemma {:induction false} StrippedEntriesOfClean(xs: seq<string>)
    requires forall k :: 0 <= k < |xs| ==> CleanOrigin(xs[k])
    ensures StrippedEntries(xs) == xs
  {
    if |xs| > 0 {
      StripUnchanged(xs[0]);
      assert forall k :: 0 <= k < |xs[1..]| ==> xs[1..][k] == xs[k + 1];
      StrippedEntriesOfClean(xs[1..]);
    }
  }

  /** Configuring a list of clean origins, comma-separated, gives back that list. */
  lemma {:induction false} AllowedOriginsRoundTrip(xs: seq<string>)
    requires |xs| >= 1
    requires forall k :: 0 <= k < |xs| ==> CleanOrigin(xs[k])
    ensures LoadAllowedOrigins(Some(Join(xs, ','))) == xs
  {
    JoinNonEmpty(xs);
    ParseJoinedOrigins(xs);
    LoadParsedOrigins(Join(xs, ','), xs);
  }

  lemma LoadParsedOrigins(s: string, parsed: seq<string>)
    requires s != "" && |parsed| > 0 && StrippedEntries(Split(s, ',')) == parsed
    ensures LoadAllowedOrigins(Some(s)) == parsed
  {
  }

  lemma {:induction false} ParseJoinedOrigins(xs: seq<string>)
    requires |xs| >= 1
    requires forall k :: 0 <= k < |xs| ==> CleanOrigin(xs[k])
    ensures StrippedEntries(Split(Join(xs, ','), ',')) == xs
  {
    assert forall k :: 0 <= k < |xs| ==> ',' !in xs[k];
    SplitJoin(xs, ',');
    StrippedEntriesOfClean(xs);
  }

  lemma {:induction false} JoinNonEmpty(xs: seq<string>)
    requires |xs| >= 1 && xs[0] != ""
    ensures Join(xs, ',') != ""
  {
    if |xs| > 1 {
      assert Join(xs, ',') == xs[0] + [','] + Join(xs[1..], ',');
    }
  }

  /** `str(item)` for one element of the stored reviewer list. */
  function ItemText(v: JsonValue): string {
    match v
    case JsonString(t) => t
    case JsonOther(t) => t
  }

  /**
   * The reviewer decoding of `_to_pull_detail`: a stored list gives the text
   * of each element; malformed JSON or any other value gives no reviewers.
   */
  function DecodeReviewers(j: StoredJson): (r: seq<string>)
    ensures j.JsonArray? ==> |r| == |j.items| && forall i :: 0 <= i < |r| ==> r[i] == ItemText(j.items[i])
    ensures !j.JsonArray? ==> r == []
  {
    match j
    case JsonArray(items) => seq(|items|, i requires 0 <= i < |items| => ItemText(items[i]))
    case _ => []
  }

  /** Decoding what the sync engine stored gives back the stored list. */
  lemma DecodeEncodeReviewers(xs: seq<string>)
    ensures DecodeReviewers(EncodeReviewers(xs)) == xs
  {
  }

  /** The reviewers the API reports for a synced pull request are the ones extracted from its detail. */
  lemma ReportedReviewersAreExtracted(d: PullDetail, startedAt: string)
    ensures DecodeReviewers(FieldsOf(d, startedAt).reviewers) == ExtractReviewers(d.reviewerLogins, d.teamSlugs)
  {
    DecodeEncodeReviewers(ExtractReviewers(d.reviewerLogins, d.teamSlugs));
  }

  /**
   * The optional fields of `POST /repos`. `tokenSet` and `baseUrlSet` say
   * whether the client sent the field at all (pydantic's
   * `model_fields_set`), which is different from sending `null`.
   */
  datatype Overrides = Overrides(token: Option<string>, tokenSet: bool, baseUrl: Option<string>, baseUrlSet: bool)

  /** The body of `POST /repos`. */
  datatype RepoAddRequest = RepoAddRequest(fullName: string, fullSync: bool, overrides: Overrides)

  /**
   * `_apply_repo_github_overrides`: the token and the base URL are touched
   * only when the request sets that field.
   */
  function ApplyOverrides(w: World, name: string, ov: Overrides): (r: Result<World, Failure>)
    ensures r.Err? <==> ov.tokenSet && ReplaceToken(w, name, ov.token).Err?
    ensures !ov.tokenSet && !ov.baseUrlSet ==> r == Ok(w)
    ensures r.Ok? && !ov.tokenSet ==> r.value.kc == w.kc
    ensures r.Ok? ==> r.value.store.repos.Keys == w.store.repos.Keys
    ensures r.Ok? ==> forall n :: n in w.store.repos && n != name ==> r.value.store.repos[n] == w.store.repos[n]
    ensures r.Ok? && name in w.store.repos ==>
      var row := r.value.store.repos[name];
      && row.id == w.store.repos[name].id
      && row.isActive == w.store.repos[name].isActive
      && row.lastSyncedAt == w.store.repos[name].lastSyncedAt
      && row.legacyToken == (if ov.tokenSet then None else w.store.repos[name].legacyToken)
      && row.githubBaseUrl == (if ov.baseUrlSet then ov.baseUrl else w.store.repos[name].githubBaseUrl)
    ensures r.Ok? && ov.tokenSet ==> GetToken(r.value.kc, name) == Ok(NormalizeOptionalText(ov.token))
    ensures r.Ok? ==> forall a :: a != name ==> GetToken(r.value.kc, a) == GetToken(w.kc, a)
    ensures r.Ok? ==> r.value.store.pulls == w.store.pulls && r.value.store.reviews == w.store.reviews && r.value.store.statuses == w.store.statuses
    ensures r.Ok? ==> r.value.store.nextPullId == w.store.nextPullId && r.value.store.nextReviewId == w.store.nextReviewId
    ensures r.Ok? && Valid(w.store) ==> Valid(r.value.store)
  {
    var w1 :- if ov.tokenSet then ReplaceToken(w, name, ov.token) else Ok(w);
    Ok(if ov.baseUrlSet then World(SetBaseUrlOverride(w1.store, name, ov.baseUrl), w1.kc) else w1)
  }

  /**
   * The part of `add_repo` before the commit: upsert the row, then apply
   * the overrides. The flag says whether the row is new.
   */
  function StageRepository(w: World, name: string, ov: Overrides, now: string): (r: Result<(World, bool), Failure>)
    ensures r.Err? <==> ov.tokenSet && ReplaceToken(World(UpsertRepository(w.store, name, now).store, w.kc), name, ov.token).Err?
    ensures r.Ok? ==>
      var s := r.value.0.store;
      && (r.value.1 <==> name !in w.store.repos)
      && s.repos.Keys == w.store.repos.Keys + {name}
      && (forall n :: n in w.store.repos && n != name ==> s.repos[n] == w.store.repos[n])
      && s.repos[name].isActive
      && (name in w.store.repos ==> s.repos[name].id == w.store.repos[name].id)
      && s.pulls == w.store.pulls && s.reviews == w.store.reviews && s.statuses == w.store.statuses
      && s.nextPullId == w.store.nextPullId && s.nextReviewId == w.store.nextReviewId
      && (Valid(w.store) ==> Valid(s))
      && (r.value.1 && Valid(w.store) ==> !HasRepoId(w.store, s.repos[name].id))
    ensures r.Ok? && !ov.tokenSet ==> r.value.0.kc == w.kc
    ensures r.Ok? && ov.tokenSet ==> GetToken(r.value.0.kc, name) == Ok(NormalizeOptionalText(ov.token))
  {
    var up := UpsertRepository(w.store, name, now);
    var committed :- ApplyOverrides(World(up.store, w.kc), name, ov);
    Ok((committed, up.created))
  }

  /** The HTTP status of a failed keychain update: 400 without a keychain, 500 when a command fails. */
  function KeychainStatus(e: Failure): (r: int)
    ensures r == 400 || r == 500
    ensures r == 400 <==> e == KeychainUnavailable
  {
    if e == KeychainUnavailable then 400 else 500
  }

  /** The HTTP status of a failure to open the client: the constructor's `GitHubError` is a 400. */
  function ClientFailureStatus(e: Failure): int {
    if e.GitHubError? then 400 else 500
  }

  /** The HTTP status of a failed pass: `GitHubError` is a bad gateway, anything else a 500. */
  function PassFailureStatus(e: Failure): int {
    if e.GitHubError? then 502 else 500
  }

  /**
   * `_sync_single_repository`: an unregistered name is a 404, a failure to
   * open the client keeps its own status, a failed pass is a 502 or 500; in
   * every failing case the pass is rolled back, so only a success changes
   * the store.
   */
  function SyncSingle(w: World, settings: Settings, remote: Remote, name: string, fullSync: bool,
                      startedAt: string, parse: string -> Option<int>): (r: Result<SyncOutcome, int>)
    ensures r.Ok? <==> ClientSync(w, settings, remote, name, fullSync, startedAt, parse).Ok?
    ensures r.Ok? ==> r.value == ClientSync(w, settings, remote, name, fullSync, startedAt, parse).value
    ensures r.Err? ==> r.error in {400, 404, 500, 502}
    ensures r == Err(404) <==> name !in w.store.repos
    ensures r == Err(400) <==> name in w.store.repos && OpenClient(w.kc, w.store.repos[name], settings).Err?
                               && OpenClient(w.kc, w.store.repos[name], settings).error.GitHubError?
    ensures r == Err(502) <==> name in w.store.repos && OpenClient(w.kc, w.store.repos[name], settings).Ok?
                               && SyncRepository(w.store, remote, name, fullSync, startedAt, parse).Err?
                               && SyncRepository(w.store, remote, name, fullSync, startedAt, parse).error.GitHubError?
  {
    if name !in w.store.repos then Err(404)
    else
      match OpenClient(w.kc, w.store.repos[name], settings)
      case Err(e) => Err(ClientFailureStatus(e))
      case Ok(_) =>
        match SyncRepository(w.store, remote, name, fullSync, startedAt, parse)
        case Err(e) => Err(PassFailureStatus(e))
        case Ok(o) => Ok(o)
  }

  /**
   * With a token but no base URL anywhere, the code as written answers 500
   * (the `AttributeError` escapes as an unexpected failure) where the
   * constructor's check was meant to answer 400.
   */
  lemma MissingBaseUrlStatus(token: string)
    requires token != ""
    ensures var repo := Repository(1, "a/b", true, "t", "t", None, None, None);
      var settings := Settings(Some(token), None);
      && ClientFailureStatus(OpenClientAsWritten(NoKeychain, repo, settings).error) == 500
      && ClientFailureStatus(OpenClient(NoKeychain, repo, settings).error) == 400
  {
    MissingBaseUrlCrashes(token);
  }

  /** `_sync_single_repository` over the client opening as written. */
  function SyncSingleAsWritten(w: World, settings: Settings, remote: Remote, name: string, fullSync: bool,
                               startedAt: string, parse: string -> Option<int>): (r: Result<SyncOutcome, int>)
    ensures r == Err(404) <==> name !in w.store.repos
    ensures r.Ok? ==> name in w.store.repos && OpenClientAsWritten(w.kc, w.store.repos[name], settings).Ok?
  {
    if name !in w.store.repos then Err(404)
    else
      match OpenClientAsWritten(w.kc, w.store.repos[name], settings)
      case Err(e) => Err(ClientFailureStatus(e))
      case Ok(_) =>
        match SyncRepository(w.store, remote, name, fullSync, startedAt, parse)
        case Err(e) => Err(PassFailureStatus(e))
        case Ok(o) => Ok(o)
  }

  /**
   * The single-repository pass as written and as intended differ exactly
   * where the code as written crashes on a missing base URL: it answers 500
   * there, the intended code 400. On every other input they agree.
   */
  lemma SyncSingleAsWrittenAgrees(w: World, settings: Settings, remote: Remote, name: string, fullSync: bool,
                                  startedAt: string, parse: string -> Option<int>)
    ensures var crash := name in w.store.repos && OpenClientAsWritten(w.kc, w.store.repos[name], settings) == Err(AttributeCrash);
      && (crash ==> SyncSingleAsWritten(w, settings, remote, name, fullSync, startedAt, parse) == Err(500)
                    && SyncSingle(w, settings, remote, name, fullSync, startedAt, parse) == Err(400))
      && (!crash ==> SyncSingleAsWritten(w, settings, remote, name, fullSync, startedAt, parse)
                     == SyncSingle(w, settings, remote, name, fullSync, startedAt, parse))
  {
  }

  /** The reply of `POST /repos` with the world after it: an HTTP status, the created flag and the synced count. */
  datatype AddReply = AddReply(world: World, status: int, created: bool, synced: nat)

  /**
   * `add_repo`: trim and validate the name, upsert it and apply the
   * overrides (a keychain failure answers before anything is committed),
   * commit, and sync once; when the sync fails a repository this request
   * created is removed, with its token only if this request set a
   * non-blank one.
   */
  function AddRepo(w: World, settings: Settings, remote: Remote, req: RepoAddRequest,
                   startedAt: string, parse: string -> Option<int>): (r: AddReply)
    ensures !ValidateRepoFullName(Strip(req.fullName)) ==> r == AddReply(w, 400, false, 0)
    ensures r.status in {200, 400, 404, 500, 502}
    ensures r.status == 200 ==>
      var name := Strip(req.fullName);
      && name in r.world.store.repos
      && r.world.store.repos[name].isActive
      && r.world.store.repos[name].lastSyncedAt == Some(startedAt)
      && (r.created <==> name !in w.store.repos)
    ensures Strip(req.fullName) in w.store.repos ==>
      Strip(req.fullName) in r.world.store.repos && r.world.store.repos[Strip(req.fullName)].id == w.store.repos[Strip(req.fullName)].id
    ensures !req.overrides.tokenSet ==> r.world.kc == w.kc
    ensures AddFollowsPass(w, settings, remote, Strip(req.fullName), req.fullSync, req.overrides, startedAt, parse, r)
  {
    AddNamed(w, settings, remote, Strip(req.fullName), req.fullSync, req.overrides, startedAt, parse)
  }

  /**
   * How the reply of `add_repo` for a valid name follows from the steps it
   * runs: a keychain failure while staging answers with its status and
   * changes nothing; otherwise the reply is 200 exactly when the first pass
   * over the committed world succeeds, and then the store is the one that
   * pass left, the keychain is the committed one (holding any token sent)
   * and the pass's count is reported, while a failed pass answers with the
   * pass's own status after the rollback.
   */
  ghost predicate AddFollowsPass(w: World, settings: Settings, remote: Remote, name: string, fullSync: bool, ov: Overrides,
                                 startedAt: string, parse: string -> Option<int>, r: AddReply)
  {
    ValidateRepoFullName(name) ==>
      match StageRepository(w, name, ov, startedAt)
      case Err(e) => r == AddReply(w, KeychainStatus(e), false, 0)
      case Ok((committed, created)) =>
        var pass := SyncSingle(committed, settings, remote, name, fullSync, startedAt, parse);
        && (r.status == 200 <==> pass.Ok?)
        && (pass.Ok? ==> r.world.store == pass.value.store && r.world.kc == committed.kc && r.synced == pass.value.count)
        && (pass.Err? ==>
              && r.status == pass.error
              && r.world == RollBackAdd(committed, name, created, if ov.tokenSet then ov.token else None))
  }

  /** `add_repo` once the name has been trimmed. */
  function AddNamed(w: World, settings: Settings, remote: Remote, name: string, fullSync: bool, ov: Overrides,
                    startedAt: string, parse: string -> Option<int>): (r: AddReply)
    ensures !ValidateRepoFullName(name) ==> r == AddReply(w, 400, false, 0)
    ensures r.status in {200, 400, 404, 500, 502}
    ensures r.status == 200 ==>
      && name in r.world.store.repos
      && r.world.store.repos[name].isActive
      && r.world.store.repos[name].lastSyncedAt == Some(startedAt)
      && (r.created <==> name !in w.store.repos)
    ensures name in w.store.repos ==> name in r.world.store.repos && r.world.store.repos[name].id == w.store.repos[name].id
    ensures !ov.tokenSet ==> r.world.kc == w.kc
    ensures AddFollowsPass(w, settings, remote, name, fullSync, ov, startedAt, parse, r)
  {
    if !ValidateRepoFullName(name) then AddReply(w, 400, false, 0)
    else
      match StageRepository(w, name, ov, startedAt)
      case Err(e) => AddReply(w, KeychainStatus(e), false, 0)
      case Ok((committed, created)) => SyncStaged(committed, created, settings, remote, name, fullSync, ov, startedAt, parse)
  }

  /** The second half of `add_repo`: the first sync of the committed row, rolled back when it fails. */
  function SyncStaged(committed: World, created: bool, settings: Settings, remote: Remote, name: string, fullSync: bool,
                      ov: Overrides, startedAt: string, parse: string -> Option<int>): (r: AddReply)
    ensures r.status in {200, 400, 404, 500, 502}
    ensures r.status == 200 ==>
      && name in r.world.store.repos
      && r.world.store.repos[name].isActive
      && r.world.store.repos[name].lastSyncedAt == Some(startedAt)
      && r.created == created
    ensures var pass := SyncSingle(committed, settings, remote, name, fullSync, startedAt, parse);
      && (r.status == 200 <==> pass.Ok?)
      && (pass.Ok? ==> r.world.store == pass.value.store && r.world.kc == committed.kc && r.synced == pass.value.count)
      && (pass.Err? ==>
            && r.status == pass.error && !r.created && r.synced == 0
            && r.world == RollBackAdd(committed, name, created, if ov.tokenSet then ov.token else None))
    ensures !created && name in committed.store.repos ==>
      name in r.world.store.repos && r.world.store.repos[name].id == committed.store.repos[name].id
    ensures !ov.tokenSet ==> r.world.kc == committed.kc
  {
    match SyncSingle(committed, settings, remote, name, fullSync, startedAt, parse)
    case Ok(o) =>
      SyncAdvancesWatermark(committed.store, remote, name, fullSync, startedAt, parse);
      AddReply(World(o.store, committed.kc), 200, created, o.count)
    case Err(code) =>
      AddReply(RollBackAdd(committed, name, created, if ov.tokenSet then ov.token else None), code, false, 0)
  }

  /**
   * A successful `POST /repos` that sent `github_token` leaves that token,
   * normalised, in the keychain for the repository: the rollback is the
   * only thing that deletes it.
   */
  lemma AddRepoKeepsSentToken(w: World, settings: Settings, remote: Remote, req: RepoAddRequest,
                              startedAt: string, parse: string -> Option<int>)
    requires AddRepo(w, settings, remote, req, startedAt, parse).status == 200 && req.overrides.tokenSet
    ensures GetToken(AddRepo(w, settings, remote, req, startedAt, parse).world.kc, Strip(req.fullName))
         == Ok(NormalizeOptionalText(req.overrides.token))
  {
    var name := Strip(req.fullName);
    var r := AddRepo(w, settings, remote, req, startedAt, parse);
    assert ValidateRepoFullName(name);
    var staged := StageRepository(w, name, req.overrides, startedAt);
    assert staged.Err? ==> r.status == KeychainStatus(staged.error);
    assert staged.Ok?;
    assert r.world.kc == staged.value.0.kc;
  }

  /** The name is trimmed before anything else, so surrounding whitespace makes no difference. */
  lemma AddRepoTrimsName(w: World, settings: Settings, remote: Remote, req: RepoAddRequest,
                         startedAt: string, parse: string -> Option<int>)
    ensures AddRepo(w, settings, remote, req.(fullName := Strip(req.fullName)), startedAt, parse)
         == AddRepo(w, settings, remote, req, startedAt, parse)
  {
    StripUnchanged(Strip(req.fullName));
  }

  /**
   * A failed `POST /repos` for a name that was not registered leaves every
   * table as it found it; the keychain entry is deleted when the request
   * set a non-blank token.
   */
  lemma AddRepoRollsBackNewRepository(w: World, settings: Settings, remote: Remote, req: RepoAddRequest,
                                      startedAt: string, parse: string -> Option<int>)
    requires Valid(w.store) && Strip(req.fullName) !in w.store.repos
    requires AddRepo(w, settings, remote, req, startedAt, parse).status != 200
    ensures var s := AddRepo(w, settings, remote, req, startedAt, parse).world.store;
      && s.repos == w.store.repos && s.pulls == w.store.pulls
      && s.reviews == w.store.reviews && s.statuses == w.store.statuses
    ensures var kc := AddRepo(w, settings, remote, req, startedAt, parse).world.kc;
      (ValidateRepoFullName(Strip(req.fullName)) && req.overrides.tokenSet && Truthy(NormalizeOptionalText(req.overrides.token))
         && kc.Keychain? && !kc.broken) ==> Strip(req.fullName) !in kc.tokens
  {
    if ValidateRepoFullName(Strip(req.fullName)) {
      AddNamedRollsBack(w, settings, remote, Strip(req.fullName), req.fullSync, req.overrides, startedAt, parse);
    }
  }

  /** The rollback of `add_repo` once the name is trimmed and valid. */
  lemma AddNamedRollsBack(w: World, settings: Settings, remote: Remote, name: string, fullSync: bool, ov: Overrides,
                          startedAt: string, parse: string -> Option<int>)
    requires Valid(w.store) && ValidateRepoFullName(name) && name !in w.store.repos
    requires AddNamed(w, settings, remote, name, fullSync, ov, startedAt, parse).status != 200
    ensures var s := AddNamed(w, settings, remote, name, fullSync, ov, startedAt, parse).world.store;
      && s.repos == w.store.repos && s.pulls == w.store.pulls
      && s.reviews == w.store.reviews && s.statuses == w.store.statuses
    ensures var kc := AddNamed(w, settings, remote, name, fullSync, ov, startedAt, parse).world.kc;
      (ov.tokenSet && Truthy(NormalizeOptionalText(ov.token)) && kc.Keychain? && !kc.broken) ==> name !in kc.tokens
  {
    var r := AddNamed(w, settings, remote, name, fullSync, ov, startedAt, parse);
    var prep := StageRepository(w, name, ov, startedAt);
    if prep.Ok? {
      var committed := prep.value.0;
      assert prep.value.1;
      assert SyncSingle(committed, settings, remote, name, fullSync, startedAt, parse).Err?;
      assert r.world == RollBackAdd(committed, name, true, if ov.tokenSet then ov.token else None);
      UnknownIdOwnsNoPull(w.store, committed.store.repos[name].id);
      RemoveAddedRow(w.store, committed.store, name);
    } else {
      assert r.world == w;
      if ov.tokenSet && Truthy(NormalizeOptionalText(ov.token)) {
        NormalizeOptionalTextIdempotent(ov.token);
      }
    }
  }

  /**
   * The outcome of `POST /sync`: the committed store, the targets synced,
   * and the status of the failure that ended the request, if any.
   */
  datatype SyncReply = SyncReply(store: Store, synced: seq<string>, failure: Option<int>)

  /** One target's pass as `POST /sync` runs it: the committed outcome or the status of its failure. */
  type ApiPass = (World, string) -> Result<SyncOutcome, int>

  /** `_sync_single_repository` for each target, with that target's remote and clock reading. */
  function SinglePassWith(settings: Settings, remotes: string -> Remote, full: bool, clock: string -> string,
                          parse: string -> Option<int>): ApiPass
  {
    (w: World, t: string) => SyncSingle(w, settings, remotes(t), t, full, clock(t), parse)
  }

  /** A command pass and an API pass succeed on the same inputs, with the same outcome. */
  ghost predicate PassesAgree(pass: Pass, apiPass: ApiPass) {
    forall w: World, t: string :: (apiPass(w, t).Ok? <==> pass(w, t).Ok?) && (apiPass(w, t).Ok? ==> apiPass(w, t).value == pass(w, t).value)
  }

  /** `_sync_single_repository` succeeds exactly when the command's pass does, with the same outcome. */
  lemma SinglePassAgrees(settings: Settings, remotes: string -> Remote, full: bool, clock: string -> string,
                         parse: string -> Option<int>)
    ensures PassesAgree(PassWith(settings, remotes, full, clock, parse), SinglePassWith(settings, remotes, full, clock, parse))
  {
    var pass := PassWith(settings, remotes, full, clock, parse);
    var apiPass := SinglePassWith(settings, remotes, full, clock, parse);
    forall w: World, t: string
      ensures (apiPass(w, t).Ok? <==> pass(w, t).Ok?) && (apiPass(w, t).Ok? ==> apiPass(w, t).value == pass(w, t).value)
    {
      assert apiPass(w, t) == SyncSingle(w, settings, remotes(t), t, full, clock(t), parse);
      assert pass(w, t) == ClientSync(w, settings, remotes(t), t, full, clock(t), parse);
    }
  }

  /**
   * The loop of `POST /sync`: each pass is committed before the next starts,
   * and the first failing target ends the request with its status; the
   * passes committed before it stay.
   */
  function SyncTargets(w: World, pass: ApiPass, targets: seq<string>): (r: SyncReply)
    ensures |r.synced| <= |targets| && r.synced == targets[..|r.synced|]
    ensures r.failure.None? <==> |r.synced| == |targets|
    decreases |targets|
  {
    if |targets| == 0 then SyncReply(w.store, [], None)
    else
      var t := targets[0];
      match pass(w, t)
      case Err(code) => SyncReply(w.store, [], Some(code))
      case Ok(o) =>
        var rest := SyncTargets(World(o.store, w.kc), pass, targets[1..]);
        SyncReply(rest.store, targets[..1 + |rest.synced|], rest.failure)
  }

  /**
   * A failed `POST /sync` reports the status of the first target that
   * failed, run against the store the earlier passes committed.
   */
  lemma {:induction false} SyncTargetsStopsAtFailure(w: World, pass: ApiPass, targets: seq<string>)
    requires SyncTargets(w, pass, targets).failure.Some?
    ensures var r := SyncTargets(w, pass, targets);
      pass(World(r.store, w.kc), targets[|r.synced|]) == Err(r.failure.value)
    decreases |targets|
  {
    var r := SyncTargets(w, pass, targets);
    var t := targets[0];
    var first := pass(w, t);
    if first.Ok? {
      var w' := World(first.value.store, w.kc);
      var rest := SyncTargets(w', pass, targets[1..]);
      assert r == SyncReply(rest.store, targets[..1 + |rest.synced|], rest.failure);
      SyncTargetsStopsAtFailure(w', pass, targets[1..]);
      assert targets[|r.synced|] == targets[1..][|rest.synced|];
    } else {
      assert r == SyncReply(w.store, [], Some(first.error));
      assert World(r.store, w.kc) == w;
    }
  }

  /** With agreeing passes, a request in which nothing fails leaves the store the command leaves, and the command records no failure. */
  lemma {:induction false} FoldsAgree(w: World, pass: Pass, apiPass: ApiPass, targets: seq<string>)
    requires PassesAgree(pass, apiPass)
    requires SyncTargets(w, apiPass, targets).failure.None?
    ensures SyncEach(w, pass, targets).store == SyncTargets(w, apiPass, targets).store
    ensures SyncEach(w, pass, targets).failed == []
    decreases |targets|
  {
    if |targets| > 0 {
      var t := targets[0];
      var o := apiPass(w, t);
      assert o.Ok?;
      assert pass(w, t) == Ok(o.value);
      FoldsAgree(World(o.value.store, w.kc), pass, apiPass, targets[1..]);
    }
  }

  /**
   * When every target succeeds, `POST /sync` and the `sync` command leave
   * the same store; they differ only in what a failure does to the targets
   * after it.
   */
  lemma SyncTargetsAgreesWithCommand(w: World, settings: Settings, remotes: string -> Remote, full: bool,
                                     clock: string -> string, parse: string -> Option<int>, targets: seq<string>)
    requires SyncTargets(w, SinglePassWith(settings, remotes, full, clock, parse), targets).failure.None?
    ensures SyncEach(w, PassWith(settings, remotes, full, clock, parse), targets).store
         == SyncTargets(w, SinglePassWith(settings, remotes, full, clock, parse), targets).store
    ensures SyncEach(w, PassWith(settings, remotes, full, clock, parse), targets).failed == []
  {
    SinglePassAgrees(settings, remotes, full, clock, parse);
    FoldsAgree(w, PassWith(settings, remotes, full, clock, parse), SinglePassWith(settings, remotes, full, clock, parse), targets);
  }

  /**
   * `POST /sync`: an unregistered `repo` is a 404 before anything runs;
   * otherwise that repository alone, or every active repository in name
   * order.
   */
  method SyncEndpoint(w: World, settings: Settings, remotes: string -> Remote, repo: Option<string>, full: bool,
                      clock: string -> string, parse: string -> Option<int>) returns (r: SyncReply)
    ensures Truthy(repo) && repo.value !in w.store.repos ==> r == SyncReply(w.store, [], Some(404))
    ensures Truthy(repo) && repo.value in w.store.repos ==>
      r == SyncTargets(w, SinglePassWith(settings, remotes, full, clock, parse), [repo.value])
    ensures !Truthy(repo) ==>
      && StrictlySorted(r.synced)
      && (forall n :: n in r.synced ==> n in w.store.repos && w.store.repos[n].isActive)
      && (r.failure.None? ==> forall n :: n in w.store.repos && w.store.repos[n].isActive ==> n in r.synced)
    ensures !Truthy(repo) ==>
      forall ts :: StrictlySorted(ts) && (forall n :: n in ts <==> n in w.store.repos && w.store.repos[n].isActive) ==>
        r == SyncTargets(w, SinglePassWith(settings, remotes, full, clock, parse), ts)
  {
    if Truthy(repo) {
      if repo.value !in w.store.repos {
        return SyncReply(w.store, [], Some(404));
      }
      r := SyncTargets(w, SinglePassWith(settings, remotes, full, clock, parse), [repo.value]);
    } else {
      var targets := ListActiveRepositories(w.store);
      r := SyncTargets(w, SinglePassWith(settings, remotes, full, clock, parse), targets);
      PrefixOfSorted(r.synced, targets);
      forall ts | StrictlySorted(ts) && (forall n :: n in ts <==> n in w.store.repos && w.store.repos[n].isActive)
        ensures r == SyncTargets(w, SinglePassWith(settings, remotes, full, clock, parse), ts)
      {
        StrictlySortedUnique(ts, targets);
      }
    }
  }

  /** A prefix of a strictly sorted list is strictly sorted and draws from it. */
  lemma PrefixOfSorted(p: seq<string>, s: seq<string>)
    requires p <= s && StrictlySorted(s)
    ensures StrictlySorted(p)
    ensures forall x :: x in p ==> x in s
  {
    assert p == s[..|p|];
  }
}

=== FILE: cli.dfy ===
/**
 * The decisions the command-line front end makes around the engine:
 * `repo add` with its rollback, the multi-target `sync`, and what
 * `review publish-local` selects and posts.
 */
module Cli {
  import opened Wrappers
  import opened Text
  import opened Failures
  import opened Sorting
  import opened Db
  import opened Normalize
  import opened Sync
  import opened Credentials
  import opened Session

  /** The state of a `repo add` run after the command exits, its exit code and the synced count on success. */
  datatype AddResult = AddResult(world: World, exitCode: int, synced: Option<nat>)

  /**
   * The part of `repo add` before the first sync: upsert the row, apply the
   * token option (a keychain failure exits before anything is committed)
   * and the base-URL option. The result is the committed world and whether
   * the row was created.
   */
  function PrepareAdd(w: World, name: string, token: Option<string>, baseUrl: Option<string>, now: string)
    : (r: Result<(World, bool), Failure>)
    ensures r.Err? <==> token.Some? && ReplaceToken(World(UpsertRepository(w.store, name, now).store, w.kc), name, token).Err?
    ensures r.Ok? ==>
      var s := r.value.0.store;
      && (r.value.1 <==> name !in w.store.repos)
      && s.repos.Keys == w.store.repos.Keys + {name}
      && (forall n :: n in w.store.repos && n != name ==> s.repos[n] == w.store.repos[n])
      && s.repos[name].isActive
      && (name in w.store.repos ==> s.repos[name].id == w.store.repos[name].id)
      && s.pulls == w.store.pulls && s.reviews == w.store.reviews && s.statuses == w.store.statuses
      && s.nextPullId == w.store.nextPullId && s.nextReviewId == w.store.nextReviewId
      && (Valid(w.store) ==> Valid(s))
      && (r.value.1 && Valid(w.store) ==> !HasRepoId(w.store, s.repos[name].id))
    ensures r.Ok? && baseUrl.Some? ==> r.value.0.store.repos[name].githubBaseUrl == baseUrl
    ensures r.Ok? && token.Some? ==>
      && r.value.0.store.repos[name].legacyToken == None
      && GetToken(r.value.0.kc, name) == Ok(NormalizeOptionalText(token))
    ensures r.Ok? && token.None? ==> r.value.0.kc == w.kc
  {
    var up := UpsertRepository(w.store, name, now);
    var w1 :- if token.Some? then ReplaceToken(World(up.store, w.kc), name, token) else Ok(World(up.store, w.kc));
    var committed := if baseUrl.Some? then SetBaseUrlOverride(w1.store, name, baseUrl) else w1.store;
    Ok((World(committed, w1.kc), up.created))
  }

  /**
   * `repo add`: validate, prepare and commit, then sync once incrementally;
   * when that sync fails, roll back.
   */
  function RepoAdd(w: World, settings: Settings, remote: Remote, name: string, token: Option<string>,
                   baseUrl: Option<string>, startedAt: string, parse: string -> Option<int>): (r: AddResult)
    ensures !ValidateRepoFullName(name) ==> r == AddResult(w, 1, None)
    ensures r.exitCode == 0 || r.exitCode == 1
    ensures r.exitCode == 0 <==> r.synced.Some?
    ensures r.exitCode == 0 ==>
      && name in r.world.store.repos
      && r.world.store.repos[name].isActive
      && r.world.store.repos[name].lastSyncedAt == Some(startedAt)
    ensures name in w.store.repos ==> name in r.world.store.repos && r.world.store.repos[name].id == w.store.repos[name].id
    ensures ValidateRepoFullName(name) && PrepareAdd(w, name, token, baseUrl, startedAt).Err? ==> r == AddResult(w, 1, None)
    ensures r.exitCode == 0 <==>
      && ValidateRepoFullName(name) && PrepareAdd(w, name, token, baseUrl, startedAt).Ok?
      && ClientSync(PrepareAdd(w, name, token, baseUrl, startedAt).value.0, settings, remote, name, false, startedAt, parse).Ok?
    ensures ValidateRepoFullName(name) && PrepareAdd(w, name, token, baseUrl, startedAt).Ok? ==>
      var prepared := PrepareAdd(w, name, token, baseUrl, startedAt).value;
      var pass := ClientSync(prepared.0, settings, remote, name, false, startedAt, parse);
      && (pass.Ok? ==> r.world == World(pass.value.store, prepared.0.kc) && r.synced == Some(pass.value.count))
      && (pass.Err? ==> r.world == RollBackAdd(prepared.0, name, prepared.1, token))
  {
    if !ValidateRepoFullName(name) then AddResult(w, 1, None)
    else
      match PrepareAdd(w, name, token, baseUrl, startedAt)
      case Err(_) => AddResult(w, 1, None)
      case Ok((committed, created)) =>
        match ClientSync(committed, settings, remote, name, false, startedAt, parse)
        case Ok(o) =>
          SyncAdvancesWatermark(committed.store, remote, name, false, startedAt, parse);
          AddResult(World(o.store, committed.kc), 0, Some(o.count))
        case Err(_) => AddResult(RollBackAdd(committed, name, created, token), 1, None)
  }

  /**
   * A failed `repo add` of a name that was not registered leaves every
   * table as it found it, and a token it stored is gone again.
   */
  lemma RepoAddRollsBackNewRepository(w: World, settings: Settings, remote: Remote, name: string, token: Option<string>,
                                      baseUrl: Option<string>, startedAt: string, parse: string -> Option<int>)
    requires Valid(w.store) && name !in w.store.repos
    requires RepoAdd(w, settings, remote, name, token, baseUrl, startedAt, parse).exitCode == 1
    ensures var s := RepoAdd(w, settings, remote, name, token, baseUrl, startedAt, parse).world.store;
      && s.repos == w.store.repos && s.pulls == w.store.pulls
      && s.reviews == w.store.reviews && s.statuses == w.store.statuses
    ensures var kc := RepoAdd(w, settings, remote, name, token, baseUrl, startedAt, parse).world.kc;
      ValidateRepoFullName(name) && Truthy(NormalizeOptionalText(token)) && kc.Keychain? && !kc.broken ==> name !in kc.tokens
  {
    var r := RepoAdd(w, settings, remote, name, token, baseUrl, startedAt, parse);
    if ValidateRepoFullName(name) {
      var prep := PrepareAdd(w, name, token, baseUrl, startedAt);
      if prep.Ok? {
        var committed := prep.value.0;
        assert prep.value.1;
        assert ClientSync(committed, settings, remote, name, false, startedAt, parse).Err?;
        assert r.world == RollBackAdd(committed, name, true, token);
        UnknownIdOwnsNoPull(w.store, committed.store.repos[name].id);
        RemoveAddedRow(w.store, committed.store, name);
      } else {
        assert r.world == w;
        if Truthy(NormalizeOptionalText(token)) {
          NormalizeOptionalTextIdempotent(token);
        }
      }
    }
  }

  /** The outcome of `sync`: the store after the command, the targets tried, those that failed, the exit code. */
  datatype SyncRun = SyncRun(store: Store, attempted: seq<string>, failed: seq<string>, exitCode: int)

  /** The store after a list of targets and the failed ones, as a reference fold. */
  datatype SyncTally = SyncTally(store: Store, failed: seq<string>)

  /**
   * Each target in order: a successful pass is committed and the next target
   * sees its result; a failed pass is rolled back and recorded.
   */
  function SyncEach(w: World, pass: Pass, targets: seq<string>): (r: SyncTally)
    ensures forall t :: t in r.failed ==> t in targets
    ensures |r.failed| <= |targets|
    decreases |targets|
  {
    if |targets| == 0 then SyncTally(w.store, [])
    else
      var t := targets[0];
      match pass(w, t)
      case Ok(o) => SyncEach(World(o.store, w.kc), pass, targets[1..])
      case Err(_) =>
        var rest := SyncEach(w, pass, targets[1..]);
        SyncTally(rest.store, [t] + rest.failed)
  }

  /** Running targets one after another keeps the store invariant. */
  lemma {:induction false} SyncEachKeepsStoreValid(w: World, pass: Pass, targets: seq<string>)
    requires Valid(w.store) && PassKeepsValid(pass)
    ensures Valid(SyncEach(w, pass, targets).store)
    decreases |targets|
  {
    if |targets| > 0 {
      var t := targets[0];
      var o := pass(w, t);
      if o.Ok? {
        SyncEachKeepsStoreValid(World(o.value.store, w.kc), pass, targets[1..]);
      } else {
        SyncEachKeepsStoreValid(w, pass, targets[1..]);
      }
    }
  }

  /** After the first `i` targets: the rest of the fold from `store` finishes the fold `whole`, and `failed` holds the failures so far. */
  predicate TallySoFar(w: World, pass: Pass, targets: seq<string>, i: nat, store: Store, failed: seq<string>, whole: SyncTally)
    requires i <= |targets|
  {
    var tail := SyncEach(World(store, w.kc), pass, targets[i..]);
    tail.store == whole.store && failed + tail.failed == whole.failed
  }

  /** One step of the fold, for the target at index `i`. */
  lemma TallyStep(w: World, pass: Pass, targets: seq<string>, i: nat, store: Store, failed: seq<string>, whole: SyncTally)
    requires i < |targets|
    requires TallySoFar(w, pass, targets, i, store, failed, whole)
    ensures var t := targets[i];
      var o := pass(World(store, w.kc), t);
      && (o.Ok? ==> TallySoFar(w, pass, targets, i + 1, o.value.store, failed, whole))
      && (o.Err? ==> TallySoFar(w, pass, targets, i + 1, store, failed + [t], whole))
  {
    var t := targets[i];
    var ts := targets[i..];
    assert ts[0] == t && ts[1..] == targets[i + 1..];
    var o := pass(World(store, w.kc), t);
    if o.Err? {
      var rest := SyncEach(World(store, w.kc), pass, ts[1..]);
      assert failed + ([t] + rest.failed) == (failed + [t]) + rest.failed;
    }
  }

  /** Run every target in order; the imperative loop of `sync`. */
  method RunTargets(w: World, pass: Pass, targets: seq<string>) returns (store: Store, failed: seq<string>)
    ensures store == SyncEach(w, pass, targets).store
    ensures failed == SyncEach(w, pass, targets).failed
    ensures Valid(w.store) && PassKeepsValid(pass) ==> Valid(store)
  {
    ghost var whole := SyncEach(w, pass, targets);
    store := w.store;
    failed := [];
    var i := 0;
    assert targets[0..] == targets;
    while i < |targets|
      invariant 0 <= i <= |targets|
      invariant TallySoFar(w, pass, targets, i, store, failed, whole)
      invariant Valid(w.store) && PassKeepsValid(pass) ==> Valid(store)
    {
      var t := targets[i];
      TallyStep(w, pass, targets, i, store, failed, whole);
      var o := pass(World(store, w.kc), t);
      if o.Ok? {
        store := o.value.store;
      } else {
        failed := failed + [t];
      }
      i := i + 1;
    }
    assert targets[i..] == [];
  }

  /**
   * `sync`: the one registered repository named by `--repo`, else every
   * active repository in name order; every target is attempted whatever
   * happened to the earlier ones, and the exit code is 1 exactly when some
   * target failed.
   */
  method SyncCommand(w: World, settings: Settings, remotes: string -> Remote, repoFilter: Option<string>, full: bool,
                     clock: string -> string, parse: string -> Option<int>) returns (r: SyncRun)
    ensures Truthy(repoFilter) && repoFilter.value !in w.store.repos ==> r == SyncRun(w.store, [], [], 1)
    ensures Truthy(repoFilter) && repoFilter.value in w.store.repos ==> r.attempted == [repoFilter.value]
    ensures !Truthy(repoFilter) ==>
      && StrictlySorted(r.attempted)
      && forall n :: n in r.attempted <==> n in w.store.repos && w.store.repos[n].isActive
    ensures !(Truthy(repoFilter) && repoFilter.value !in w.store.repos) ==>
      && r.store == SyncEach(w, PassWith(settings, remotes, full, clock, parse), r.attempted).store
      && r.failed == SyncEach(w, PassWith(settings, remotes, full, clock, parse), r.attempted).failed
      && (r.exitCode == 1 <==> |r.failed| > 0)
      && (r.exitCode == 0 <==> |r.failed| == 0)
    ensures Valid(w.store) ==> Valid(r.store)
  {
    var targets: seq<string>;
    if Truthy(repoFilter) {
      if repoFilter.value !in w.store.repos {
        return SyncRun(w.store, [], [], 1);
      }
      targets := [repoFilter.value];
    } else {
      targets := ListActiveRepositories(w.store);
    }
    PassWithKeepsValid(settings, remotes, full, clock, parse);
    var store, failed := RunTargets(w, PassWith(settings, remotes, full, clock, parse), targets);
    r := SyncRun(store, targets, failed, if |failed| > 0 then 1 else 0);
  }

  /** Why `review publish-local` or `review publish` refuses to post. */
  datatype PublishError =
    | NothingToPublish        // the pull request has no local review
    | MissingIds(ids: seq<int>)   // requested ids with no review of this pull request, ascending
    | NoSelection             // neither `--all` nor `--id` given
    | EmptyBody               // the comment text is blank

  /** The reviews whose id was requested, in their listing order. */
  function WithIds(rs: seq<AiReview>, wanted: set<int>): (r: seq<AiReview>)
    ensures forall x :: x in r <==> x in rs && x.id in wanted
    ensures |r| <= |rs|
  {
    if |rs| == 0 then []
    else if rs[0].id in wanted then [rs[0]] + WithIds(rs[1..], wanted)
    else WithIds(rs[1..], wanted)
  }

  /**
   * Selecting by id distributes over concatenation, and a single review is
   * kept exactly when its id was asked for: the selection is the listing
   * with the other reviews removed, in listing order.
   */
  lemma {:induction false} WithIdsKeepsOrder(a: seq<AiReview>, b: seq<AiReview>, wanted: set<int>)
    ensures WithIds(a + b, wanted) == WithIds(a, wanted) + WithIds(b, wanted)
    ensures |a| == 1 ==> WithIds(a, wanted) == if a[0].id in wanted then a else []
    decreases |a|
  {
    if |a| == 0 {
      assert a + b == b;
    } else {
      assert (a + b)[0] == a[0];
      assert (a + b)[1..] == a[1..] + b;
      WithIdsKeepsOrder(a[1..], b, wanted);
    }
  }

  /** Some review carries id `y`. */
  predicate HasReview(rs: seq<AiReview>, y: int) {
    exists x :: x in rs && x.id == y
  }

  /** The requested ids that no review carries, in request order. */
  function Unmatched(ids: seq<int>, rs: seq<AiReview>): (r: seq<int>)
    ensures forall y :: y in r <==> y in ids && !HasReview(rs, y)
  {
    if |ids| == 0 then []
    else
      var rest := Unmatched(ids[1..], rs);
      assert forall y :: y in ids <==> y == ids[0] || y in ids[1..];
      if HasReview(rs, ids[0]) then rest else [ids[0]] + rest
  }

  /**
   * The selection of `review publish-local` over the pull request's local
   * reviews: `--all` takes every review; `--id` takes exactly the requested
   * ones and fails, naming the missing ids in ascending order, if any
   * requested id is not among them.
   */
  function SelectLocalReviews(reviews: seq<AiReview>, all: bool, ids: seq<int>): (r: Result<seq<AiReview>, PublishError>)
    ensures |reviews| == 0 ==> r == Err(NothingToPublish)
    ensures |reviews| > 0 && all ==> r == Ok(reviews)
    ensures |reviews| > 0 && !all && |ids| == 0 ==> r == Err(NoSelection)
    ensures |reviews| > 0 && !all && |ids| > 0 ==>
      (r.Ok? <==> forall y :: y in ids ==> HasReview(reviews, y))
    ensures r.Ok? && !all ==> forall x :: x in r.value <==> x in reviews && x.id in ids
    ensures r.Ok? && !all ==> r.value == WithIds(reviews, set y | y in ids)
    ensures r.Err? && r.error.MissingIds? ==>
      && |r.error.ids| > 0
      && StrictlyAscending(r.error.ids)
      && forall y :: y in r.error.ids <==> y in ids && !HasReview(reviews, y)
  {
    if |reviews| == 0 then Err(NothingToPublish)
    else if all then Ok(reviews)
    else if |ids| > 0 then
      var missing := SortedUniqueInts(Unmatched(ids, reviews));
      if |missing| > 0 then
        assert missing[0] in Unmatched(ids, reviews);
        Err(MissingIds(missing))
      else
        assert forall y :: y in ids ==> HasReview(reviews, y);
        Ok(WithIds(reviews, set y | y in ids))
    else Err(NoSelection)
  }

  /** Python truthiness of an optional line number. */
  predicate LineGiven(line: Option<int>) {
    line.Some? && line.value != 0
  }

  /** Where a review comment points: `PR`, or `file:line` with `-` for a missing or zero line. */
  function CommentTarget(filePath: Option<string>, line: Option<int>): string {
    if !Truthy(filePath) then "PR"
    else filePath.value + ":" + (if LineGiven(line) then IntToString(line.value) else "-")
  }

  /** The target reads `PR` exactly for a review without a file path. */
  lemma CommentTargetIsPR(filePath: Option<string>, line: Option<int>)
    ensures CommentTarget(filePath, line) == "PR" <==> !Truthy(filePath)
  {
    var t := CommentTarget(filePath, line);
    if Truthy(filePath) {
      assert t[|filePath.value|] == ':';
      assert ':' in t;
      assert ':' !in "PR";
    }
  }

  /** For one file, different given lines give different targets. */
  lemma CommentTargetLineInjective(file: string, a: int, b: int)
    requires file != "" && a != 0 && b != 0
    requires CommentTarget(Some(file), Some(a)) == CommentTarget(Some(file), Some(b))
    ensures a == b
  {
    var ta := CommentTarget(Some(file), Some(a));
    var tb := CommentTarget(Some(file), Some(b));
    assert ta[|file| + 1..] == IntToString(a);
    assert tb[|file| + 1..] == IntToString(b);
    IntToStringInjective(a, b);
  }

  /** The comment posted for one local review. */
  function FormatLocalReview(x: AiReview): (f: string)
    ensures |f| > 0 && f[0] == '[' && f[|f| - 1] == ')'
    ensures var head := "[" + SeverityText(x.severity) + "] " + CommentTarget(x.filePath, x.lineNumber) + "\n\n";
      var trailer := "\n\n(agent=" + x.agent + ", local_review_id=" + IntToString(x.id) + ")";
      && |f| == |head| + |x.body| + |trailer|
      && f[..|head|] == head
      && f[|head|..|head| + |x.body|] == x.body
      && f[|head| + |x.body|..] == trailer
  {
    var head := "[" + SeverityText(x.severity) + "] " + CommentTarget(x.filePath, x.lineNumber) + "\n\n";
    var trailer := "\n\n(agent=" + x.agent + ", local_review_id=" + IntToString(x.id) + ")";
    head + x.body + trailer
  }

  /** The posted comment ends with the review's own id, so each post names its source. */
  lemma FormatLocalReviewNamesId(x: AiReview)
    ensures var f := FormatLocalReview(x);
      var tail := ", local_review_id=" + IntToString(x.id) + ")";
      |tail| <= |f| && f[|f| - |tail|..] == tail
  {
  }

  /** The prefix `review publish` and `review publish-local` use by default. */
  const DefaultPrefix: string := "[AI Review]"

  /**
   * `_publish_github_comment`: the body is stripped and must not be empty;
   * a non-empty prefix goes before it, separated by a blank line.
   */
  function PublishCommentBody(prefix: string, body: string): (r: Result<string, PublishError>)
    ensures r.Err? <==> AllSpace(body)
    ensures r.Err? ==> r.error == EmptyBody
    ensures r.Ok? && prefix == "" ==> r.value == Strip(body)
    ensures r.Ok? && prefix != "" ==> r.value == prefix + "\n\n" + Strip(body)
  {
    StripEmptyIff(body);
    var text := Strip(body);
    if text == "" then Err(EmptyBody)
    else Ok(if prefix != "" then prefix + "\n\n" + text else text)
  }

  /** A formatted local review is never refused and is posted unchanged after the prefix. */
  lemma FormattedReviewIsPublished(prefix: string, x: AiReview)
    ensures PublishCommentBody(prefix, FormatLocalReview(x)) ==
      Ok(if prefix != "" then prefix + "\n\n" + FormatLocalReview(x) else FormatLocalReview(x))
  {
    var f := FormatLocalReview(x);
    assert f[0] == '[' && f[|f| - 1] == ')';
    assert !IsSpace(f[0]) && !IsSpace(f[|f| - 1]);
    StripUnchanged(f);
    assert !AllSpace(f);
  }

  /** Publishing is insensitive to surrounding whitespace in the body. */
  lemma PublishCommentBodyStripInvariant(prefix: string, body: string)
    ensures PublishCommentBody(prefix, Strip(body)) == PublishCommentBody(prefix, body)
  {
    var s := Strip(body);
    StripUnchanged(s);
    StripEmptyIff(body);
    StripEmptyIff(s);
  }

  /** `review list`: the stored status, or `pending` without a status row. */
  function ReviewListStatus(st: Store, pid: PullId): (s: string)
    ensures s == ReviewStatusText(EffectiveStatus(st, pid))
    ensures pid !in st.statuses ==> s == "pending"
  {
    var row := GetReviewStatus(st, pid);
    if row.Some? then ReviewStatusText(row.value.status) else "pending"
  }
}

=== FILE: credentials.dfy ===
/**
 * Where a repository's GitHub credentials come from, as both front ends
 * resolve them: the macOS keychain (an abstract secret store here), the
 * legacy token column, the per-repository base-URL override and the
 * process settings.
 */
module Credentials {
  import opened Wrappers
  import opened Text
  import opened Failures
  import opened GitHub
  import opened Db

  /**
   * The secret store. `NoKeychain` is a machine without the `security`
   * command; on a `Keychain` whose `broken` flag is set every command fails.
   * `tokens` maps a repository name to the stored password.
   */
  datatype Keychain =
    | NoKeychain
    | Keychain(tokens: map<string, string>, broken: bool)

  /** `_normalize_optional_text` (and the keychain's `_normalize_token`): blank text reads as absent. */
  function NormalizeOptionalText(v: Option<string>): (r: Option<string>)
    ensures v.None? ==> r.None?
    ensures v.Some? && AllSpace(v.value) ==> r.None?
    ensures v.Some? && !AllSpace(v.value) ==> r == Some(Strip(v.value))
  {
    if v.None? then None
    else
      StripEmptyIff(v.value);
      var s := Strip(v.value);
      if s == "" then None else Some(s)
  }

  /** A present normalised value is non-empty and has no surrounding whitespace. */
  predicate Normalized(v: Option<string>) {
    v.Some? ==> v.value != "" && !IsSpace(v.value[0]) && !IsSpace(v.value[|v.value| - 1])
  }

  /** Normalising yields normalised text, and normalising twice is normalising once. */
  lemma NormalizeOptionalTextIdempotent(v: Option<string>)
    ensures Normalized(NormalizeOptionalText(v))
    ensures NormalizeOptionalText(NormalizeOptionalText(v)) == NormalizeOptionalText(v)
  {
    var r := NormalizeOptionalText(v);
    if r.Some? {
      StripUnchanged(r.value);
      StripEmptyIff(r.value);
    }
  }

  /** A value is normalised to itself exactly when it is already normalised. */
  lemma NormalizeOptionalTextFixpoint(v: Option<string>)
    ensures NormalizeOptionalText(v) == v <==> Normalized(v)
  {
    NormalizeOptionalTextIdempotent(v);
    if Normalized(v) && v.Some? {
      StripUnchanged(v.value);
      StripEmptyIff(v.value);
    }
  }

  /**
   * `get_github_token`: without a keychain, or without an entry, there is no
   * token; a failing command raises; otherwise the stripped password, with a
   * blank one reading as absent.
   */
  function GetToken(kc: Keychain, account: string): (r: Result<Option<string>, Failure>)
    ensures kc.NoKeychain? ==> r == Ok(None)
    ensures kc.Keychain? && kc.broken ==> r == Err(KeychainCommandFailed)
    ensures kc.Keychain? && !kc.broken && account !in kc.tokens ==> r == Ok(None)
    ensures r.Ok? ==> Normalized(r.value)
  {
    match kc
    case NoKeychain => Ok(None)
    case Keychain(tokens, broken) =>
      if broken then Err(KeychainCommandFailed)
      else if account !in tokens then Ok(None)
      else
        NormalizeOptionalTextIdempotent(Some(tokens[account]));
        Ok(NormalizeOptionalText(Some(tokens[account])))
  }

  /**
   * `set_github_token`: a blank token is refused before the keychain is
   * consulted; without a keychain it raises `KeychainUnavailableError`.
   */
  function SetToken(kc: Keychain, account: string, token: string): (r: Result<Keychain, Failure>)
    ensures AllSpace(token) ==> r == Err(KeychainCommandFailed)
    ensures !AllSpace(token) && kc.NoKeychain? ==> r == Err(KeychainUnavailable)
    ensures r.Ok? <==> !AllSpace(token) && kc.Keychain? && !kc.broken
    ensures r.Ok? ==> r.value.Keychain? && !r.value.broken
    ensures r.Ok? ==> forall a :: a != account ==> (a in r.value.tokens <==> a in kc.tokens)
    ensures r.Ok? ==> forall a :: a != account && a in kc.tokens ==> r.value.tokens[a] == kc.tokens[a]
    ensures r.Ok? ==> forall a :: a != account ==> GetToken(r.value, a) == GetToken(kc, a)
  {
    var normalized := NormalizeOptionalText(Some(token));
    if normalized.None? then Err(KeychainCommandFailed)
    else
      match kc
      case NoKeychain => Err(KeychainUnavailable)
      case Keychain(tokens, broken) =>
        if broken then Err(KeychainCommandFailed)
        else Ok(Keychain(tokens[account := normalized.value], false))
  }

  /** `delete_github_token`: a no-op without a keychain or without an entry. */
  function DeleteToken(kc: Keychain, account: string): (r: Result<Keychain, Failure>)
    ensures kc.NoKeychain? ==> r == Ok(kc)
    ensures r.Err? <==> kc.Keychain? && kc.broken
    ensures r.Err? ==> r.error == KeychainCommandFailed
    ensures r.Ok? && r.value.Keychain? ==> account !in r.value.tokens
    ensures r.Ok? && r.value.Keychain? ==> forall a :: a != account ==> (a in r.value.tokens <==> a in kc.tokens)
    ensures r.Ok? && r.value.Keychain? ==> forall a :: a != account && a in kc.tokens ==> r.value.tokens[a] == kc.tokens[a]
    ensures r.Ok? ==> forall a :: a != account ==> GetToken(r.value, a) == GetToken(kc, a)
  {
    match kc
    case NoKeychain => Ok(kc)
    case Keychain(tokens, broken) =>
      if broken then Err(KeychainCommandFailed) else Ok(Keychain(tokens - {account}, false))
  }

  /** A stored token is read back stripped. */
  lemma SetThenGet(kc: Keychain, account: string, token: string)
    requires SetToken(kc, account, token).Ok?
    ensures GetToken(SetToken(kc, account, token).value, account) == Ok(Some(Strip(token)))
  {
    StripEmptyIff(token);
    NormalizeOptionalTextIdempotent(Some(token));
  }

  /** After a successful delete there is no token to read. */
  lemma DeleteThenGet(kc: Keychain, account: string)
    requires DeleteToken(kc, account).Ok?
    ensures GetToken(DeleteToken(kc, account).value, account) == Ok(None)
  {
  }

  /** The process settings: `GITHUB_TOKEN` stripped and `GITHUB_BASE_URL` right-stripped of `/`, when set. */
  datatype Settings = Settings(token: Option<string>, baseUrl: Option<string>)

  /** The pair `_resolve_repo_github_config` hands to the client constructor. */
  datatype GitHubConfig = GitHubConfig(token: Option<string>, baseUrl: Option<string>)

  /** The repository's own token: the keychain entry, else the legacy column. */
  function RepoToken(kc: Keychain, repo: Repository): (r: Result<Option<string>, Failure>)
    ensures r.Err? <==> GetToken(kc, repo.fullName).Err?
    ensures r.Ok? && GetToken(kc, repo.fullName).value.Some? ==> r.value == GetToken(kc, repo.fullName).value
    ensures r.Ok? && GetToken(kc, repo.fullName).value.None? ==> r.value == repo.legacyToken
  {
    var fromKeychain :- GetToken(kc, repo.fullName);
    Ok(if fromKeychain.None? then repo.legacyToken else fromKeychain)
  }

  /**
   * `_resolve_repo_github_config` as written: when neither the repository
   * nor the settings give a base URL, `None.rstrip("/")` raises
   * `AttributeError`.
   */
  function ResolveGithubConfigAsWritten(kc: Keychain, repo: Repository, settings: Settings): (r: Result<GitHubConfig, Failure>)
    ensures r == Err(AttributeCrash) <==>
      GetToken(kc, repo.fullName).Ok? && !Truthy(NormalizeOptionalText(repo.githubBaseUrl)) && settings.baseUrl.None?
  {
    var repoToken :- RepoToken(kc, repo);
    var base := OrElse(NormalizeOptionalText(repo.githubBaseUrl), settings.baseUrl);
    if base.None? then Err(AttributeCrash)
    else Ok(GitHubConfig(OrElse(repoToken, settings.token), Some(RStripChar(base.value, '/'))))
  }

  /**
   * `_resolve_repo_github_config` as intended: a missing base URL is passed
   * on as absent, so the client constructor reports it.
   * Token precedence: keychain, then legacy column, then settings; base URL:
   * the normalised override, else the settings URL, right-stripped of `/`.
   */
  function ResolveGithubConfig(kc: Keychain, repo: Repository, settings: Settings): (r: Result<GitHubConfig, Failure>)
    ensures r.Err? <==> GetToken(kc, repo.fullName).Err?
    ensures r.Err? ==> r.error == KeychainCommandFailed
    ensures r.Ok? && Truthy(GetToken(kc, repo.fullName).value) ==> r.value.token == GetToken(kc, repo.fullName).value
    ensures r.Ok? && GetToken(kc, repo.fullName).value.None? && Truthy(repo.legacyToken) ==> r.value.token == repo.legacyToken
    ensures r.Ok? && GetToken(kc, repo.fullName).value.None? && !Truthy(repo.legacyToken) ==> r.value.token == settings.token
    ensures r.Ok? && repo.githubBaseUrl.Some? && !AllSpace(repo.githubBaseUrl.value) ==>
      r.value.baseUrl == Some(RStripChar(Strip(repo.githubBaseUrl.value), '/'))
    ensures r.Ok? && (repo.githubBaseUrl.None? || AllSpace(repo.githubBaseUrl.value)) ==>
      r.value.baseUrl == (if settings.baseUrl.Some? then Some(RStripChar(settings.baseUrl.value, '/')) else None)
  {
    var repoToken :- RepoToken(kc, repo);
    var override := NormalizeOptionalText(repo.githubBaseUrl);
    NormalizeOptionalTextIdempotent(repo.githubBaseUrl);
    var base := OrElse(override, settings.baseUrl);
    Ok(GitHubConfig(OrElse(repoToken, settings.token), if base.None? then None else Some(RStripChar(base.value, '/'))))
  }

  /** Wherever the code as written does not crash, it agrees with the intended resolution. */
  lemma ResolveAsWrittenAgrees(kc: Keychain, repo: Repository, settings: Settings)
    requires ResolveGithubConfigAsWritten(kc, repo, settings) != Err(AttributeCrash)
    ensures ResolveGithubConfigAsWritten(kc, repo, settings) == ResolveGithubConfig(kc, repo, settings)
  {
  }

  /** `_open_github_client_for_repo`: resolve, then construct the client. */
  function OpenClient(kc: Keychain, repo: Repository, settings: Settings): (r: Result<Client, Failure>)
    ensures r.Ok? <==>
      ResolveGithubConfig(kc, repo, settings).Ok?
      && Truthy(ResolveGithubConfig(kc, repo, settings).value.token)
      && Truthy(ResolveGithubConfig(kc, repo, settings).value.baseUrl)
    ensures ResolveGithubConfig(kc, repo, settings).Ok? && !Truthy(ResolveGithubConfig(kc, repo, settings).value.token) ==>
      r == Err(GitHubError(MissingToken))
    ensures r.Ok? ==> r.value.baseUrl == NormalizeBaseUrl(ResolveGithubConfig(kc, repo, settings).value.baseUrl.value)
  {
    var cfg :- ResolveGithubConfig(kc, repo, settings);
    NewClient(cfg.token, cfg.baseUrl)
  }

  /** `_open_github_client_for_repo` over the resolution as written. */
  function OpenClientAsWritten(kc: Keychain, repo: Repository, settings: Settings): (r: Result<Client, Failure>)
    ensures r != Err(AttributeCrash) ==> r == OpenClient(kc, repo, settings)
  {
    var cfg :- ResolveGithubConfigAsWritten(kc, repo, settings);
    ResolveAsWrittenAgrees(kc, repo, settings);
    NewClient(cfg.token, cfg.baseUrl)
  }

  /**
   * With a token but no base URL anywhere, the code as written crashes with
   * `AttributeError` where the constructor's own `GitHubError` was meant to
   * report the missing URL.
   */
  lemma MissingBaseUrlCrashes(token: string)
    requires token != ""
    ensures var repo := Repository(1, "a/b", true, "t", "t", None, None, None);
      var settings := Settings(Some(token), None);
      && OpenClientAsWritten(NoKeychain, repo, settings) == Err(AttributeCrash)
      && OpenClient(NoKeychain, repo, settings) == Err(GitHubError(MissingBaseUrl))
  {
  }

  /** Replace the row stored under `name` by `row`, which keeps its id and name. */
  function PutRepository(st: Store, name: string, row: Repository): (r: Store)
    requires name in st.repos && row.id == st.repos[name].id && row.fullName == st.repos[name].fullName
    ensures r.repos.Keys == st.repos.Keys && r.repos[name] == row
    ensures forall n :: n in st.repos && n != name ==> r.repos[n] == st.repos[n]
    ensures r.pulls == st.pulls && r.reviews == st.reviews && r.statuses == st.statuses
    ensures r.nextRepoId == st.nextRepoId && r.nextPullId == st.nextPullId && r.nextReviewId == st.nextReviewId
    ensures Valid(st) ==> Valid(r)
  {
    var r := st.(repos := st.repos[name := row]);
    assert Valid(st) ==> Valid(r) by {
      if Valid(st) {
        forall k | k in r.pulls ensures HasRepoId(r, k.0) {
          var n :| n in st.repos && st.repos[n].id == k.0;
          assert r.repos[n].id == k.0;
        }
      }
    }
    r
  }

  /** `clear_repository_legacy_github_token`: drops the token kept in the repository row. */
  function ClearLegacyToken(st: Store, name: string): (r: Store)
    ensures r.repos.Keys == st.repos.Keys
    ensures name in st.repos ==> r.repos[name].legacyToken == None
    ensures forall n :: n in st.repos ==>
      r.repos[n] == (if n == name then st.repos[n].(legacyToken := None) else st.repos[n])
    ensures r.pulls == st.pulls && r.reviews == st.reviews && r.statuses == st.statuses
    ensures r.nextRepoId == st.nextRepoId && r.nextPullId == st.nextPullId && r.nextReviewId == st.nextReviewId
    ensures Valid(st) ==> Valid(r)
  {
    if name in st.repos then PutRepository(st, name, st.repos[name].(legacyToken := None)) else st
  }

  /** `update_repository_github_config(..., update_base_url=True)`: stores the override as given. */
  function SetBaseUrlOverride(st: Store, name: string, url: Option<string>): (r: Store)
    ensures r.repos.Keys == st.repos.Keys
    ensures forall n :: n in st.repos ==>
      r.repos[n] == (if n == name then st.repos[n].(githubBaseUrl := url) else st.repos[n])
    ensures r.pulls == st.pulls && r.reviews == st.reviews && r.statuses == st.statuses
    ensures r.nextRepoId == st.nextRepoId && r.nextPullId == st.nextPullId && r.nextReviewId == st.nextReviewId
    ensures Valid(st) ==> Valid(r)
  {
    if name in st.repos then PutRepository(st, name, st.repos[name].(githubBaseUrl := url)) else st
  }
}

=== FILE: db.dfy ===
/**
 * The local store of `db.py` with its four tables held as maps and a
 * sequence instead of SQL:
 *   - `repositories` keyed by `full_name`,
 *   - `pull_requests` keyed by `(repo_id, number)`,
 *   - `ai_reviews` as an append-only sequence in insertion order,
 *   - `pr_review_status` keyed by `pull_request_id`.
 * Surrogate ids come from per-table counters, like AUTOINCREMENT: an id is
 * never handed out twice. `Valid` collects the schema's uniqueness and
 * foreign-key constraints; every operation preserves it.
 */
module Db {
  import opened Wrappers
  import opened Text
  import opened Failures
  import opened Sorting

  type RepoId = nat
  type PullId = nat
  type ReviewId = nat

  /** A `repositories` row. The last two columns are the per-repository overrides the front ends read. */
  datatype Repository = Repository(
    id: RepoId,
    fullName: string,
    isActive: bool,
    createdAt: string,
    updatedAt: string,
    lastSyncedAt: Option<string>,
    githubBaseUrl: Option<string>,
    legacyToken: Option<string>)

  datatype PrState = Open | Closed | Merged

  function StateText(s: PrState): string {
    match s
    case Open => "open"
    case Closed => "closed"
    case Merged => "merged"
  }

  /** A JSON value inside the `reviewers` column; `text` is what Python's `str` gives for it. */
  datatype JsonValue = JsonString(text: string) | JsonOther(text: string)

  /** The `reviewers` column as JSON text: a list, some other JSON value, or text that does not parse. */
  datatype StoredJson = JsonArray(items: seq<JsonValue>) | JsonNotArray | JsonMalformed

  /** `json.dumps(reviewers)` for a list of strings. */
  function EncodeReviewers(reviewers: seq<string>): (j: StoredJson)
    ensures j.JsonArray? && |j.items| == |reviewers|
    ensures forall i :: 0 <= i < |reviewers| ==> j.items[i] == JsonString(reviewers[i])
  {
    JsonArray(seq(|reviewers|, i requires 0 <= i < |reviewers| => JsonString(reviewers[i])))
  }

  /** The eleven columns an upsert overwrites. */
  datatype PullFields = PullFields(
    title: string,
    body: Option<string>,
    author: string,
    state: PrState,
    headBranch: string,
    baseBranch: string,
    changedFiles: int,
    reviewers: StoredJson,
    createdAt: string,
    updatedAt: string,
    syncedAt: string)

  datatype PullRequest = PullRequest(id: PullId, repoId: RepoId, number: int, fields: PullFields)

  type PullKey = (RepoId, int)

  datatype Severity = Info | Warning | Error

  function SeverityText(s: Severity): string {
    match s
    case Info => "info"
    case Warning => "warning"
    case Error => "error"
  }

  /** An `ai_reviews` row (a local annotation). */
  datatype AiReview = AiReview(
    id: ReviewId,
    pullRequestId: PullId,
    filePath: Option<string>,
    lineNumber: Option<int>,
    severity: Severity,
    body: string,
    agent: string,
    createdAt: string)

  datatype ReviewStatus = Pending | InProgress | Done

  function ReviewStatusText(s: ReviewStatus): string {
    match s
    case Pending => "pending"
    case InProgress => "in-progress"
    case Done => "done"
  }

  datatype StatusRow = StatusRow(status: ReviewStatus, updatedAt: string)

  datatype Store = Store(
    repos: map<string, Repository>,
    pulls: map<PullKey, PullRequest>,
    reviews: seq<AiReview>,
    statuses: map<PullId, StatusRow>,
    nextRepoId: RepoId,
    nextPullId: PullId,
    nextReviewId: ReviewId)

  predicate HasRepoId(st: Store, id: RepoId) {
    exists n :: n in st.repos && st.repos[n].id == id
  }

  predicate HasPullId(st: Store, id: PullId) {
    exists k :: k in st.pulls && st.pulls[k].id == id
  }

  /** `full_name` is the key; ids are unique and below the counter. */
  ghost predicate ReposValid(st: Store) {
    && (forall n :: n in st.repos ==> st.repos[n].fullName == n && st.repos[n].id < st.nextRepoId)
    && (forall n, m :: n in st.repos && m in st.repos && st.repos[n].id == st.repos[m].id ==> n == m)
  }

  /** `UNIQUE (repo_id, number)`, unique ids, and `repo_id REFERENCES repositories(id)`. */
  ghost predicate PullsValid(st: Store) {
    && (forall k :: k in st.pulls ==>
          && st.pulls[k].repoId == k.0 && st.pulls[k].number == k.1
          && st.pulls[k].id < st.nextPullId && HasRepoId(st, k.0))
    && (forall k, l :: k in st.pulls && l in st.pulls && st.pulls[k].id == st.pulls[l].id ==> k == l)
  }

  /** Review ids grow with insertion order; `pull_request_id REFERENCES pull_requests(id)`. */
  ghost predicate ReviewsValid(st: Store) {
    && (forall i :: 0 <= i < |st.reviews| ==>
          st.reviews[i].id < st.nextReviewId && HasPullId(st, st.reviews[i].pullRequestId))
    && (forall i, j :: 0 <= i < j < |st.reviews| ==> st.reviews[i].id < st.reviews[j].id)
  }

  /** `pull_request_id` is the primary key and references `pull_requests(id)`. */
  ghost predicate StatusesValid(st: Store) {
    forall p :: p in st.statuses ==> HasPullId(st, p)
  }

  ghost predicate Valid(st: Store) {
    ReposValid(st) && PullsValid(st) && ReviewsValid(st) && StatusesValid(st)
  }

  /** A freshly initialised database. */
  function EmptyStore(): (st: Store)
    ensures Valid(st)
    ensures st.repos == map[] && st.pulls == map[] && st.reviews == [] && st.statuses == map[]
  {
    Store(map[], map[], [], map[], 1, 1, 1)
  }

  /** `get_repository`. */
  function GetRepository(st: Store, name: string): Option<Repository> {
    if name in st.repos then Some(st.repos[name]) else None
  }

  datatype RepoUpsert = RepoUpsert(store: Store, id: RepoId, created: bool)

  /**
   * `upsert_repository`: reactivates and touches an existing row, keeping its
   * id, creation time and watermark; otherwise inserts an active row with no
   * watermark under a fresh id.
   */
  function UpsertRepository(st: Store, name: string, now: string): (r: RepoUpsert)
    ensures r.created <==> name !in st.repos
    ensures r.store.repos.Keys == st.repos.Keys + {name}
    ensures r.store.repos[name].id == r.id && r.store.repos[name].isActive && r.store.repos[name].updatedAt == now
    ensures name in st.repos ==> r.id == st.repos[name].id && r.store.repos[name] == st.repos[name].(isActive := true, updatedAt := now)
    ensures name !in st.repos ==> r.store.repos[name] == Repository(r.id, name, true, now, now, None, None, None)
    ensures forall n :: n in st.repos && n != name ==> r.store.repos[n] == st.repos[n]
    ensures r.store.pulls == st.pulls && r.store.reviews == st.reviews && r.store.statuses == st.statuses
    ensures r.store.nextPullId == st.nextPullId && r.store.nextReviewId == st.nextReviewId
    ensures Valid(st) ==> Valid(r.store)
    ensures Valid(st) && r.created ==> !HasRepoId(st, r.id)
  {
    if name in st.repos then
      var row := st.repos[name].(isActive := true, updatedAt := now);
      var st' := st.(repos := st.repos[name := row]);
      PutRepositoryValid(st, row, st.nextRepoId);
      assert st'.repos.Keys == st.repos.Keys + {name};
      RepoUpsert(st', row.id, false)
    else
      var row := Repository(st.nextRepoId, name, true, now, now, None, None, None);
      var st' := st.(repos := st.repos[name := row], nextRepoId := st.nextRepoId + 1);
      PutRepositoryValid(st, row, st.nextRepoId + 1);
      NextRepoIdFresh(st);
      assert st'.repos.Keys == st.repos.Keys + {name};
      RepoUpsert(st', row.id, true)
  }

  /** The id counter is above every id handed out. */
  lemma NextRepoIdFresh(st: Store)
    ensures ReposValid(st) ==> !HasRepoId(st, st.nextRepoId)
  {
    if ReposValid(st) {
      forall n | n in st.repos ensures st.repos[n].id != st.nextRepoId {
        assert st.repos[n].id < st.nextRepoId;
      }
    }
  }

  /**
   * Writing one repository row keeps the store valid when the row keeps the
   * id already stored under its name, or takes an id never handed out.
   */
  lemma PutRepositoryValid(st: Store, row: Repository, next: RepoId)
    requires st.nextRepoId <= next
    ensures
      && Valid(st) && row.id < next
      && (row.fullName in st.repos ==> row.id == st.repos[row.fullName].id)
      && (row.fullName !in st.repos ==> row.id >= st.nextRepoId)
      ==> Valid(st.(repos := st.repos[row.fullName := row], nextRepoId := next))
  {
    if !(Valid(st) && row.id < next
         && (row.fullName in st.repos ==> row.id == st.repos[row.fullName].id)
         && (row.fullName !in st.repos ==> row.id >= st.nextRepoId)) {
      return;
    }
    var st' := st.(repos := st.repos[row.fullName := row], nextRepoId := next);
    PutRepositoryRowsValid(st, row, next);
    forall k | k in st'.pulls ensures HasRepoId(st', k.0) {
      var n :| n in st.repos && st.repos[n].id == k.0;
      assert st'.repos[n].id == k.0;
    }
    assert PullsValid(st');
    assert forall p :: HasPullId(st', p) == HasPullId(st, p);
    assert ReviewsValid(st') && StatusesValid(st');
  }

  /** The repository table half of `PutRepositoryValid`. */
  lemma PutRepositoryRowsValid(st: Store, row: Repository, next: RepoId)
    requires ReposValid(st) && st.nextRepoId <= next && row.id < next
    requires row.fullName in st.repos ==> row.id == st.repos[row.fullName].id
    requires row.fullName !in st.repos ==> row.id >= st.nextRepoId
    ensures ReposValid(st.(repos := st.repos[row.fullName := row], nextRepoId := next))
  {
    var st' := st.(repos := st.repos[row.fullName := row], nextRepoId := next);
    forall n, m | n in st'.repos && m in st'.repos && st'.repos[n].id == st'.repos[m].id
      ensures n == m
    {
      if n != row.fullName && m != row.fullName {
        assert st.repos[n].id == st.repos[m].id;
      }
    }
  }

  /** Ids of the pull requests of repository `rid`: what the cascade removes. */
  function PullIdsOf(st: Store, rid: RepoId): set<PullId> {
    set k | k in st.pulls && st.pulls[k].repoId == rid :: st.pulls[k].id
  }

  /** The reviews whose pull request is not in `dead`, in their original order. */
  function KeepReviews(rs: seq<AiReview>, dead: set<PullId>): (r: seq<AiReview>)
    ensures forall x :: x in r <==> x in rs && x.pullRequestId !in dead
    ensures (forall i, j :: 0 <= i < j < |rs| ==> rs[i].id < rs[j].id) ==>
              (forall i, j :: 0 <= i < j < |r| ==> r[i].id < r[j].id)
  {
    if |rs| == 0 then []
    else if rs[0].pullRequestId in dead then KeepReviews(rs[1..], dead)
    else
      var rest := KeepReviews(rs[1..], dead);
      assert forall x :: x in rest ==> x in rs[1..];
      [rs[0]] + rest
  }

  /** With no dead pull request among them, every review is kept. */
  lemma {:induction false} KeepReviewsNoneDead(rs: seq<AiReview>, dead: set<PullId>)
    requires forall i :: 0 <= i < |rs| ==> rs[i].pullRequestId !in dead
    ensures KeepReviews(rs, dead) == rs
  {
    if |rs| > 0 {
      var tail := rs[1..];
      assert forall i :: 0 <= i < |tail| ==> tail[i].pullRequestId !in dead by {
        forall i | 0 <= i < |tail| ensures tail[i].pullRequestId !in dead {
          assert tail[i] == rs[i + 1];
        }
      }
      KeepReviewsNoneDead(tail, dead);
      assert rs[0].pullRequestId !in dead;
      assert KeepReviews(rs, dead) == [rs[0]] + KeepReviews(tail, dead);
      assert rs == [rs[0]] + tail;
    }
  }

  datatype Removal = Removal(store: Store, removed: bool)

  /**
   * `remove_repository`: deletes the row by name; `ON DELETE CASCADE` removes
   * its pull requests and, through them, their reviews and status rows.
   */
  function RemoveRepository(st: Store, name: string): (r: Removal)
    ensures r.removed <==> name in st.repos
    ensures !r.removed ==> r.store == st
    ensures r.store.repos == st.repos - {name}
    ensures r.removed ==>
      var rid := st.repos[name].id;
      && (forall k :: k in r.store.pulls <==> k in st.pulls && st.pulls[k].repoId != rid)
      && (forall k :: k in r.store.pulls ==> r.store.pulls[k] == st.pulls[k])
      && (forall x :: x in r.store.reviews <==> x in st.reviews && x.pullRequestId !in PullIdsOf(st, rid))
      && (forall p :: p in r.store.statuses <==> p in st.statuses && p !in PullIdsOf(st, rid))
      && (forall p :: p in r.store.statuses ==> r.store.statuses[p] == st.statuses[p])
    ensures Valid(st) ==> Valid(r.store)
  {
    if name !in st.repos then Removal(st, false)
    else
      var rid := st.repos[name].id;
      var dead := PullIdsOf(st, rid);
      var st' := Store(
        st.repos - {name},
        map k | k in st.pulls && st.pulls[k].repoId != rid :: st.pulls[k],
        KeepReviews(st.reviews, dead),
        map p | p in st.statuses && p !in dead :: st.statuses[p],
        st.nextRepoId, st.nextPullId, st.nextReviewId);
      RemovePreservesValid(st, name, st');
      Removal(st', true)
  }

  /** Removing a repository that owns no pull request drops its row and nothing else. */
  lemma RemoveEmptyRepository(st: Store, name: string)
    requires name in st.repos
    requires forall k :: k in st.pulls ==> st.pulls[k].repoId != st.repos[name].id
    ensures RemoveRepository(st, name).store == st.(repos := st.repos - {name})
  {
    var rid := st.repos[name].id;
    assert PullIdsOf(st, rid) == {};
    assert (map k | k in st.pulls && st.pulls[k].repoId != rid :: st.pulls[k]) == st.pulls;
    assert (map p | p in st.statuses && p !in PullIdsOf(st, rid) :: st.statuses[p]) == st.statuses;
    KeepReviewsNoneDead(st.reviews, {});
  }

  lemma UnknownIdOwnsNoPull(st: Store, rid: RepoId)
    requires PullsValid(st) && !HasRepoId(st, rid)
    ensures forall k :: k in st.pulls ==> st.pulls[k].repoId != rid
  {
  }

  /**
   * Registering a new name and removing it again gives back every table as
   * it was; only the id counter has moved on (`AUTOINCREMENT` never reuses an id).
   */
  lemma RemoveUndoesCreate(st: Store, name: string, now: string)
    requires Valid(st) && name !in st.repos
    ensures var up := UpsertRepository(st, name, now);
      RemoveRepository(up.store, name).store == st.(nextRepoId := up.store.nextRepoId)
  {
    var up := UpsertRepository(st, name, now);
    UnknownIdOwnsNoPull(st, up.id);
    RemoveAddedRow(st, up.store, name);
  }

  lemma RemoveAddedRow(st: Store, s: Store, name: string)
    requires name !in st.repos
    requires s.repos.Keys == st.repos.Keys + {name}
    requires forall n :: n in st.repos ==> s.repos[n] == st.repos[n]
    requires s.pulls == st.pulls && s.reviews == st.reviews && s.statuses == st.statuses
    requires s.nextPullId == st.nextPullId && s.nextReviewId == st.nextReviewId
    requires forall k :: k in s.pulls ==> s.pulls[k].repoId != s.repos[name].id
    ensures RemoveRepository(s, name).store == st.(nextRepoId := s.nextRepoId)
  {
    RemoveEmptyRepository(s, name);
    assert s.repos - {name} == st.repos;
  }

  lemma RemovePreservesValid(st: Store, name: string, st': Store)
    requires name in st.repos
    requires var rid := st.repos[name].id;
      && st'.repos == st.repos - {name}
      && st'.pulls == (map k | k in st.pulls && st.pulls[k].repoId != rid :: st.pulls[k])
      && st'.reviews == KeepReviews(st.reviews, PullIdsOf(st, rid))
      && st'.statuses == (map p | p in st.statuses && p !in PullIdsOf(st, rid) :: st.statuses[p])
      && st'.nextRepoId == st.nextRepoId && st'.nextPullId == st.nextPullId && st'.nextReviewId == st.nextReviewId
    ensures Valid(st) ==> Valid(st')
  {
    if Valid(st) {
      var rid := st.repos[name].id;
      var dead := PullIdsOf(st, rid);
      assert ReposValid(st');
      RemoveKeepsPullRefs(st, name, st');
      RemoveKeepsSurvivors(st, rid, st');
      RemoveKeepsReviews(st, dead, st');
      assert StatusesValid(st');
    }
  }

  /** After the cascade every remaining pull request still belongs to a remaining repository. */
  lemma RemoveKeepsPullRefs(st: Store, name: string, st': Store)
    requires name in st.repos && PullsValid(st)
    requires st'.repos == st.repos - {name}
    requires st'.pulls == (map k | k in st.pulls && st.pulls[k].repoId != st.repos[name].id :: st.pulls[k])
    requires st'.nextPullId == st.nextPullId
    ensures PullsValid(st')
  {
    var rid := st.repos[name].id;
    forall k | k in st'.pulls ensures HasRepoId(st', k.0) {
      var n :| n in st.repos && st.repos[n].id == k.0;
      assert n != name;
      assert st'.repos[n].id == k.0;
    }
  }

  /** A pull request the cascade does not remove is still there. */
  lemma RemoveKeepsSurvivors(st: Store, rid: RepoId, st': Store)
    requires st'.pulls == (map k | k in st.pulls && st.pulls[k].repoId != rid :: st.pulls[k])
    ensures forall p :: p !in PullIdsOf(st, rid) && HasPullId(st, p) ==> HasPullId(st', p)
  {
    forall p | p !in PullIdsOf(st, rid) && HasPullId(st, p) ensures HasPullId(st', p) {
      var k :| k in st.pulls && st.pulls[k].id == p;
      assert st.pulls[k].repoId != rid;
      assert st'.pulls[k].id == p;
    }
  }

  /** The reviews kept by the cascade refer to surviving pull requests and keep their order. */
  lemma RemoveKeepsReviews(st: Store, dead: set<PullId>, st': Store)
    requires ReviewsValid(st)
    requires st'.reviews == KeepReviews(st.reviews, dead) && st'.nextReviewId == st.nextReviewId
    requires forall p :: p !in dead && HasPullId(st, p) ==> HasPullId(st', p)
    ensures ReviewsValid(st')
  {
    forall i | 0 <= i < |st'.reviews|
      ensures st'.reviews[i].id < st'.nextReviewId && HasPullId(st', st'.reviews[i].pullRequestId)
    {
      assert st'.reviews[i] in st'.reviews;
      var j :| 0 <= j < |st.reviews| && st.reviews[j] == st'.reviews[i];
    }
  }

  /** The timestamp `touch_repository_synced_at` writes: the given one, else the clock. */
  function TouchStamp(syncedAt: Option<string>, now: string): string {
    if Truthy(syncedAt) then syncedAt.value else now
  }

  /**
   * `touch_repository_synced_at`: sets the watermark and `updated_at` of the
   * row with this id to one timestamp; no other row or table changes.
   */
  function TouchRepositorySyncedAt(st: Store, rid: RepoId, syncedAt: Option<string>, now: string): (r: Store)
    ensures r.repos.Keys == st.repos.Keys
    ensures forall n :: n in st.repos && st.repos[n].id == rid ==>
      r.repos[n] == st.repos[n].(lastSyncedAt := Some(TouchStamp(syncedAt, now)), updatedAt := TouchStamp(syncedAt, now))
    ensures forall n :: n in st.repos && st.repos[n].id != rid ==> r.repos[n] == st.repos[n]
    ensures r.pulls == st.pulls && r.reviews == st.reviews && r.statuses == st.statuses
    ensures r.nextRepoId == st.nextRepoId && r.nextPullId == st.nextPullId && r.nextReviewId == st.nextReviewId
    ensures Valid(st) ==> Valid(r)
  {
    var ts := TouchStamp(syncedAt, now);
    var repos' := map n | n in st.repos ::
      if st.repos[n].id == rid then st.repos[n].(lastSyncedAt := Some(ts), updatedAt := ts) else st.repos[n];
    var r := st.(repos := repos');
    assert Valid(st) ==> Valid(r) by {
      if Valid(st) {
        forall k | k in r.pulls ensures HasRepoId(r, k.0) {
          var n :| n in st.repos && st.repos[n].id == k.0;
          assert r.repos[n].id == k.0;
        }
      }
    }
    r
  }

  datatype PullUpsert = PullUpsert(store: Store, id: PullId)

  /**
   * `upsert_pull_request`: inserts or overwrites all eleven mutable columns of
   * the row `(repo_id, number)`, keeping its id on conflict. A `repo_id` with
   * no repository row violates the foreign key.
   */
  function UpsertPullRequest(st: Store, rid: RepoId, number: int, f: PullFields): (r: Result<PullUpsert, Failure>)
    ensures r.Ok? <==> HasRepoId(st, rid)
    ensures r.Err? ==> r.error == IntegrityError
    ensures r.Ok? ==>
      var key := (rid, number);
      var s' := r.value.store;
      && s'.pulls.Keys == st.pulls.Keys + {key}
      && s'.pulls[key].fields == f
      && s'.pulls[key].id == r.value.id
      && (key in st.pulls ==> r.value.id == st.pulls[key].id)
      && (key !in st.pulls ==> r.value.id == st.nextPullId)
      && (forall k :: k in st.pulls && k != key ==> s'.pulls[k] == st.pulls[k])
      && s'.repos == st.repos && s'.reviews == st.reviews && s'.statuses == st.statuses
      && s'.nextRepoId == st.nextRepoId && s'.nextReviewId == st.nextReviewId
      && (Valid(st) ==> Valid(s'))
  {
    if !HasRepoId(st, rid) then Err(IntegrityError)
    else
      var key := (rid, number);
      if key in st.pulls then
        var row := st.pulls[key].(fields := f);
        PutPullValid(st, key, row, st.nextPullId);
        Ok(PullUpsert(st.(pulls := st.pulls[key := row]), row.id))
      else
        var row := PullRequest(st.nextPullId, rid, number, f);
        PutPullValid(st, key, row, st.nextPullId + 1);
        Ok(PullUpsert(st.(pulls := st.pulls[key := row], nextPullId := st.nextPullId + 1), row.id))
  }

  /**
   * Writing one pull request row keeps the store valid when the row belongs
   * to a stored repository and keeps the id already stored under its key,
   * or takes an id never handed out.
   */
  lemma PutPullValid(st: Store, key: PullKey, row: PullRequest, next: PullId)
    requires HasRepoId(st, key.0)
    requires key in st.pulls ==> row == st.pulls[key].(fields := row.fields) && next == st.nextPullId
    requires key !in st.pulls ==> row == PullRequest(st.nextPullId, key.0, key.1, row.fields) && next == st.nextPullId + 1
    ensures Valid(st) ==> Valid(st.(pulls := st.pulls[key := row], nextPullId := next))
  {
    var st' := st.(pulls := st.pulls[key := row], nextPullId := next);
    if Valid(st) {
      PutPullRowsValid(st, key, row, next);
      PullIdsKeptKeepsRefs(st, st');
      assert ReposValid(st');
    }
  }

  /** Reviews and status rows stay valid while every pull request id they may refer to is still there. */
  lemma PullIdsKeptKeepsRefs(st: Store, st': Store)
    requires ReviewsValid(st) && StatusesValid(st)
    requires st'.reviews == st.reviews && st'.statuses == st.statuses && st'.nextReviewId == st.nextReviewId
    requires forall k :: k in st.pulls ==> k in st'.pulls && st'.pulls[k].id == st.pulls[k].id
    ensures ReviewsValid(st') && StatusesValid(st')
  {
    forall p | HasPullId(st, p) ensures HasPullId(st', p) {
      var k :| k in st.pulls && st.pulls[k].id == p;
      assert st'.pulls[k].id == p;
    }
  }

  /** The pull request table half of `PutPullValid`. */
  lemma PutPullRowsValid(st: Store, key: PullKey, row: PullRequest, next: PullId)
    requires PullsValid(st) && HasRepoId(st, key.0)
    requires key in st.pulls ==> row == st.pulls[key].(fields := row.fields) && next == st.nextPullId
    requires key !in st.pulls ==> row == PullRequest(st.nextPullId, key.0, key.1, row.fields) && next == st.nextPullId + 1
    ensures PullsValid(st.(pulls := st.pulls[key := row], nextPullId := next))
  {
    var st' := st.(pulls := st.pulls[key := row], nextPullId := next);
    forall k | k in st'.pulls
      ensures st'.pulls[k].repoId == k.0 && st'.pulls[k].number == k.1 && st'.pulls[k].id < st'.nextPullId
      ensures HasRepoId(st', k.0)
    {
      var n :| n in st.repos && st.repos[n].id == k.0;
      assert st'.repos[n].id == k.0;
    }
    forall k, l | k in st'.pulls && l in st'.pulls && st'.pulls[k].id == st'.pulls[l].id
      ensures k == l
    {
      if k != key && l != key {
        assert st.pulls[k].id == st.pulls[l].id;
      }
    }
  }

  /** Upserting the same pull request twice is the same as upserting it once. */
  lemma UpsertPullRequestIdempotent(st: Store, rid: RepoId, number: int, f: PullFields)
    requires UpsertPullRequest(st, rid, number, f).Ok?
    ensures var once := UpsertPullRequest(st, rid, number, f).value;
      UpsertPullRequest(once.store, rid, number, f) == Ok(once)
  {
    var once := UpsertPullRequest(st, rid, number, f).value;
    var key := (rid, number);
    assert HasRepoId(once.store, rid);
    assert once.store.pulls[key := once.store.pulls[key].(fields := f)] == once.store.pulls;
  }

  /** A row as `list_pull_requests` and `get_pull_request_by_repo_and_number` return it. */
  datatype PullView = PullView(pull: PullRequest, repoFullName: string, reviewStatus: ReviewStatus)

  /** `COALESCE(s.status, 'pending')`: a pull request without a status row reads as pending. */
  function EffectiveStatus(st: Store, pid: PullId): (s: ReviewStatus)
    ensures pid !in st.statuses ==> s == Pending
    ensures pid in st.statuses ==> s == st.statuses[pid].status
  {
    if pid in st.statuses then st.statuses[pid].status else Pending
  }

  /** `get_pull_request_by_repo_and_number`: the join on repository name, active or not. */
  function GetPullRequestByRepoAndNumber(st: Store, name: string, number: int): (r: Option<PullView>)
    ensures r.Some? <==> name in st.repos && (st.repos[name].id, number) in st.pulls
    ensures r.Some? ==>
      && r.value.pull == st.pulls[(st.repos[name].id, number)]
      && r.value.repoFullName == name
      && r.value.reviewStatus == EffectiveStatus(st, r.value.pull.id)
    ensures Valid(st) && r.Some? ==> r.value.pull.repoId == st.repos[name].id && r.value.pull.number == number
  {
    if name in st.repos && (st.repos[name].id, number) in st.pulls then
      var p := st.pulls[(st.repos[name].id, number)];
      Some(PullView(p, name, EffectiveStatus(st, p.id)))
    else None
  }

  /** The WHERE clause of `list_pull_requests` for repository `n` and pull request key `k`. */
  predicate Listed(st: Store, n: string, k: PullKey, repoFilter: Option<string>, state: string)
    requires n in st.repos && k in st.pulls
  {
    && st.pulls[k].repoId == st.repos[n].id
    && st.repos[n].isActive
    && (!Truthy(repoFilter) || n == repoFilter.value)
    && (state == "all" || StateText(st.pulls[k].fields.state) == state)
  }

  /** The rows `list_pull_requests` selects, before ordering. */
  function ListedViews(st: Store, repoFilter: Option<string>, state: string): set<PullView> {
    set n, k | n in st.repos && k in st.pulls && Listed(st, n, k, repoFilter, state) ::
      PullView(st.pulls[k], n, EffectiveStatus(st, st.pulls[k].id))
  }

  predicate UpdatedDesc(vs: seq<PullView>) {
    forall i, j :: 0 <= i < j < |vs| ==> LexLe(vs[j].pull.fields.updatedAt, vs[i].pull.fields.updatedAt)
  }

  /** Insert `v` into a list ordered by `updated_at` descending. */
  function InsertByUpdated(v: PullView, vs: seq<PullView>): (r: seq<PullView>)
    requires UpdatedDesc(vs)
    ensures UpdatedDesc(r)
    ensures multiset(r) == multiset(vs) + multiset{v}
    decreases |vs|
  {
    if |vs| == 0 then [v]
    else if LexLe(vs[0].pull.fields.updatedAt, v.pull.fields.updatedAt) then
      InsertByUpdatedFront(v, vs);
      [v] + vs
    else
      var rest := InsertByUpdated(v, vs[1..]);
      assert vs == [vs[0]] + vs[1..];
      InsertByUpdatedBehind(v, vs, rest);
      [vs[0]] + rest
  }

  lemma InsertByUpdatedFront(v: PullView, vs: seq<PullView>)
    requires UpdatedDesc(vs) && |vs| > 0
    requires LexLe(vs[0].pull.fields.updatedAt, v.pull.fields.updatedAt)
    ensures UpdatedDesc([v] + vs)
  {
    var r := [v] + vs;
    forall i, j | 0 <= i < j < |r|
      ensures LexLe(r[j].pull.fields.updatedAt, r[i].pull.fields.updatedAt)
    {
      if i == 0 && j > 1 {
        LexLeTransitive(r[j].pull.fields.updatedAt, vs[0].pull.fields.updatedAt, v.pull.fields.updatedAt);
      }
    }
  }

  lemma InsertByUpdatedBehind(v: PullView, vs: seq<PullView>, rest: seq<PullView>)
    requires UpdatedDesc(vs) && |vs| > 0
    requires !LexLe(vs[0].pull.fields.updatedAt, v.pull.fields.updatedAt)
    requires UpdatedDesc(rest)
    requires multiset(rest) == multiset(vs[1..]) + multiset{v}
    ensures UpdatedDesc([vs[0]] + rest)
  {
    LexLeTotal(vs[0].pull.fields.updatedAt, v.pull.fields.updatedAt);
    var r := [vs[0]] + rest;
    forall j | 1 <= j < |r|
      ensures LexLe(r[j].pull.fields.updatedAt, r[0].pull.fields.updatedAt)
    {
      assert r[j] in multiset(rest);
      if r[j] != v {
        assert r[j] in multiset(vs[1..]);
        var m :| 0 <= m < |vs[1..]| && vs[1..][m] == r[j];
        assert vs[m + 1] == r[j];
      }
    }
  }

  /**
   * `list_pull_requests`: every pull request of an active repository that
   * passes the optional repository and state filters, each exactly once,
   * ordered by `updated_at` descending (ties in no particular order).
   */
  method ListPullRequests(st: Store, repoFilter: Option<string>, state: string) returns (rows: seq<PullView>)
    ensures multiset(rows) == multiset(ListedViews(st, repoFilter, state))
    ensures UpdatedDesc(rows)
    ensures forall i :: 0 <= i < |rows| ==>
      && rows[i].repoFullName in st.repos
      && st.repos[rows[i].repoFullName].isActive
      && (Truthy(repoFilter) ==> rows[i].repoFullName == repoFilter.value)
      && (state != "all" ==> StateText(rows[i].pull.fields.state) == state)
      && rows[i].reviewStatus == EffectiveStatus(st, rows[i].pull.id)
  {
    var all := ListedViews(st, repoFilter, state);
    var pending := all;
    rows := [];
    while pending != {}
      invariant pending <= all
      invariant UpdatedDesc(rows)
      invariant multiset(rows) == multiset(all - pending)
      decreases |pending|
    {
      var v :| v in pending;
      PickedView(all, pending, v);
      rows := InsertByUpdated(v, rows);
      pending := pending - {v};
    }
    assert all - pending == all;
    forall i | 0 <= i < |rows|
      ensures rows[i].repoFullName in st.repos && st.repos[rows[i].repoFullName].isActive
      ensures Truthy(repoFilter) ==> rows[i].repoFullName == repoFilter.value
      ensures state != "all" ==> StateText(rows[i].pull.fields.state) == state
      ensures rows[i].reviewStatus == EffectiveStatus(st, rows[i].pull.id)
    {
      assert rows[i] in multiset(rows);
      ListedViewFacts(st, repoFilter, state, rows[i]);
    }
  }

  /** Moving `v` from the pending set to the done set adds it once to the done multiset. */
  lemma PickedView(all: set<PullView>, pending: set<PullView>, v: PullView)
    requires v in pending && pending <= all
    ensures multiset(all - (pending - {v})) == multiset(all - pending) + multiset{v}
  {
    assert all - (pending - {v}) == (all - pending) + {v};
  }

  /** A selected row belongs to an active repository, passes both filters and carries its effective review status. */
  lemma ListedViewFacts(st: Store, repoFilter: Option<string>, state: string, v: PullView)
    requires v in ListedViews(st, repoFilter, state)
    ensures v.repoFullName in st.repos && st.repos[v.repoFullName].isActive
    ensures Truthy(repoFilter) ==> v.repoFullName == repoFilter.value
    ensures state != "all" ==> StateText(v.pull.fields.state) == state
    ensures v.reviewStatus == EffectiveStatus(st, v.pull.id)
  {
    var n, k :| n in st.repos && k in st.pulls && Listed(st, n, k, repoFilter, state)
      && v == PullView(st.pulls[k], n, EffectiveStatus(st, st.pulls[k].id));
  }

  datatype ReviewInsert = ReviewInsert(store: Store, id: ReviewId)

  /**
   * `insert_ai_review`: appends a row under a fresh id with no uniqueness
   * check on its content; an unknown pull request id violates the foreign key.
   */
  function InsertAiReview(
    st: Store, pid: PullId, filePath: Option<string>, lineNumber: Option<int>,
    severity: Severity, body: string, agent: string, now: string): (r: Result<ReviewInsert, Failure>)
    ensures r.Ok? <==> HasPullId(st, pid)
    ensures r.Err? ==> r.error == IntegrityError
    ensures r.Ok? ==>
      && r.value.store.reviews == st.reviews + [AiReview(r.value.id, pid, filePath, lineNumber, severity, body, agent, now)]
      && r.value.store.repos == st.repos && r.value.store.pulls == st.pulls && r.value.store.statuses == st.statuses
      && (Valid(st) ==> Valid(r.value.store))
      && (Valid(st) ==> forall i :: 0 <= i < |st.reviews| ==> st.reviews[i].id < r.value.id)
  {
    if !HasPullId(st, pid) then Err(IntegrityError)
    else
      var row := AiReview(st.nextReviewId, pid, filePath, lineNumber, severity, body, agent, now);
      Ok(ReviewInsert(st.(reviews := st.reviews + [row], nextReviewId := st.nextReviewId + 1), row.id))
  }

  /** The reviews of one pull request in insertion order. */
  function ReviewsOf(rs: seq<AiReview>, pid: PullId): (r: seq<AiReview>)
    ensures forall x :: x in r <==> x in rs && x.pullRequestId == pid
  {
    if |rs| == 0 then []
    else if rs[0].pullRequestId == pid then [rs[0]] + ReviewsOf(rs[1..], pid)
    else ReviewsOf(rs[1..], pid)
  }

  /** `ORDER BY created_at ASC, id ASC`. */
  predicate ReviewBefore(a: AiReview, b: AiReview) {
    LexLt(a.createdAt, b.createdAt) || (a.createdAt == b.createdAt && a.id <= b.id)
  }

  predicate CreationOrdered(rs: seq<AiReview>) {
    forall i, j :: 0 <= i < j < |rs| ==> ReviewBefore(rs[i], rs[j])
  }

  lemma ReviewBeforeTotal(a: AiReview, b: AiReview)
    ensures ReviewBefore(a, b) || ReviewBefore(b, a)
  {
    LexLtTotal(a.createdAt, b.createdAt);
  }

  lemma ReviewBeforeTransitive(a: AiReview, b: AiReview, c: AiReview)
    requires ReviewBefore(a, b) && ReviewBefore(b, c)
    ensures ReviewBefore(a, c)
  {
    if LexLt(a.createdAt, b.createdAt) && LexLt(b.createdAt, c.createdAt) {
      LexLtTransitive(a.createdAt, b.createdAt, c.createdAt);
    }
  }

  /** Insert `x` into a list in creation order. */
  function InsertByCreation(x: AiReview, rs: seq<AiReview>): (r: seq<AiReview>)
    requires CreationOrdered(rs)
    ensures CreationOrdered(r)
    ensures multiset(r) == multiset(rs) + multiset{x}
    decreases |rs|
  {
    if |rs| == 0 then [x]
    else if ReviewBefore(x, rs[0]) then
      InsertByCreationFront(x, rs);
      [x] + rs
    else
      var rest := InsertByCreation(x, rs[1..]);
      assert rs == [rs[0]] + rs[1..];
      InsertByCreationBehind(x, rs, rest);
      [rs[0]] + rest
  }

  lemma InsertByCreationFront(x: AiReview, rs: seq<AiReview>)
    requires CreationOrdered(rs) && |rs| > 0 && ReviewBefore(x, rs[0])
    ensures CreationOrdered([x] + rs)
  {
    var r := [x] + rs;
    forall i, j | 0 <= i < j < |r|
      ensures ReviewBefore(r[i], r[j])
    {
      if i == 0 && j > 1 {
        ReviewBeforeTransitive(x, rs[0], r[j]);
      }
    }
  }

  lemma InsertByCreationBehind(x: AiReview, rs: seq<AiReview>, rest: seq<AiReview>)
    requires CreationOrdered(rs) && |rs| > 0 && !ReviewBefore(x, rs[0])
    requires CreationOrdered(rest)
    requires multiset(rest) == multiset(rs[1..]) + multiset{x}
    ensures CreationOrdered([rs[0]] + rest)
  {
    ReviewBeforeTotal(x, rs[0]);
    var r := [rs[0]] + rest;
    forall j | 1 <= j < |r|
      ensures ReviewBefore(r[0], r[j])
    {
      assert r[j] in multiset(rest);
      if r[j] != x {
        assert r[j] in multiset(rs[1..]);
        var m :| 0 <= m < |rs[1..]| && rs[1..][m] == r[j];
        assert rs[m + 1] == r[j];
      }
    }
  }

  function SortByCreation(rs: seq<AiReview>): (r: seq<AiReview>)
    ensures CreationOrdered(r)
    ensures multiset(r) == multiset(rs)
  {
    if |rs| == 0 then []
    else
      assert rs == [rs[0]] + rs[1..];
      InsertByCreation(rs[0], SortByCreation(rs[1..]))
  }

  /**
   * `list_ai_reviews`: exactly the reviews of this pull request, each once,
   * ordered by creation time and then by id.
   */
  function ListAiReviews(st: Store, pid: PullId): (r: seq<AiReview>)
    ensures forall x :: x in r <==> x in st.reviews && x.pullRequestId == pid
    ensures multiset(r) == multiset(ReviewsOf(st.reviews, pid))
    ensures CreationOrdered(r)
  {
    var mine := ReviewsOf(st.reviews, pid);
    var r := SortByCreation(mine);
    assert forall x :: x in r <==> x in multiset(r);
    assert forall x :: x in mine <==> x in multiset(mine);
    r
  }

  /** `get_review_status`: the stored status row, if the pull request has one. */
  function GetReviewStatus(st: Store, pid: PullId): (r: Option<StatusRow>)
    ensures r.Some? <==> pid in st.statuses
    ensures r.Some? ==> r.value.status == EffectiveStatus(st, pid)
    ensures r.None? ==> EffectiveStatus(st, pid) == Pending
  {
    if pid in st.statuses then Some(st.statuses[pid]) else None
  }

  /**
   * Reading a status back after `set_review_status` gives the row just
   * written, and every other pull request reads as before.
   */
  lemma GetReviewStatusAfterSet(st: Store, pid: PullId, status: ReviewStatus, now: string, other: PullId)
    requires SetReviewStatus(st, pid, status, now).Ok?
    ensures GetReviewStatus(SetReviewStatus(st, pid, status, now).value, pid) == Some(StatusRow(status, now))
    ensures other != pid ==>
      GetReviewStatus(SetReviewStatus(st, pid, status, now).value, other) == GetReviewStatus(st, other)
  {
  }

  /**
   * `set_review_status`: inserts or overwrites the single status row of the
   * pull request; an unknown pull request id violates the foreign key.
   */
  function SetReviewStatus(st: Store, pid: PullId, status: ReviewStatus, now: string): (r: Result<Store, Failure>)
    ensures r.Ok? <==> HasPullId(st, pid)
    ensures r.Err? ==> r.error == IntegrityError
    ensures r.Ok? ==>
      && r.value.statuses.Keys == st.statuses.Keys + {pid}
      && r.value.statuses[pid] == StatusRow(status, now)
      && EffectiveStatus(r.value, pid) == status
      && (forall p :: p in st.statuses && p != pid ==> r.value.statuses[p] == st.statuses[p])
      && r.value.repos == st.repos && r.value.pulls == st.pulls && r.value.reviews == st.reviews
      && (Valid(st) ==> Valid(r.value))
  {
    if !HasPullId(st, pid) then Err(IntegrityError)
    else Ok(st.(statuses := st.statuses[pid := StatusRow(status, now)]))
  }

  /** `list_repositories`: every repository name, ascending. */
  method ListRepositories(st: Store) returns (names: seq<string>)
    ensures StrictlySorted(names)
    ensures forall n :: n in names <==> n in st.repos
  {
    names := SortedStringsOf(st.repos.Keys);
  }

  /** `list_active_repositories`: the names of active repositories, ascending. */
  method ListActiveRepositories(st: Store) returns (names: seq<string>)
    ensures StrictlySorted(names)
    ensures forall n :: n in names <==> n in st.repos && st.repos[n].isActive
  {
    names := SortedStringsOf(set n | n in st.repos && st.repos[n].isActive);
  }
}

=== FILE: failures.dfy ===
/** The exceptions the modelled code raises or lets propagate. */
module Failures {

  /** Why a `GitHubError` was raised. */
  datatype GitHubCause =
    | MissingToken            // client constructed without a usable token
    | MissingBaseUrl          // client constructed without a usable base URL
    | HttpStatus(code: int)   // a response with status 400 or above

  datatype Failure =
    | GitHubError(cause: GitHubCause)
    | TransportError          // an HTTP transport exception; not a GitHubError
    | KeychainUnavailable     // no secret backend on this machine
    | KeychainCommandFailed   // the secret backend is present but failed
    | IntegrityError          // a foreign-key violation in the local store
    | AttributeCrash          // an AttributeError on a missing value
    | NotRegistered           // the named repository has no row
}

=== FILE: github.dfy ===
/**
 * The GitHub API client: constructor checks, the error rule every request
 * goes through, and `_paginate`. The remote server is an oracle: a page
 * sequence `pages` where `pages[i]` is the reply to page number `i + 1`;
 * every page past the end of the sequence is an empty `200` reply.
 */
module GitHub {
  import opened Wrappers
  import opened Text
  import opened Failures

  /** Page size `_paginate` and the incremental scan ask for. */
  const PerPage: nat := 100

  /** One HTTP exchange: a status and a decoded body, or a transport failure. */
  datatype Reply<+T> = Reply(status: int, body: T) | TransportFailure

  /** `_request`: any status of 400 or above raises `GitHubError`. */
  function Request<T>(reply: Reply<T>): (r: Result<T, Failure>)
    ensures r.Err? <==> reply.TransportFailure? || reply.status >= 400
    ensures reply.TransportFailure? ==> r == Err(TransportError)
    ensures reply.Reply? && reply.status >= 400 ==> r == Err(GitHubError(HttpStatus(reply.status)))
    ensures r.Ok? ==> r.value == reply.body
  {
    match reply
    case TransportFailure => Err(TransportError)
    case Reply(status, body) => if status >= 400 then Err(GitHubError(HttpStatus(status))) else Ok(body)
  }

  /** A constructed client: the bearer token and the effective base URL. */
  datatype Client = Client(token: string, baseUrl: string)

  /** `base_url.rstrip("/") + "/"`. */
  function NormalizeBaseUrl(url: string): (r: string)
    ensures |r| >= 1 && r[|r| - 1] == '/'
    ensures |r| == 1 || r[|r| - 2] != '/'
    ensures r[..|r| - 1] <= url
    ensures forall i :: |r| - 1 <= i < |url| ==> url[i] == '/'
  {
    RStripChar(url, '/') + "/"
  }

  /** `GitHubClient.__init__`: a missing or empty token or base URL raises `GitHubError`. */
  function NewClient(token: Option<string>, baseUrl: Option<string>): (r: Result<Client, Failure>)
    ensures !Truthy(token) ==> r == Err(GitHubError(MissingToken))
    ensures Truthy(token) && !Truthy(baseUrl) ==> r == Err(GitHubError(MissingBaseUrl))
    ensures r.Ok? <==> Truthy(token) && Truthy(baseUrl)
    ensures r.Ok? ==> r.value.token == token.value && r.value.baseUrl == NormalizeBaseUrl(baseUrl.value)
  {
    if !Truthy(token) then Err(GitHubError(MissingToken))
    else if !Truthy(baseUrl) then Err(GitHubError(MissingBaseUrl))
    else Ok(Client(token.value, NormalizeBaseUrl(baseUrl.value)))
  }

  datatype QueryValue = QText(text: string) | QNumber(n: int)

  type Query = map<string, QueryValue>

  /** `{**base_params, "per_page": 100, "page": page}`. */
  function PageQuery(base: Query, page: nat): (q: Query)
    ensures q.Keys == base.Keys + {"per_page", "page"}
    ensures q["per_page"] == QNumber(PerPage) && q["page"] == QNumber(page)
    ensures forall k :: k in base && k != "per_page" && k != "page" ==> q[k] == base[k]
  {
    base + map["per_page" := QNumber(PerPage), "page" := QNumber(page)]
  }

  /** The server's reply to the page at index `i` (page number `i + 1`). */
  function PageReply<T>(pages: seq<Reply<seq<T>>>, i: nat): Reply<seq<T>> {
    if i < |pages| then pages[i] else Reply(200, [])
  }

  /** The items a reply carries; a failed exchange carries none. */
  function BodyOf<T>(reply: Reply<seq<T>>): seq<T> {
    if reply.Reply? then reply.body else []
  }

  /** Prefix the items of a successful result. */
  function Prepend<T>(prefix: seq<T>, r: Result<seq<T>, Failure>): (r': Result<seq<T>, Failure>)
    ensures r'.Ok? <==> r.Ok?
    ensures r.Err? ==> r' == r
    ensures r.Ok? ==> r'.value == prefix + r.value
  {
    match r
    case Ok(rest) => Ok(prefix + rest)
    case Err(e) => Err(e)
  }

  lemma PrependNil<T>(r: Result<seq<T>, Failure>)
    ensures Prepend([], r) == r
  {
    if r.Ok? {
      assert [] + r.value == r.value;
    }
  }

  lemma PrependTwice<T>(a: seq<T>, b: seq<T>, r: Result<seq<T>, Failure>)
    ensures Prepend(a, Prepend(b, r)) == Prepend(a + b, r)
  {
    if r.Ok? {
      assert a + (b + r.value) == (a + b) + r.value;
    }
  }

  /** `_paginate` from page index `i` on, as a recursive definition. */
  function PaginateFrom<T>(pages: seq<Reply<seq<T>>>, i: nat): Result<seq<T>, Failure>
    decreases |pages| - i
  {
    if i >= |pages| then Ok([])
    else
      match Request(pages[i])
      case Err(e) => Err(e)
      case Ok(chunk) =>
        if |chunk| == 0 then Ok([])
        else if |chunk| < PerPage then Ok(chunk)
        else Prepend(chunk, PaginateFrom(pages, i + 1))
  }

  function Paginate<T>(pages: seq<Reply<seq<T>>>): Result<seq<T>, Failure> {
    PaginateFrom(pages, 0)
  }

  /** A reply after which `_paginate` requests no further page. */
  predicate IsLastPage<T>(reply: Reply<seq<T>>) {
    Request(reply).Err? || |reply.body| < PerPage
  }

  /** Index of the first page at or after `i` that ends pagination. */
  function StopPage<T>(pages: seq<Reply<seq<T>>>, i: nat): (k: nat)
    ensures i <= k
    ensures k < |pages| ==> IsLastPage(pages[k])
    ensures forall j :: i <= j < k && j < |pages| ==> !IsLastPage(pages[j])
    ensures k > |pages| ==> k == i
    decreases |pages| - i
  {
    if i >= |pages| || IsLastPage(pages[i]) then i else StopPage(pages, i + 1)
  }

  /** Concatenation of the bodies of pages `i` up to but excluding `j`. */
  function Bodies<T>(pages: seq<Reply<seq<T>>>, i: nat, j: nat): seq<T>
    requires i <= j <= |pages|
    decreases j - i
  {
    if i == j then [] else BodyOf(pages[i]) + Bodies(pages, i + 1, j)
  }

  /**
   * `_paginate` returns the pages from `i` up to and including the stopping
   * page concatenated in order, or the error of the stopping page.
   */
  lemma {:induction false} PaginateIsConcatenation<T>(pages: seq<Reply<seq<T>>>, i: nat)
    requires i <= |pages|
    ensures var k := StopPage(pages, i);
      PaginateFrom(pages, i) ==
        if k < |pages| && Request(pages[k]).Err? then Err(Request(pages[k]).error)
        else Ok(Bodies(pages, i, if k < |pages| then k + 1 else |pages|))
    decreases |pages| - i
  {
    var k := StopPage(pages, i);
    if i < |pages| {
      if IsLastPage(pages[i]) {
        assert k == i;
        assert Bodies(pages, i + 1, i + 1) == [];
        assert Bodies(pages, i, i + 1) == BodyOf(pages[i]);
      } else {
        PaginateIsConcatenation(pages, i + 1);
        assert StopPage(pages, i + 1) == k;
      }
    }
  }

  lemma {:induction false} BodiesMember<T>(pages: seq<Reply<seq<T>>>, i: nat, j: nat, x: T)
    requires i <= j <= |pages|
    requires x in Bodies(pages, i, j)
    ensures exists p :: i <= p < j && x in BodyOf(pages[p])
    decreases j - i
  {
    if x !in BodyOf(pages[i]) {
      BodiesMember(pages, i + 1, j, x);
    }
  }

  /** Every item `_paginate` returns came from a page it requested. */
  lemma ItemsComeFromRequestedPages<T>(pages: seq<Reply<seq<T>>>, x: T)
    requires Paginate(pages).Ok? && x in Paginate(pages).value
    ensures exists p :: 0 <= p <= StopPage(pages, 0) && p < |pages| && x in BodyOf(pages[p])
  {
    PaginateIsConcatenation(pages, 0);
    var k := StopPage(pages, 0);
    BodiesMember(pages, 0, if k < |pages| then k + 1 else |pages|, x);
  }

  /** The queries for pages 1 to `n`, in order. */
  function PageQueries(params: Query, n: nat): (qs: seq<Query>)
    ensures |qs| == n
  {
    if n == 0 then [] else PageQueries(params, n - 1) + [PageQuery(params, n)]
  }

  lemma {:induction false} PageQueriesAt(params: Query, n: nat)
    ensures forall j :: 0 <= j < n ==> PageQueries(params, n)[j] == PageQuery(params, j + 1)
  {
    if n > 0 {
      PageQueriesAt(params, n - 1);
    }
  }

  /** The query list after requesting page `page`: the one before, with that page's query appended. */
  method NextPageQueries(queries: seq<Query>, params: Query, page: nat) returns (r: seq<Query>)
    requires page >= 1 && queries == PageQueries(params, page - 1)
    ensures r == PageQueries(params, page)
  {
    r := queries + [PageQuery(params, page)];
  }

  /** One page of `_paginate`: a failed or short page ends it, a full page leads on to the next. */
  lemma PaginateStep<T>(pages: seq<Reply<seq<T>>>, i: nat)
    requires i <= |pages|
    ensures var response := Request(PageReply(pages, i));
      && (response.Err? ==> PaginateFrom(pages, i) == Err(response.error) && StopPage(pages, i) == i)
      && (response.Ok? && |response.value| < PerPage ==> PaginateFrom(pages, i) == Ok(response.value) && StopPage(pages, i) == i)
      && (response.Ok? && |response.value| >= PerPage ==>
            && i < |pages|
            && PaginateFrom(pages, i) == Prepend(response.value, PaginateFrom(pages, i + 1))
            && StopPage(pages, i) == StopPage(pages, i + 1))
  {
  }

  /**
   * The loop of `_paginate`: requests pages 1, 2, ... with the merged query,
   * appends every non-empty chunk and stops after an empty or short chunk.
   * `queries` lists the queries sent, one per requested page.
   */
  method PaginateLoop<T>(pages: seq<Reply<seq<T>>>, params: Query) returns (r: Result<seq<T>, Failure>, queries: seq<Query>)
    ensures r == Paginate(pages)
    ensures |queries| == StopPage(pages, 0) + 1
    ensures forall j :: 0 <= j < |queries| ==> queries[j] == PageQuery(params, j + 1)
  {
    var page: nat := 1;
    var merged: seq<T> := [];
    queries := [];
    PrependNil(Paginate(pages));
    while true
      invariant 1 <= page <= |pages| + 1
      invariant StopPage(pages, 0) == StopPage(pages, page - 1)
      invariant Paginate(pages) == Prepend(merged, PaginateFrom(pages, page - 1))
      invariant queries == PageQueries(params, page - 1)
      decreases |pages| + 1 - page
    {
      queries := NextPageQueries(queries, params, page);
      var response := Request(PageReply(pages, page - 1));
      PaginateStep(pages, page - 1);
      if response.Err? {
        r := Err(response.error);
        break;
      }
      var chunk := response.value;
      if |chunk| < PerPage {
        r := Ok(merged + chunk);
        break;
      }
      PrependTwice(merged, chunk, PaginateFrom(pages, page));
      merged := merged + chunk;
      page := page + 1;
    }
    PageQueriesAt(params, page);
  }
}

=== FILE: normalize.dfy ===
/**
 * The pure helpers of `sync.py`: the repository-name check, the state
 * normaliser, reviewer extraction and the mapping from a pull-request
 * detail document to the columns the sync engine stores.
 */
module Normalize {
  import opened Wrappers
  import opened Text
  import opened Sorting
  import opened Db

  /** One character of the class `[A-Za-z0-9_.-]`. */
  predicate NameChar(c: char) {
    ('A' <= c <= 'Z') || ('a' <= c <= 'z') || ('0' <= c <= '9') || c == '_' || c == '.' || c == '-'
  }

  /** One side of `owner/repo`: non-empty, over the name characters only. */
  predicate Segment(s: string) {
    |s| > 0 && forall i :: 0 <= i < |s| ==> NameChar(s[i])
  }

  /** `validate_repo_full_name`, accepting exactly `segment/segment`. */
  function ValidateRepoFullName(s: string): bool {
    '/' in s && Segment(s[..IndexOf(s, '/')]) && Segment(s[IndexOf(s, '/') + 1..])
  }

  /** The accepted names are exactly two segments joined by one `/`. */
  lemma ValidateRepoFullNameIff(s: string)
    ensures ValidateRepoFullName(s) <==> exists a, b :: Segment(a) && Segment(b) && s == a + "/" + b
  {
    if ValidateRepoFullName(s) {
      var i := IndexOf(s, '/');
      assert s == s[..i] + "/" + s[i + 1..];
    }
    if exists a, b :: Segment(a) && Segment(b) && s == a + "/" + b {
      var a, b :| Segment(a) && Segment(b) && s == a + "/" + b;
      SegmentHasNoSlash(a);
      assert s[|a|] == '/';
      var i := IndexOf(s, '/');
      assert s[..|a|] == a;
      assert i == |a|;
      assert s[i + 1..] == b;
    }
  }

  lemma SegmentHasNoSlash(s: string)
    requires Segment(s)
    ensures '/' !in s
  {
    forall i | 0 <= i < |s|
      ensures s[i] != '/'
    {
      assert NameChar(s[i]);
    }
  }

  /**
   * `REPO_FULL_NAME_PATTERN.match` as written: Python's `$` also matches just
   * before a final newline, so a valid name followed by `"\n"` is accepted.
   */
  function ValidateRepoFullNameAsWritten(s: string): bool {
    ValidateRepoFullName(s) || (|s| > 0 && s[|s| - 1] == '\n' && ValidateRepoFullName(s[..|s| - 1]))
  }

  /** The as-written check accepts a name with a trailing newline that the intended check refuses. */
  lemma TrailingNewlineAccepted()
    ensures ValidateRepoFullNameAsWritten("a/b\n")
    ensures !ValidateRepoFullName("a/b\n")
  {
    var s := "a/b\n";
    assert s[..3] == "a" + "/" + "b";
    assert Segment("a") && Segment("b");
    ValidateRepoFullNameIff(s[..3]);
    assert IndexOf(s, '/') == 1;
    assert s[2..][1] == '\n';
  }

  /** The two checks differ only on names ending in a newline. */
  lemma AsWrittenAgreesWithoutNewline(s: string)
    requires |s| == 0 || s[|s| - 1] != '\n'
    ensures ValidateRepoFullNameAsWritten(s) == ValidateRepoFullName(s)
  {
  }

  /**
   * `_normalize_pr_state`: `rawState` is the text of the `state` field
   * (`None` when absent, which reads as `open`).
   */
  function NormalizePrState(rawState: Option<string>, mergedAt: Option<string>): (r: PrState)
    ensures r == Merged <==> rawState == Some("closed") && Truthy(mergedAt)
    ensures r == Closed <==> rawState == Some("closed") && !Truthy(mergedAt)
    ensures r == Open <==> rawState != Some("closed")
  {
    var raw := if rawState.Some? then rawState.value else "open";
    if raw == "closed" && Truthy(mergedAt) then Merged
    else if raw != "open" && raw != "closed" then Open
    else if raw == "open" then Open
    else Closed
  }

  /** The non-empty string values of a list of optional fields, in order. */
  function TruthyValues(xs: seq<Option<string>>): (r: seq<string>)
    ensures forall y :: y in r <==> exists i :: 0 <= i < |xs| && xs[i] == Some(y) && y != ""
  {
    if |xs| == 0 then []
    else
      var rest := TruthyValues(xs[1..]);
      assert forall i :: 1 <= i < |xs| ==> xs[i] == xs[1..][i - 1];
      if Truthy(xs[0]) then [xs[0].value] + rest else rest
  }

  function TeamNames(slugs: seq<string>): (r: seq<string>)
    ensures |r| == |slugs|
    ensures forall i :: 0 <= i < |slugs| ==> r[i] == "team:" + slugs[i]
  {
    seq(|slugs|, i requires 0 <= i < |slugs| => "team:" + slugs[i])
  }

  /**
   * `_extract_reviewers`: `logins` holds each requested user's `login` and
   * `slugs` each requested team's `slug` (`None` when absent or not a string).
   */
  function ExtractReviewers(logins: seq<Option<string>>, slugs: seq<Option<string>>): (r: seq<string>)
    ensures StrictlySorted(r)
  {
    SortedUniqueStrings(TruthyValues(logins) + TeamNames(TruthyValues(slugs)))
  }

  /** The reviewer set the extraction is meant to produce, defined independently. */
  function ReviewerSet(logins: seq<Option<string>>, slugs: seq<Option<string>>): set<string> {
    (set i | 0 <= i < |logins| && Truthy(logins[i]) :: logins[i].value)
    + (set i | 0 <= i < |slugs| && Truthy(slugs[i]) :: "team:" + slugs[i].value)
  }

  /** The extracted list is the reviewer set, each member once, in ascending order. */
  lemma ExtractReviewersIsReviewerSet(logins: seq<Option<string>>, slugs: seq<Option<string>>)
    ensures forall x :: x in ExtractReviewers(logins, slugs) <==> x in ReviewerSet(logins, slugs)
  {
    var ls := TruthyValues(logins);
    var ts := TruthyValues(slugs);
    var all := ls + TeamNames(ts);
    forall x
      ensures x in ExtractReviewers(logins, slugs) <==> x in ReviewerSet(logins, slugs)
    {
      if x in ReviewerSet(logins, slugs) {
        if i :| 0 <= i < |slugs| && Truthy(slugs[i]) && x == "team:" + slugs[i].value {
          var k :| 0 <= k < |ts| && ts[k] == slugs[i].value;
          assert TeamNames(ts)[k] == x;
        }
      }
      if x in ExtractReviewers(logins, slugs) {
        assert x in all;
        if x !in ls {
          var k :| 0 <= k < |TeamNames(ts)| && TeamNames(ts)[k] == x;
          assert ts[k] in ts;
        }
      }
    }
  }

  /** The fields of a pull-request detail document that the sync engine reads. */
  datatype PullDetail = PullDetail(
    state: Option<string>,
    mergedAt: Option<string>,
    title: Option<string>,
    body: Option<string>,
    userLogin: Option<string>,
    headRef: Option<string>,
    baseRef: Option<string>,
    changedFiles: Option<int>,
    reviewerLogins: seq<Option<string>>,
    teamSlugs: seq<Option<string>>,
    createdAt: Option<string>,
    updatedAt: Option<string>)

  /** `int(changed_files or 0)`. */
  function CountOr0(n: Option<int>): int {
    if n.Some? then n.value else 0
  }

  /** The columns `sync_repository` writes for one detail document, with their defaults. */
  function FieldsOf(d: PullDetail, startedAt: string): PullFields
  {
    PullFields(
      TextOr(d.title, ""),
      d.body,
      TextOr(d.userLogin, "unknown"),
      NormalizePrState(d.state, d.mergedAt),
      TextOr(d.headRef, ""),
      TextOr(d.baseRef, ""),
      CountOr0(d.changedFiles),
      EncodeReviewers(ExtractReviewers(d.reviewerLogins, d.teamSlugs)),
      TextOr(d.createdAt, startedAt),
      TextOr(d.updatedAt, startedAt),
      startedAt)
  }

  /**
   * Each column is the detail's value when that is present and non-empty,
   * and its default otherwise.
   */
  lemma FieldsOfDefaults(d: PullDetail, startedAt: string)
    ensures var f := FieldsOf(d, startedAt);
      && (Truthy(d.title) ==> f.title == d.title.value)
      && (!Truthy(d.title) ==> f.title == "")
      && f.body == d.body
      && (Truthy(d.userLogin) ==> f.author == d.userLogin.value)
      && (!Truthy(d.userLogin) ==> f.author == "unknown")
      && f.state == NormalizePrState(d.state, d.mergedAt)
      && (Truthy(d.headRef) ==> f.headBranch == d.headRef.value)
      && (!Truthy(d.headRef) ==> f.headBranch == "")
      && (Truthy(d.baseRef) ==> f.baseBranch == d.baseRef.value)
      && (!Truthy(d.baseRef) ==> f.baseBranch == "")
      && (d.changedFiles.Some? ==> f.changedFiles == d.changedFiles.value)
      && (d.changedFiles.None? ==> f.changedFiles == 0)
      && (Truthy(d.createdAt) ==> f.createdAt == d.createdAt.value)
      && (!Truthy(d.createdAt) ==> f.createdAt == startedAt)
      && (Truthy(d.updatedAt) ==> f.updatedAt == d.updatedAt.value)
      && (!Truthy(d.updatedAt) ==> f.updatedAt == startedAt)
      && f.syncedAt == startedAt
  {
  }

  /** A document with none of the optional fields yields the documented defaults. */
  lemma FieldsOfEmptyDetail(startedAt: string)
    ensures var f := FieldsOf(PullDetail(None, None, None, None, None, None, None, None, [], [], None, None), startedAt);
      && f.title == "" && f.author == "unknown" && f.state == Open
      && f.headBranch == "" && f.baseBranch == "" && f.changedFiles == 0
      && f.reviewers == JsonArray([])
      && f.createdAt == startedAt && f.updatedAt == startedAt && f.syncedAt == startedAt
  {
  }

  /**
   * `_parse_iso_datetime` around an abstract parser `parse`: a missing or
   * empty value never parses; otherwise the parser decides.
   */
  function ParseTimestamp(parse: string -> Option<int>, v: Option<string>): (t: Option<int>)
    ensures !Truthy(v) ==> t == None
    ensures Truthy(v) ==> t == parse(v.value)
  {
    if Truthy(v) then parse(v.value) else None
  }
}

=== FILE: session.dfy ===
/**
 * What the two front ends share around a sync pass: the world a command
 * sees (the database and the keychain), the token update of `repo add` and
 * `POST /repos`, and one pass of `sync_repository` through a freshly opened
 * client.
 */
module Session {
  import opened Wrappers
  import opened Text
  import opened Failures
  import opened GitHub
  import opened Db
  import opened Sync
  import opened Credentials

  datatype World = World(store: Store, kc: Keychain)

  /**
   * The token update: a non-blank token is stored in the keychain, a blank
   * or absent one deletes the entry, and then the legacy column is cleared.
   * A keychain failure aborts before the column is touched.
   */
  function ReplaceToken(w: World, name: string, token: Option<string>): (r: Result<World, Failure>)
    ensures r.Err? <==>
      if Truthy(NormalizeOptionalText(token)) then SetToken(w.kc, name, NormalizeOptionalText(token).value).Err?
      else DeleteToken(w.kc, name).Err?
    ensures r.Err? && r.error == KeychainUnavailable ==> w.kc.NoKeychain? && Truthy(NormalizeOptionalText(token))
    ensures r.Err? ==> r.error == KeychainUnavailable || r.error == KeychainCommandFailed
    ensures r.Ok? ==> r.value.store == ClearLegacyToken(w.store, name)
    ensures r.Ok? ==> GetToken(r.value.kc, name) == Ok(NormalizeOptionalText(token))
    ensures r.Ok? ==> forall a :: a != name ==> GetToken(r.value.kc, a) == GetToken(w.kc, a)
  {
    var normalized := NormalizeOptionalText(token);
    if Truthy(normalized) then
      match SetToken(w.kc, name, normalized.value)
      case Err(e) => Err(e)
      case Ok(kc) =>
        NormalizeOptionalTextIdempotent(token);
        StripUnchanged(normalized.value);
        SetThenGet(w.kc, name, normalized.value);
        assert GetToken(kc, name) == Ok(normalized);
        Ok(World(ClearLegacyToken(w.store, name), kc))
    else
      match DeleteToken(w.kc, name)
      case Err(e) => Err(e)
      case Ok(kc) =>
        DeleteThenGet(w.kc, name);
        assert normalized == None;
        Ok(World(ClearLegacyToken(w.store, name), kc))
  }

  /**
   * After a token update the repository's credentials resolve to the new
   * token, or to the settings token when it was blank: no stale keychain
   * entry or legacy column value survives.
   */
  lemma ReplaceTokenThenResolve(w: World, name: string, token: Option<string>, settings: Settings)
    requires name in w.store.repos && w.store.repos[name].fullName == name
    requires ReplaceToken(w, name, token).Ok?
    ensures var w' := ReplaceToken(w, name, token).value;
      && ResolveGithubConfig(w'.kc, w'.store.repos[name], settings).Ok?
      && ResolveGithubConfig(w'.kc, w'.store.repos[name], settings).value.token ==
           if Truthy(NormalizeOptionalText(token)) then NormalizeOptionalText(token) else settings.token
  {
    NormalizeOptionalTextIdempotent(token);
  }

  /**
   * The body of the `try` around `sync_repository` in both front ends: look
   * the repository up, open a client for it, run one pass.
   */
  function ClientSync(w: World, settings: Settings, remote: Remote, name: string, fullSync: bool, startedAt: string, parse: string -> Option<int>)
    : (r: Result<SyncOutcome, Failure>)
    ensures name !in w.store.repos ==> r == Err(NotRegistered)
    ensures name in w.store.repos && OpenClient(w.kc, w.store.repos[name], settings).Err? ==>
      r == Err(OpenClient(w.kc, w.store.repos[name], settings).error)
    ensures r.Ok? ==> OpenClient(w.kc, w.store.repos[name], settings).Ok?
    ensures r.Ok? <==>
      name in w.store.repos && OpenClient(w.kc, w.store.repos[name], settings).Ok?
      && SyncRepository(w.store, remote, name, fullSync, startedAt, parse).Ok?
    ensures r.Ok? ==> r == SyncRepository(w.store, remote, name, fullSync, startedAt, parse)
  {
    if name !in w.store.repos then Err(NotRegistered)
    else
      var client :- OpenClient(w.kc, w.store.repos[name], settings);
      SyncRepository(w.store, remote, name, fullSync, startedAt, parse)
  }

  /** A successful pass through a client keeps the store invariant. */
  lemma ClientSyncKeepsStoreValid(w: World, settings: Settings, remote: Remote, name: string, fullSync: bool, startedAt: string, parse: string -> Option<int>)
    requires ClientSync(w, settings, remote, name, fullSync, startedAt, parse).Ok?
    ensures Valid(w.store) ==> Valid(ClientSync(w, settings, remote, name, fullSync, startedAt, parse).value.store)
  {
    SyncKeepsStoreValid(w.store, remote, name, fullSync, startedAt, parse);
  }

  /** One pass for a target, as a front end runs it against the world the earlier passes left. */
  type Pass = (World, string) -> Result<SyncOutcome, Failure>

  /**
   * The pass both front ends run for target `t`: `remotes(t)` is the server
   * as seen for that target and `clock(t)` the start time of its pass.
   */
  function PassWith(settings: Settings, remotes: string -> Remote, full: bool, clock: string -> string,
                    parse: string -> Option<int>): Pass {
    (w: World, t: string) => ClientSync(w, settings, remotes(t), t, full, clock(t), parse)
  }

  /** A pass that, when it succeeds, leaves a valid store behind a valid one. */
  ghost predicate PassKeepsValid(pass: Pass) {
    forall w: World, t: string :: Valid(w.store) && pass(w, t).Ok? ==> Valid(pass(w, t).value.store)
  }

  lemma PassWithKeepsValid(settings: Settings, remotes: string -> Remote, full: bool, clock: string -> string,
                           parse: string -> Option<int>)
    ensures PassKeepsValid(PassWith(settings, remotes, full, clock, parse))
  {
    var pass := PassWith(settings, remotes, full, clock, parse);
    forall w: World, t: string | Valid(w.store) && pass(w, t).Ok?
      ensures Valid(pass(w, t).value.store)
    {
      ClientSyncKeepsStoreValid(w, settings, remotes(t), t, full, clock(t), parse);
    }
  }

  /**
   * The rollback after a failed first sync of a repository being added: the
   * pass itself is discarded;
   * a row this command created is removed, and so is a token it stored,
   * ignoring a failure to delete it.
   */
  function RollBackAdd(committed: World, name: string, created: bool, token: Option<string>): (r: World)
    ensures !created ==> r == committed
    ensures created ==> r.store == RemoveRepository(committed.store, name).store
    ensures created && Truthy(NormalizeOptionalText(token)) && r.kc.Keychain? && !r.kc.broken ==> name !in r.kc.tokens
    ensures !Truthy(NormalizeOptionalText(token)) ==> r.kc == committed.kc
  {
    if !created then committed
    else
      var kc := if Truthy(NormalizeOptionalText(token)) then DropToken(committed.kc, name) else committed.kc;
      World(RemoveRepository(committed.store, name).store, kc)
  }

  /** `delete_github_token` whose `KeychainCommandError` is swallowed. */
  function DropToken(kc: Keychain, name: string): (r: Keychain)
    ensures r.Keychain? && !r.broken ==> name !in r.tokens
  {
    match DeleteToken(kc, name)
    case Ok(k) => k
    case Err(_) => kc
  }
}

=== FILE: sorting.dfy ===
/**
 * Python's `sorted(set(...))` for the two element types the source sorts:
 * strings (reviewer identifiers, repository names) in code-point order and
 * integers (missing review ids). Results are strictly ascending, so they are
 * sorted and free of duplicates at once.
 */
module Sorting {
  import opened Text

  predicate StrictlySorted(s: seq<string>) {
    forall i, j :: 0 <= i < j < |s| ==> LexLt(s[i], s[j])
  }

  /** Every element of a strictly sorted list after its head is above the head. */
  lemma HeadIsLeast(s: seq<string>)
    requires StrictlySorted(s) && |s| > 0
    ensures forall y :: y in s[1..] ==> LexLt(s[0], y)
  {
  }

  /** A member of a strictly sorted list is its head or above it. */
  lemma AtLeastHead(s: seq<string>, x: string)
    requires StrictlySorted(s) && x in s
    ensures x == s[0] || LexLt(s[0], x)
  {
  }

  /** Two strings are never each below the other. */
  lemma NotBothBelow(a: string, b: string)
    ensures !(LexLt(a, b) && LexLt(b, a))
  {
    if LexLt(a, b) {
      LexLtAsymmetric(a, b);
    }
  }

  /**
   * A strictly sorted list is determined by its members: `sorted(set(xs))`
   * has exactly one possible value.
   */
  lemma {:induction false} StrictlySortedUnique(a: seq<string>, b: seq<string>)
    requires StrictlySorted(a) && StrictlySorted(b)
    requires forall x :: x in a <==> x in b
    ensures a == b
    decreases |a|
  {
    assert |a| > 0 ==> a[0] in b;
    assert |b| > 0 ==> b[0] in a;
    if |a| > 0 && |b| > 0 {
      AtLeastHead(b, a[0]);
      AtLeastHead(a, b[0]);
      NotBothBelow(a[0], b[0]);
      assert a[0] == b[0];
      HeadIsLeast(a);
      HeadIsLeast(b);
      LexLtIrreflexive(a[0]);
      forall x
        ensures x in a[1..] <==> x in b[1..]
      {
        assert x in a <==> x == a[0] || x in a[1..];
        assert x in b <==> x == b[0] || x in b[1..];
      }
      StrictlySortedUnique(a[1..], b[1..]);
      assert a == [a[0]] + a[1..];
      assert b == [b[0]] + b[1..];
    }
  }

  /** Insert `x` into a strictly sorted list unless it is already there. */
  function InsertString(x: string, s: seq<string>): (r: seq<string>)
    requires StrictlySorted(s)
    ensures StrictlySorted(r)
    ensures forall y :: y in r <==> y == x || y in s
    decreases |s|
  {
    if |s| == 0 then [x]
    else if x == s[0] then s
    else if LexLt(x, s[0]) then
      InsertBeforeHead(x, s);
      [x] + s
    else
      var rest := InsertString(x, s[1..]);
      InsertAfterHead(x, s, rest);
      [s[0]] + rest
  }

  lemma InsertBeforeHead(x: string, s: seq<string>)
    requires StrictlySorted(s) && |s| > 0 && LexLt(x, s[0])
    ensures StrictlySorted([x] + s)
  {
    forall j | 1 <= j < |s| + 1
      ensures LexLt(([x] + s)[0], ([x] + s)[j])
    {
      if j > 1 {
        LexLtTransitive(x, s[0], s[j - 1]);
      }
    }
  }

  lemma InsertAfterHead(x: string, s: seq<string>, rest: seq<string>)
    requires StrictlySorted(s) && |s| > 0 && x != s[0] && !LexLt(x, s[0])
    requires StrictlySorted(rest)
    requires forall y :: y in rest <==> y == x || y in s[1..]
    ensures StrictlySorted([s[0]] + rest)
  {
    LexLtTotal(x, s[0]);
    HeadIsLeast(s);
    var r := [s[0]] + rest;
    forall i, j | 0 <= i < j < |r|
      ensures LexLt(r[i], r[j])
    {
      if i == 0 {
        assert r[j] in rest;
      }
    }
  }

  /** `sorted(set(xs))` for strings. */
  function SortedUniqueStrings(xs: seq<string>): (r: seq<string>)
    ensures StrictlySorted(r)
    ensures forall y :: y in r <==> y in xs
  {
    if |xs| == 0 then []
    else
      var init := xs[..|xs| - 1];
      assert xs == init + [xs[|xs| - 1]];
      InsertString(xs[|xs| - 1], SortedUniqueStrings(init))
  }

  /** `sorted(names)` for a set of strings; the order of picking does not matter. */
  method SortedStringsOf(names: set<string>) returns (r: seq<string>)
    ensures StrictlySorted(r)
    ensures forall y :: y in r <==> y in names
  {
    var pending := names;
    r := [];
    while pending != {}
      invariant StrictlySorted(r)
      invariant pending <= names
      invariant forall y :: y in r <==> y in names && y !in pending
      decreases |pending|
    {
      var x :| x in pending;
      r := InsertString(x, r);
      pending := pending - {x};
    }
  }

  predicate StrictlyAscending(s: seq<int>) {
    forall i, j :: 0 <= i < j < |s| ==> s[i] < s[j]
  }

  /** Insert `x` into a strictly ascending list of integers unless it is already there. */
  function InsertInt(x: int, s: seq<int>): (r: seq<int>)
    requires StrictlyAscending(s)
    ensures StrictlyAscending(r)
    ensures forall y :: y in r <==> y == x || y in s
    decreases |s|
  {
    if |s| == 0 then [x]
    else if x == s[0] then s
    else if x < s[0] then [x] + s
    else
      var rest := InsertInt(x, s[1..]);
      var r := [s[0]] + rest;
      assert StrictlyAscending(r) by {
        forall i, j | 0 <= i < j < |r|
          ensures r[i] < r[j]
        {
          if i == 0 {
            assert r[j] in rest;
            assert r[j] == x || r[j] in s[1..];
          } else {
            assert r[i] == rest[i - 1] && r[j] == rest[j - 1];
          }
        }
      }
      r
  }

  /** `sorted(set(xs))` for integers. */
  function SortedUniqueInts(xs: seq<int>): (r: seq<int>)
    ensures StrictlyAscending(r)
    ensures forall y :: y in r <==> y in xs
  {
    if |xs| == 0 then []
    else
      var init := xs[..|xs| - 1];
      assert xs == init + [xs[|xs| - 1]];
      InsertInt(xs[|xs| - 1], SortedUniqueInts(init))
  }
}

=== FILE: sync.dfy ===
/**
 * `sync_repository`: choose the pull requests to fetch (everything, or the
 * newest-first prefix not older than the watermark), upsert each one from
 * its detail document, and advance the watermark to the pass start time.
 *
 * The remote repository is an oracle: `allPages` answers the plain listing
 * (`state=all`), `updatedPages` the listing sorted by update time
 * descending, and `details` the detail request for each number. A pass that
 * fails returns only its failure: every caller rolls the store back to the
 * last commit, so the partial writes are never observed.
 */
module Sync {
  import opened Wrappers
  import opened Failures
  import opened GitHub
  import opened Db
  import opened Normalize

  /** The fields of a listing entry the engine reads. */
  datatype ListItem = ListItem(number: int, updatedAt: Option<string>)

  datatype Remote = Remote(
    allPages: seq<Reply<seq<ListItem>>>,
    updatedPages: seq<Reply<seq<ListItem>>>,
    details: map<int, Reply<PullDetail>>)

  /**
   * `get_pull_request`: a number the server does not know answers 404; a
   * known one yields exactly its detail document unless that exchange failed.
   */
  function FetchDetail(remote: Remote, number: int): (r: Result<PullDetail, Failure>)
    ensures number !in remote.details ==> r == Err(GitHubError(HttpStatus(404)))
    ensures r.Ok? <==> number in remote.details && remote.details[number].Reply? && remote.details[number].status < 400
    ensures r.Ok? ==> r.value == remote.details[number].body
    ensures number in remote.details && remote.details[number].TransportFailure? ==> r == Err(TransportError)
    ensures number in remote.details && remote.details[number].Reply? && remote.details[number].status >= 400 ==>
      r == Err(GitHubError(HttpStatus(remote.details[number].status)))
  {
    if number in remote.details then Request(remote.details[number]) else Err(GitHubError(HttpStatus(404)))
  }

  /** An entry whose `updated_at` parses to a time strictly before the cutoff. */
  predicate IsStale(parse: string -> Option<int>, cutoff: int, x: ListItem) {
    var t := ParseTimestamp(parse, x.updatedAt);
    t.Some? && t.value < cutoff
  }

  /** The longest prefix of `items` that holds no stale entry. */
  function FreshPrefix(parse: string -> Option<int>, cutoff: int, items: seq<ListItem>): (r: seq<ListItem>)
    ensures r <= items
    ensures forall i :: 0 <= i < |r| ==> !IsStale(parse, cutoff, r[i])
    ensures |r| < |items| ==> IsStale(parse, cutoff, items[|r|])
  {
    if |items| == 0 || IsStale(parse, cutoff, items[0]) then []
    else [items[0]] + FreshPrefix(parse, cutoff, items[1..])
  }

  /** A prefix with no stale entry that ends at a stale entry or at the end is the fresh prefix. */
  lemma {:induction false} FreshPrefixUnique(parse: string -> Option<int>, cutoff: int, items: seq<ListItem>, n: nat)
    requires n <= |items|
    requires forall i :: 0 <= i < n ==> !IsStale(parse, cutoff, items[i])
    requires n < |items| ==> IsStale(parse, cutoff, items[n])
    ensures FreshPrefix(parse, cutoff, items) == items[..n]
    decreases n
  {
    if n > 0 {
      FreshPrefixUnique(parse, cutoff, items[1..], n - 1);
      assert items[..n] == [items[0]] + items[1..][..n - 1];
    }
  }

  lemma FreshPrefixAppend(parse: string -> Option<int>, cutoff: int, a: seq<ListItem>, b: seq<ListItem>)
    ensures FreshPrefix(parse, cutoff, a + b) ==
      if |FreshPrefix(parse, cutoff, a)| < |a| then FreshPrefix(parse, cutoff, a)
      else a + FreshPrefix(parse, cutoff, b)
  {
    var fa := FreshPrefix(parse, cutoff, a);
    if |fa| < |a| {
      FreshPrefixUnique(parse, cutoff, a + b, |fa|);
      assert (a + b)[..|fa|] == fa;
    } else {
      var fb := FreshPrefix(parse, cutoff, b);
      FreshPrefixUnique(parse, cutoff, a + b, |a| + |fb|);
      assert (a + b)[..|a| + |fb|] == a + fb;
    }
  }

  /**
   * An entry whose `updated_at` is missing or empty is never stale, so the
   * scan keeps it and reads on.
   */
  lemma UndatedEntryKept(parse: string -> Option<int>, cutoff: int, x: ListItem, rest: seq<ListItem>)
    requires !Truthy(x.updatedAt)
    ensures FreshPrefix(parse, cutoff, [x] + rest) == [x] + FreshPrefix(parse, cutoff, rest)
  {
  }

  /**
   * The entry at which the fresh prefix stops always carries an `updated_at`
   * that parses to a time before the cutoff: a missing, empty or
   * unparseable timestamp never ends the scan.
   */
  lemma ScanStopsOnlyAtDatedEntry(parse: string -> Option<int>, cutoff: int, items: seq<ListItem>)
    ensures var n := |FreshPrefix(parse, cutoff, items)|;
      n < |items| ==>
        && Truthy(items[n].updatedAt)
        && parse(items[n].updatedAt.value).Some?
        && parse(items[n].updatedAt.value).value < cutoff
  {
  }

  /** A listing page after which the incremental scan requests no further page. */
  predicate ScanEndsAt(parse: string -> Option<int>, cutoff: int, reply: Reply<seq<ListItem>>) {
    Request(reply).Err? || |reply.body| < PerPage || |FreshPrefix(parse, cutoff, reply.body)| < |reply.body|
  }

  /** The incremental scan from page index `i` on, as a recursive definition. */
  function ScanFrom(pages: seq<Reply<seq<ListItem>>>, i: nat, parse: string -> Option<int>, cutoff: int): Result<seq<ListItem>, Failure>
    decreases |pages| - i
  {
    if i >= |pages| then Ok([])
    else
      match Request(pages[i])
      case Err(e) => Err(e)
      case Ok(items) =>
        if |items| == 0 then Ok([])
        else
          var kept := FreshPrefix(parse, cutoff, items);
          if |kept| < |items| || |items| < PerPage then Ok(kept)
          else Prepend(items, ScanFrom(pages, i + 1, parse, cutoff))
  }

  /**
   * Whenever the full listing of the same pages succeeds, the incremental
   * scan returns its longest prefix free of stale entries.
   */
  lemma {:induction false} ScanIsFreshPrefixOfPaginate(pages: seq<Reply<seq<ListItem>>>, i: nat, parse: string -> Option<int>, cutoff: int)
    requires PaginateFrom(pages, i).Ok?
    ensures ScanFrom(pages, i, parse, cutoff) == Ok(FreshPrefix(parse, cutoff, PaginateFrom(pages, i).value))
    decreases |pages| - i
  {
    if i < |pages| {
      var items := Request(pages[i]).value;
      if |items| >= PerPage {
        var rest := PaginateFrom(pages, i + 1).value;
        FreshPrefixAppend(parse, cutoff, items, rest);
        if |FreshPrefix(parse, cutoff, items)| == |items| {
          ScanIsFreshPrefixOfPaginate(pages, i + 1, parse, cutoff);
        }
      }
    }
  }

  /** What one page of the newest-first listing means for the scan. */
  datatype PageStep = Failed(error: Failure) | Last(kept: seq<ListItem>) | Continue(items: seq<ListItem>)

  /** The scan's decision for one page: a failure, the last page with the entries it keeps, or a full fresh page. */
  function PageOutcome(reply: Reply<seq<ListItem>>, parse: string -> Option<int>, cutoff: int): (step: PageStep)
    ensures step.Continue? <==> !ScanEndsAt(parse, cutoff, reply)
  {
    match Request(reply)
    case Err(e) => Failed(e)
    case Ok(items) =>
      if |items| == 0 then Last([])
      else
        var kept := FreshPrefix(parse, cutoff, items);
        if |kept| < |items| || |items| < PerPage then Last(kept) else Continue(items)
  }

  /** One step of the scan, read through `PageReply`, so pages past the end behave as the empty page. */
  lemma ScanFromPage(pages: seq<Reply<seq<ListItem>>>, i: nat, parse: string -> Option<int>, cutoff: int)
    ensures ScanFrom(pages, i, parse, cutoff) ==
      match PageOutcome(PageReply(pages, i), parse, cutoff)
      case Failed(e) => Err(e)
      case Last(kept) => Ok(kept)
      case Continue(items) => Prepend(items, ScanFrom(pages, i + 1, parse, cutoff))
  {
  }

  /** The fixed parameters of the newest-first listing. */
  const UpdatedListing: Query := map["state" := QText("all"), "sort" := QText("updated"), "direction" := QText("desc")]

  /** The query of one page of the newest-first listing. */
  function UpdatedPageQuery(page: nat): Query {
    PageQuery(UpdatedListing, page)
  }

  /** The entries of one page kept by the scan, and whether it met a stale entry. */
  method TakeFresh(parse: string -> Option<int>, cutoff: int, items: seq<ListItem>) returns (kept: seq<ListItem>, shouldStop: bool)
    ensures kept == FreshPrefix(parse, cutoff, items)
    ensures shouldStop <==> |kept| < |items|
  {
    kept := [];
    shouldStop := false;
    var j := 0;
    while j < |items|
      invariant 0 <= j <= |items|
      invariant kept == items[..j]
      invariant forall k :: 0 <= k < j ==> !IsStale(parse, cutoff, items[k])
      decreases |items| - j
    {
      if IsStale(parse, cutoff, items[j]) {
        shouldStop := true;
        break;
      }
      kept := kept + [items[j]];
      j := j + 1;
    }
    FreshPrefixUnique(parse, cutoff, items, j);
  }

  /** The body of the paging loop for one fetched page. */
  method TakePage(reply: Reply<seq<ListItem>>, parse: string -> Option<int>, cutoff: int) returns (step: PageStep)
    ensures step == PageOutcome(reply, parse, cutoff)
  {
    var response := Request(reply);
    if response.Err? {
      return Failed(response.error);
    }
    var items := response.value;
    if |items| == 0 {
      return Last([]);
    }
    var kept, shouldStop := TakeFresh(parse, cutoff, items);
    if shouldStop || |items| < PerPage {
      step := Last(kept);
    } else {
      step := Continue(items);
    }
  }

  /**
   * The incremental branch of `sync_repository`: pages newest-first, keeps
   * entries until the first stale one (which is excluded), and stops after a
   * page that is empty, short, or held a stale entry.
   */
  method IncrementalScan(pages: seq<Reply<seq<ListItem>>>, parse: string -> Option<int>, cutoff: int)
    returns (r: Result<seq<ListItem>, Failure>, queries: seq<Query>)
    ensures r == ScanFrom(pages, 0, parse, cutoff)
    ensures |queries| >= 1
    ensures forall j :: 0 <= j < |queries| ==> queries[j] == UpdatedPageQuery(j + 1)
    ensures forall j :: 0 <= j < |queries| - 1 ==> !ScanEndsAt(parse, cutoff, PageReply(pages, j))
    ensures ScanEndsAt(parse, cutoff, PageReply(pages, |queries| - 1))
  {
    r, queries := ScanPages(pages, parse, cutoff, UpdatedListing);
  }

  /** Index of the first page at or after `i` after which the scan requests no further page. */
  function ScanStop(pages: seq<Reply<seq<ListItem>>>, parse: string -> Option<int>, cutoff: int, i: nat): (k: nat)
    ensures i <= k
    ensures ScanEndsAt(parse, cutoff, PageReply(pages, k))
    ensures forall j :: i <= j < k ==> !ScanEndsAt(parse, cutoff, PageReply(pages, j))
    decreases |pages| - i
  {
    if i >= |pages| || ScanEndsAt(parse, cutoff, PageReply(pages, i)) then i else ScanStop(pages, parse, cutoff, i + 1)
  }

  /** The paging loop of the incremental branch, sending `params` with each page number. */
  method ScanPages(pages: seq<Reply<seq<ListItem>>>, parse: string -> Option<int>, cutoff: int, params: Query)
    returns (r: Result<seq<ListItem>, Failure>, queries: seq<Query>)
    ensures r == ScanFrom(pages, 0, parse, cutoff)
    ensures |queries| == ScanStop(pages, parse, cutoff, 0) + 1
    ensures forall j :: 0 <= j < |queries| ==> queries[j] == PageQuery(params, j + 1)
  {
    var page: nat := 1;
    var pulls: seq<ListItem> := [];
    queries := [];
    PrependNil(ScanFrom(pages, 0, parse, cutoff));
    while true
      invariant 1 <= page <= |pages| + 1
      invariant ScanStop(pages, parse, cutoff, 0) == ScanStop(pages, parse, cutoff, page - 1)
      invariant ScanFrom(pages, 0, parse, cutoff) == Prepend(pulls, ScanFrom(pages, page - 1, parse, cutoff))
      invariant queries == PageQueries(params, page - 1)
      decreases |pages| + 1 - page
    {
      queries := NextPageQueries(queries, params, page);
      var step := TakePage(PageReply(pages, page - 1), parse, cutoff);
      ScanFromPage(pages, page - 1, parse, cutoff);
      match step
      case Failed(e) =>
        r := Err(e);
        break;
      case Last(kept) =>
        r := Ok(pulls + kept);
        break;
      case Continue(items) =>
        PrependTwice(pulls, items, ScanFrom(pages, page, parse, cutoff));
        pulls := pulls + items;
        page := page + 1;
    }
    PageQueriesAt(params, page);
  }

  /** The entries one pass fetches details for. */
  function FetchSet(remote: Remote, parse: string -> Option<int>, cutoff: Option<int>, fullSync: bool): Result<seq<ListItem>, Failure> {
    if fullSync || cutoff.None? then Paginate(remote.allPages)
    else ScanFrom(remote.updatedPages, 0, parse, cutoff.value)
  }

  /** The fetch set of `sync_repository`: the full listing, or the incremental scan when a watermark parses. */
  method FetchPulls(remote: Remote, parse: string -> Option<int>, cutoff: Option<int>, fullSync: bool)
    returns (r: Result<seq<ListItem>, Failure>)
    ensures fullSync || cutoff.None? ==> r == Paginate(remote.allPages)
    ensures !fullSync && cutoff.Some? && Paginate(remote.updatedPages).Ok? ==>
      r == Ok(FreshPrefix(parse, cutoff.value, Paginate(remote.updatedPages).value))
    ensures r == FetchSet(remote, parse, cutoff, fullSync)
  {
    if fullSync || cutoff.None? {
      var queries;
      r, queries := PaginateLoop(remote.allPages, map["state" := QText("all")]);
    } else {
      var queries;
      r, queries := IncrementalScan(remote.updatedPages, parse, cutoff.value);
      if Paginate(remote.updatedPages).Ok? {
        ScanIsFreshPrefixOfPaginate(remote.updatedPages, 0, parse, cutoff.value);
      }
    }
  }

  /** The keys the upsert loop writes for `items` of repository `rid`. */
  function FetchedKeys(rid: RepoId, items: seq<ListItem>): set<PullKey> {
    set i | 0 <= i < |items| :: (rid, items[i].number)
  }

  lemma FetchedKeysCons(rid: RepoId, items: seq<ListItem>)
    requires |items| > 0
    ensures FetchedKeys(rid, items) == {(rid, items[0].number)} + FetchedKeys(rid, items[1..])
  {
    forall k | k in FetchedKeys(rid, items)
      ensures k in {(rid, items[0].number)} + FetchedKeys(rid, items[1..])
    {
      var i :| 0 <= i < |items| && k == (rid, items[i].number);
      if i > 0 {
        assert items[1..][i - 1] == items[i];
      }
    }
    forall k | k in FetchedKeys(rid, items[1..])
      ensures k in FetchedKeys(rid, items)
    {
      var i :| 0 <= i < |items[1..]| && k == (rid, items[1..][i].number);
      assert items[1..][i] == items[i + 1];
    }
  }

  predicate AllDetailsOk(remote: Remote, items: seq<ListItem>) {
    forall i :: 0 <= i < |items| ==> FetchDetail(remote, items[i].number).Ok?
  }

  lemma AllDetailsOkCons(remote: Remote, items: seq<ListItem>)
    requires |items| > 0
    ensures AllDetailsOk(remote, items) <==> FetchDetail(remote, items[0].number).Ok? && AllDetailsOk(remote, items[1..])
  {
    assert forall i :: 0 < i < |items| ==> items[1..][i - 1] == items[i];
  }

  /** The columns the engine writes for pull request `number`, once its detail has been fetched. */
  function DetailFields(remote: Remote, number: int, startedAt: string): PullFields
    requires FetchDetail(remote, number).Ok?
  {
    FieldsOf(FetchDetail(remote, number).value, startedAt)
  }

  /** Every fetched entry has a row holding the columns derived from its detail. */
  predicate RowsMatchDetails(s: Store, remote: Remote, rid: RepoId, items: seq<ListItem>, startedAt: string) {
    && AllDetailsOk(remote, items)
    && forall i :: 0 <= i < |items| ==>
         && (rid, items[i].number) in s.pulls
         && s.pulls[(rid, items[i].number)].fields == DetailFields(remote, items[i].number, startedAt)
  }

  /** From `st` to `s`: every pull request row keeps its id, rows outside `keys` are untouched, reviews and statuses are unchanged. */
  predicate PullsFrame(st: Store, s: Store, keys: set<PullKey>) {
    && (forall k :: k in st.pulls ==> k in s.pulls && s.pulls[k].id == st.pulls[k].id)
    && (forall k :: k in st.pulls && k !in keys ==> s.pulls[k] == st.pulls[k])
    && s.reviews == st.reviews && s.statuses == st.statuses
  }

  lemma PullsFrameTrans(a: Store, b: Store, c: Store, k1: set<PullKey>, k2: set<PullKey>)
    requires PullsFrame(a, b, k1) && PullsFrame(b, c, k2)
    ensures PullsFrame(a, c, k1 + k2)
  {
  }

  /**
   * The upsert loop of `sync_repository`: for each entry, fetch its detail
   * and upsert the row `(rid, number)` with the derived columns. It fails
   * exactly when some detail request fails.
   */
  function UpsertAll(st: Store, remote: Remote, rid: RepoId, items: seq<ListItem>, startedAt: string): (r: Result<Store, Failure>)
    requires HasRepoId(st, rid)
    ensures r.Ok? <==> AllDetailsOk(remote, items)
    ensures r.Ok? ==> r.value.pulls.Keys == st.pulls.Keys + FetchedKeys(rid, items)
    ensures r.Ok? ==> RowsMatchDetails(r.value, remote, rid, items, startedAt)
    ensures r.Ok? ==> PullsFrame(st, r.value, FetchedKeys(rid, items)) && r.value.repos == st.repos
    ensures r.Ok? && Valid(st) ==> Valid(r.value)
    decreases |items|
  {
    if |items| == 0 then Ok(st)
    else
      AllDetailsOkCons(remote, items);
      match FetchDetail(remote, items[0].number)
      case Err(e) => Err(e)
      case Ok(d) =>
        var u := UpsertPullRequest(st, rid, items[0].number, FieldsOf(d, startedAt)).value;
        var r := UpsertAll(u.store, remote, rid, items[1..], startedAt);
        if r.Ok? then
          assert PullsFrame(st, u.store, {(rid, items[0].number)});
          UpsertAllCons(st, u.store, r.value, remote, rid, items, startedAt);
          r
        else r
  }

  /** The step of `UpsertAll`: the first upsert followed by the rest gives the contract for the whole list. */
  lemma UpsertAllCons(st: Store, mid: Store, s: Store, remote: Remote, rid: RepoId, items: seq<ListItem>, startedAt: string)
    requires |items| > 0 && FetchDetail(remote, items[0].number).Ok?
    requires mid.pulls.Keys == st.pulls.Keys + {(rid, items[0].number)}
    requires mid.pulls[(rid, items[0].number)].fields == DetailFields(remote, items[0].number, startedAt)
    requires PullsFrame(st, mid, {(rid, items[0].number)}) && mid.repos == st.repos
    requires Valid(st) ==> Valid(mid)
    requires AllDetailsOk(remote, items[1..])
    requires s.pulls.Keys == mid.pulls.Keys + FetchedKeys(rid, items[1..])
    requires RowsMatchDetails(s, remote, rid, items[1..], startedAt)
    requires PullsFrame(mid, s, FetchedKeys(rid, items[1..])) && s.repos == mid.repos
    requires Valid(mid) ==> Valid(s)
    ensures AllDetailsOk(remote, items)
    ensures s.pulls.Keys == st.pulls.Keys + FetchedKeys(rid, items)
    ensures RowsMatchDetails(s, remote, rid, items, startedAt)
    ensures PullsFrame(st, s, FetchedKeys(rid, items)) && s.repos == st.repos
    ensures Valid(st) ==> Valid(s)
  {
    AllDetailsOkCons(remote, items);
    FetchedKeysCons(rid, items);
    RowsStep(mid, s, remote, rid, items, startedAt);
    PullsFrameTrans(st, mid, s, {(rid, items[0].number)}, FetchedKeys(rid, items[1..]));
  }

  lemma RowsStep(mid: Store, s: Store, remote: Remote, rid: RepoId, items: seq<ListItem>, startedAt: string)
    requires |items| > 0 && AllDetailsOk(remote, items)
    requires (rid, items[0].number) in mid.pulls
    requires mid.pulls[(rid, items[0].number)].fields == DetailFields(remote, items[0].number, startedAt)
    requires RowsMatchDetails(s, remote, rid, items[1..], startedAt)
    requires PullsFrame(mid, s, FetchedKeys(rid, items[1..]))
    ensures RowsMatchDetails(s, remote, rid, items, startedAt)
  {
    var tail := items[1..];
    FirstRowKept(mid, s, remote, rid, items[0], tail, startedAt);
    forall i | 0 < i < |items|
      ensures (rid, items[i].number) in s.pulls
      ensures s.pulls[(rid, items[i].number)].fields == DetailFields(remote, items[i].number, startedAt)
    {
      assert items[i] == tail[i - 1];
    }
  }

  /** The row written for the head survives the rest of the loop with the same columns. */
  lemma FirstRowKept(mid: Store, s: Store, remote: Remote, rid: RepoId, x: ListItem, tail: seq<ListItem>, startedAt: string)
    requires FetchDetail(remote, x.number).Ok?
    requires (rid, x.number) in mid.pulls
    requires mid.pulls[(rid, x.number)].fields == DetailFields(remote, x.number, startedAt)
    requires RowsMatchDetails(s, remote, rid, tail, startedAt)
    requires PullsFrame(mid, s, FetchedKeys(rid, tail))
    ensures (rid, x.number) in s.pulls
    ensures s.pulls[(rid, x.number)].fields == DetailFields(remote, x.number, startedAt)
  {
    var key := (rid, x.number);
    if key in FetchedKeys(rid, tail) {
      var m :| 0 <= m < |tail| && key == (rid, tail[m].number);
    }
  }

  datatype SyncOutcome = SyncOutcome(store: Store, count: nat)

  /** The watermark read at the start of a pass: the stored one, parsed. */
  function Cutoff(st: Store, name: string, parse: string -> Option<int>): Option<int> {
    ParseTimestamp(parse, if name in st.repos then st.repos[name].lastSyncedAt else None)
  }

  /**
   * `sync_repository` with one clock reading `startedAt` for the whole pass:
   * it succeeds exactly when the listing and every detail request succeed,
   * and then reports the number of fetched entries.
   */
  function SyncRepository(st: Store, remote: Remote, name: string, fullSync: bool, startedAt: string, parse: string -> Option<int>)
    : (r: Result<SyncOutcome, Failure>)
    ensures var fetched := FetchSet(remote, parse, Cutoff(st, name, parse), fullSync);
      r.Ok? <==> fetched.Ok? && AllDetailsOk(remote, fetched.value)
    ensures r.Ok? ==> r.value.count == |FetchSet(remote, parse, Cutoff(st, name, parse), fullSync).value|
  {
    var up := UpsertRepository(st, name, startedAt);
    match FetchSet(remote, parse, Cutoff(st, name, parse), fullSync)
    case Err(e) => Err(e)
    case Ok(pulls) =>
      match UpsertAll(up.store, remote, up.id, pulls, startedAt)
      case Err(e) => Err(e)
      case Ok(st2) => Ok(SyncOutcome(TouchRepositorySyncedAt(st2, up.id, Some(startedAt), startedAt), |pulls|))
  }

  /**
   * After a successful pass the repository is registered and active and its
   * watermark and `updated_at` are the pass start time, whatever the remote
   * timestamps were; an existing row keeps its id, creation time and overrides.
   */
  lemma SyncAdvancesWatermark(st: Store, remote: Remote, name: string, fullSync: bool, startedAt: string, parse: string -> Option<int>)
    requires SyncRepository(st, remote, name, fullSync, startedAt, parse).Ok?
    ensures var s' := SyncRepository(st, remote, name, fullSync, startedAt, parse).value.store;
      && name in s'.repos
      && s'.repos[name].isActive
      && s'.repos[name].lastSyncedAt == Some(startedAt)
      && s'.repos[name].updatedAt == startedAt
      && (name in st.repos ==>
            && s'.repos[name].id == st.repos[name].id
            && s'.repos[name].createdAt == st.repos[name].createdAt
            && s'.repos[name].githubBaseUrl == st.repos[name].githubBaseUrl
            && s'.repos[name].legacyToken == st.repos[name].legacyToken)
      && (name !in st.repos ==> s'.repos[name].createdAt == startedAt && s'.repos[name].githubBaseUrl == None)
  {
    var up := UpsertRepository(st, name, startedAt);
    var pulls := FetchSet(remote, parse, Cutoff(st, name, parse), fullSync).value;
    var st2 := UpsertAll(up.store, remote, up.id, pulls, startedAt).value;
    assert st2.repos[name].id == up.id;
  }

  /**
   * After a successful pass every fetched pull request has exactly one row
   * under `(repository id, number)` holding the columns derived from its
   * detail, with `synced_at` the pass start time; rows of other pull
   * requests, reviews and review statuses are unchanged, and no row changes id.
   */
  lemma SyncWritesFetchedRows(st: Store, remote: Remote, name: string, fullSync: bool, startedAt: string, parse: string -> Option<int>)
    requires SyncRepository(st, remote, name, fullSync, startedAt, parse).Ok?
    ensures var s' := SyncRepository(st, remote, name, fullSync, startedAt, parse).value.store;
      var fetched := FetchSet(remote, parse, Cutoff(st, name, parse), fullSync).value;
      && name in s'.repos
      && var rid := s'.repos[name].id;
      && s'.pulls.Keys == st.pulls.Keys + FetchedKeys(rid, fetched)
      && RowsMatchDetails(s', remote, rid, fetched, startedAt)
      && (forall i :: 0 <= i < |fetched| ==> s'.pulls[(rid, fetched[i].number)].fields.syncedAt == startedAt)
      && PullsFrame(st, s', FetchedKeys(rid, fetched))
  {
    var up := UpsertRepository(st, name, startedAt);
    var pulls := FetchSet(remote, parse, Cutoff(st, name, parse), fullSync).value;
    var st2 := UpsertAll(up.store, remote, up.id, pulls, startedAt).value;
    assert st2.repos[name].id == up.id;
  }

  /** A pass keeps the store invariant and leaves every other repository row as it was. */
  lemma SyncKeepsStoreValid(st: Store, remote: Remote, name: string, fullSync: bool, startedAt: string, parse: string -> Option<int>)
    requires SyncRepository(st, remote, name, fullSync, startedAt, parse).Ok?
    ensures var s' := SyncRepository(st, remote, name, fullSync, startedAt, parse).value.store;
      && (Valid(st) ==> Valid(s'))
      && (Valid(st) ==> forall n :: n in st.repos && n != name ==> n in s'.repos && s'.repos[n] == st.repos[n])
  {
    var up := UpsertRepository(st, name, startedAt);
    var pulls := FetchSet(remote, parse, Cutoff(st, name, parse), fullSync).value;
    var st2 := UpsertAll(up.store, remote, up.id, pulls, startedAt).value;
    if Valid(st) {
      forall n | n in st.repos && n != name
        ensures up.store.repos[n].id != up.id
      {
      }
    }
  }

  lemma {:induction false} UpsertAllNoop(st: Store, remote: Remote, rid: RepoId, items: seq<ListItem>, startedAt: string)
    requires HasRepoId(st, rid)
    requires RowsMatchDetails(st, remote, rid, items, startedAt)
    ensures UpsertAll(st, remote, rid, items, startedAt) == Ok(st)
    decreases |items|
  {
    if |items| > 0 {
      var key := (rid, items[0].number);
      assert st.pulls[key := st.pulls[key].(fields := DetailFields(remote, items[0].number, startedAt))] == st.pulls;
      assert forall i :: 0 <= i < |items[1..]| ==> items[1..][i] == items[i + 1];
      UpsertAllNoop(st, remote, rid, items[1..], startedAt);
    }
  }

  lemma TouchIdempotent(st: Store, rid: RepoId, t: string)
    ensures var once := TouchRepositorySyncedAt(st, rid, Some(t), t);
      TouchRepositorySyncedAt(once, rid, Some(t), t) == once
  {
    var once := TouchRepositorySyncedAt(st, rid, Some(t), t);
    assert TouchRepositorySyncedAt(once, rid, Some(t), t).repos == once.repos;
  }

  /**
   * A full pass over a store that already holds its result: the row is
   * active and touched at the start time, and every fetched row holds its
   * detail's fields. Such a pass writes nothing new.
   */
  lemma FullPassFixpoint(s: Store, remote: Remote, name: string, startedAt: string, parse: string -> Option<int>)
    requires Paginate(remote.allPages).Ok?
    requires name in s.repos && s.repos[name].isActive && s.repos[name].updatedAt == startedAt
    requires RowsMatchDetails(s, remote, s.repos[name].id, Paginate(remote.allPages).value, startedAt)
    requires TouchRepositorySyncedAt(s, s.repos[name].id, Some(startedAt), startedAt) == s
    ensures SyncRepository(s, remote, name, true, startedAt, parse) == Ok(SyncOutcome(s, |Paginate(remote.allPages).value|))
  {
    var rid := s.repos[name].id;
    var pulls := Paginate(remote.allPages).value;
    assert s.repos[name].(isActive := true, updatedAt := startedAt) == s.repos[name];
    assert s.repos[name := s.repos[name]] == s.repos;
    assert UpsertRepository(s, name, startedAt) == RepoUpsert(s, rid, false);
    UpsertAllNoop(s, remote, rid, pulls, startedAt);
  }

  /** Repeating a full pass with the same start time against the same remote changes nothing. */
  lemma FullSyncIdempotent(st: Store, remote: Remote, name: string, startedAt: string, parse: string -> Option<int>)
    requires SyncRepository(st, remote, name, true, startedAt, parse).Ok?
    ensures var once := SyncRepository(st, remote, name, true, startedAt, parse).value;
      SyncRepository(once.store, remote, name, true, startedAt, parse) == Ok(once)
  {
    var once := SyncRepository(st, remote, name, true, startedAt, parse).value;
    var pulls := Paginate(remote.allPages).value;
    var up := UpsertRepository(st, name, startedAt);
    var st2 := UpsertAll(up.store, remote, up.id, pulls, startedAt).value;
    assert once == SyncOutcome(TouchRepositorySyncedAt(st2, up.id, Some(startedAt), startedAt), |pulls|);
    SyncAdvancesWatermark(st, remote, name, true, startedAt, parse);
    SyncWritesFetchedRows(st, remote, name, true, startedAt, parse);
    assert once.store.repos[name].id == up.id;
    TouchIdempotent(st2, up.id, startedAt);
    FullPassFixpoint(once.store, remote, name, startedAt, parse);
  }

  /** Timestamps `t3`, `t5` and `t9` parse to 3, 5 and 9; nothing else parses. */
  function ExampleParse(s: string): Option<int> {
    if s == "t5" then Some(5) else if s == "t3" then Some(3) else if s == "t9" then Some(9) else None
  }

  /**
   * The boundary of an incremental pass: with the watermark at 4, the scan
   * keeps the entry updated at 5 and the entry whose time does not parse,
   * stops at the entry updated at 3, and never keeps the entry after it.
   */
  lemma IncrementalBoundaryExample()
    ensures ScanFrom([Reply(200, [ListItem(1, Some("t5")), ListItem(2, Some("soon")), ListItem(3, Some("t3")), ListItem(4, Some("t9"))])], 0, ExampleParse, 4)
      == Ok([ListItem(1, Some("t5")), ListItem(2, Some("soon"))])
  {
    var items := [ListItem(1, Some("t5")), ListItem(2, Some("soon")), ListItem(3, Some("t3")), ListItem(4, Some("t9"))];
    assert !IsStale(ExampleParse, 4, items[0]) && !IsStale(ExampleParse, 4, items[1]) && IsStale(ExampleParse, 4, items[2]);
    FreshPrefixUnique(ExampleParse, 4, items, 2);
    assert items[..2] == [ListItem(1, Some("t5")), ListItem(2, Some("soon"))];
    assert Request(Reply(200, items)) == Ok(items);
  }
}

=== FILE: text.dfy ===
/**
 * The handful of Python `str` operations the front ends and the sync engine
 * rely on: `strip`, `rstrip(ch)`, `split(sep)`, code-point ordering of
 * strings (what `sorted` and SQLite's BINARY collation use) and `str(int)`.
 */
module Text {

  /** Python's `str.isspace` for one character. */
  predicate IsSpace(c: char) {
    c in {' ', '\t', '\n', '\r', '\U{0b}', '\U{0c}', '\U{1c}', '\U{1d}', '\U{1e}', '\U{1f}',
          '\U{85}', '\U{a0}', '\U{1680}', '\U{2000}', '\U{2001}', '\U{2002}', '\U{2003}',
          '\U{2004}', '\U{2005}', '\U{2006}', '\U{2007}', '\U{2008}', '\U{2009}', '\U{200a}',
          '\U{2028}', '\U{2029}', '\U{202f}', '\U{205f}', '\U{3000}'}
  }

  predicate AllSpace(s: string) {
    forall i :: 0 <= i < |s| ==> IsSpace(s[i])
  }

  /** Number of leading whitespace characters. */
  function LeadingSpace(s: string): (n: nat)
    ensures n <= |s|
    ensures AllSpace(s[..n])
    ensures n < |s| ==> !IsSpace(s[n])
  {
    if |s| > 0 && IsSpace(s[0]) then
      var m := LeadingSpace(s[1..]);
      assert s[1..][..m] == s[1..1 + m];
      1 + m
    else 0
  }

  /** Number of trailing whitespace characters. */
  function TrailingSpace(s: string): (n: nat)
    ensures n <= |s|
    ensures AllSpace(s[|s| - n..])
    ensures n < |s| ==> !IsSpace(s[|s| - n - 1])
  {
    if |s| > 0 && IsSpace(s[|s| - 1]) then
      var m := TrailingSpace(s[..|s| - 1]);
      assert s[..|s| - 1][|s| - 1 - m..] == s[|s| - 1 - m..|s| - 1];
      1 + m
    else 0
  }

  /** Python's `s.strip()`: the slice between the leading and trailing whitespace. */
  function Strip(s: string): (r: string)
    ensures |r| <= |s|
    ensures r == [] || (!IsSpace(r[0]) && !IsSpace(r[|r| - 1]))
    ensures exists i :: 0 <= i <= |s| - |r| && s[i..i + |r|] == r && AllSpace(s[..i]) && AllSpace(s[i + |r|..])
  {
    var i := LeadingSpace(s);
    var t := s[i..];
    var j := TrailingSpace(t);
    assert t[|t| - j..] == s[i + |t| - j..];
    t[..|t| - j]
  }

  /** Stripping yields the empty string exactly for whitespace-only input. */
  lemma StripEmptyIff(s: string)
    ensures Strip(s) == [] <==> AllSpace(s)
  {
  }

  /** Text with no whitespace at either end is its own strip; in particular `strip` is idempotent. */
  lemma StripUnchanged(s: string)
    requires s == [] || (!IsSpace(s[0]) && !IsSpace(s[|s| - 1]))
    ensures Strip(s) == s
  {
    assert LeadingSpace(s) == 0;
    assert s[0..] == s;
    assert TrailingSpace(s) == 0;
  }

  /** Stripping only removes characters: every character of the result occurs in the input. */
  lemma StripKeepsCharacters(s: string, c: char)
    requires c in Strip(s)
    ensures c in s
  {
    var i := LeadingSpace(s);
    var t := s[i..];
    var r := t[..|t| - TrailingSpace(t)];
    assert Strip(s) == r;
    var k :| 0 <= k < |r| && r[k] == c;
    assert s[i + k] == t[k] == c;
  }

  /** Python's `s.rstrip(c)` for a single character `c`. */
  function RStripChar(s: string, c: char): (r: string)
    ensures r <= s
    ensures r == [] || r[|r| - 1] != c
    ensures forall i :: |r| <= i < |s| ==> s[i] == c
  {
    if |s| > 0 && s[|s| - 1] == c then RStripChar(s[..|s| - 1], c) else s
  }

  /** Index of the first occurrence of `c` in `s`. */
  function IndexOf(s: string, c: char): (i: nat)
    requires c in s
    ensures i < |s| && s[i] == c && c !in s[..i]
  {
    if s[0] == c then 0 else
      var j := IndexOf(s[1..], c);
      assert s[..1 + j] == [s[0]] + s[1..][..j];
      1 + j
  }

  /** Python's `s.split(sep)` for a one-character separator. */
  function Split(s: string, sep: char): (parts: seq<string>)
    ensures |parts| >= 1
    ensures forall k :: 0 <= k < |parts| ==> sep !in parts[k]
    decreases |s|
  {
    if sep !in s then [s]
    else
      var i := IndexOf(s, sep);
      [s[..i]] + Split(s[i + 1..], sep)
  }

  /** Python's `sep.join(parts)` for a non-empty list of parts. */
  function Join(parts: seq<string>, sep: char): string
    requires |parts| >= 1
  {
    if |parts| == 1 then parts[0] else parts[0] + [sep] + Join(parts[1..], sep)
  }

  /** Splitting and re-joining gives back the original text. */
  lemma {:induction false} JoinSplit(s: string, sep: char)
    ensures Join(Split(s, sep), sep) == s
    decreases |s|
  {
    if sep in s {
      var i := IndexOf(s, sep);
      JoinSplit(s[i + 1..], sep);
      assert Split(s, sep)[1..] == Split(s[i + 1..], sep);
      assert s == s[..i] + [sep] + s[i + 1..];
    }
  }

  /** Joining separator-free parts and splitting again gives back the parts. */
  lemma {:induction false} SplitJoin(parts: seq<string>, sep: char)
    requires |parts| >= 1
    requires forall k :: 0 <= k < |parts| ==> sep !in parts[k]
    ensures Split(Join(parts, sep), sep) == parts
    decreases |parts|
  {
    if |parts| > 1 {
      var rest := Join(parts[1..], sep);
      SplitAtFirst(parts[0], rest, sep);
      SplitJoin(parts[1..], sep);
    }
  }

  /** Splitting `p + [sep] + rest` for a separator-free `p` yields `p` followed by the parts of `rest`. */
  lemma SplitAtFirst(p: string, rest: string, sep: char)
    requires sep !in p
    ensures Split(p + [sep] + rest, sep) == [p] + Split(rest, sep)
  {
    var s := p + [sep] + rest;
    assert s[|p|] == sep;
    assert s[..|p|] == p;
    assert s[|p| + 1..] == rest;
    assert forall k :: 0 <= k < |p| ==> s[k] == p[k] && s[k] != sep;
    var i := IndexOf(s, sep);
    assert i == |p|;
  }

  /** Strict code-point (lexicographic) order on strings. */
  predicate LexLt(a: string, b: string)
    decreases |a|
  {
    if |a| == 0 then |b| > 0
    else if |b| == 0 then false
    else a[0] < b[0] || (a[0] == b[0] && LexLt(a[1..], b[1..]))
  }

  predicate LexLe(a: string, b: string) {
    a == b || LexLt(a, b)
  }

  lemma {:induction false} LexLtIrreflexive(a: string)
    ensures !LexLt(a, a)
    decreases |a|
  {
    if |a| > 0 {
      LexLtIrreflexive(a[1..]);
    }
  }

  lemma {:induction false} LexLtTransitive(a: string, b: string, c: string)
    requires LexLt(a, b) && LexLt(b, c)
    ensures LexLt(a, c)
    decreases |a|
  {
    if |a| > 0 && a[0] == b[0] && b[0] == c[0] {
      LexLtTransitive(a[1..], b[1..], c[1..]);
    }
  }

  lemma {:induction false} LexLtTotal(a: string, b: string)
    ensures a == b || LexLt(a, b) || LexLt(b, a)
    decreases |a|
  {
    if |a| > 0 && |b| > 0 && a[0] == b[0] {
      LexLtTotal(a[1..], b[1..]);
      if a[1..] == b[1..] {
        assert a == [a[0]] + a[1..] && b == [b[0]] + b[1..];
      }
    }
  }

  lemma LexLtAsymmetric(a: string, b: string)
    requires LexLt(a, b)
    ensures !LexLt(b, a)
  {
    if LexLt(b, a) {
      LexLtTransitive(a, b, a);
      LexLtIrreflexive(a);
    }
  }

  lemma LexLeTransitive(a: string, b: string, c: string)
    requires LexLe(a, b) && LexLe(b, c)
    ensures LexLe(a, c)
  {
    if a != b && b != c {
      LexLtTransitive(a, b, c);
    }
  }

  lemma LexLeTotal(a: string, b: string)
    ensures LexLe(a, b) || LexLe(b, a)
  {
    LexLtTotal(a, b);
  }

  /** The decimal digit for `d`. */
  function Digit(d: nat): char
    requires d < 10
  {
    "0123456789"[d]
  }

  predicate IsDigit(c: char) {
    '0' <= c <= '9'
  }

  /** Decimal text of a natural number, without leading zeros. */
  function NatToString(n: nat): (s: string)
    ensures |s| >= 1
    ensures forall i :: 0 <= i < |s| ==> IsDigit(s[i])
    ensures |s| > 1 ==> s[0] != '0'
    decreases n
  {
    if n < 10 then [Digit(n)] else NatToString(n / 10) + [Digit(n % 10)]
  }

  /** The value of a string of decimal digits. */
  function DigitsValue(s: string): nat
    requires forall i :: 0 <= i < |s| ==> IsDigit(s[i])
  {
    if |s| == 0 then 0
    else
      assert IsDigit(s[|s| - 1]);
      10 * DigitsValue(s[..|s| - 1]) + (s[|s| - 1] as int - '0' as int)
  }

  /** Decimal text round-trips: reading the digits back gives the number. */
  lemma {:induction false} NatToStringValue(n: nat)
    ensures DigitsValue(NatToString(n)) == n
    decreases n
  {
    if n >= 10 {
      NatToStringValue(n / 10);
      var s := NatToString(n);
      assert s[..|s| - 1] == NatToString(n / 10);
    }
  }

  /** Python's `str(n)` for an integer. */
  function IntToString(n: int): (s: string)
    ensures |s| >= 1
    ensures n >= 0 ==> s == NatToString(n)
    ensures n < 0 ==> s == "-" + NatToString(-n)
  {
    if n < 0 then "-" + NatToString(-n) else NatToString(n)
  }

  lemma NatToStringInjective(a: nat, b: nat)
    requires NatToString(a) == NatToString(b)
    ensures a == b
  {
    NatToStringValue(a);
    NatToStringValue(b);
  }

  /** `str` is injective on integers, so an id printed in a message identifies it. */
  lemma IntToStringInjective(a: int, b: int)
    requires IntToString(a) == IntToString(b)
    ensures a == b
  {
    var s := IntToString(a);
    if a < 0 {
      assert s[0] == '-';
      assert NatToString(-a) == s[1..] == NatToString(-b);
      NatToStringInjective(-a, -b);
    } else {
      assert IsDigit(s[0]);
      NatToStringInjective(a, b);
    }
  }
}

=== FILE: wrappers.dfy ===
/** Failure-compatible wrappers shared by every module of the model. */
module Wrappers {

  /** A value that may be absent: Python's `X | None`. */
  datatype Option<+T> = None | Some(value: T)

  /** The outcome of an operation that raises in the source. */
  datatype Result<+T, +E> = Ok(value: T) | Err(error: E) {
    predicate IsFailure() {
      Err?
    }

    function PropagateFailure<U>(): Result<U, E>
      requires Err?
    {
      Err(error)
    }

    function Extract(): T
      requires Ok?
    {
      value
    }
  }

  /** Python truthiness of an optional string: present and non-empty. */
  predicate Truthy(s: Option<string>) {
    s.Some? && s.value != ""
  }

  /** Python's `a or b` on optional strings. */
  function OrElse(a: Option<string>, b: Option<string>): (r: Option<string>)
    ensures Truthy(a) ==> r == a
    ensures !Truthy(a) ==> r == b
  {
    if Truthy(a) then a else b
  }

  /** Python's `str(a or fallback)` on an optional string. */
  function TextOr(a: Option<string>, fallback: string): string {
    if Truthy(a) then a.value else fallback
  }
}
